=== FILE: README.md ===
# WebNeko keyboard engine and string utilities, in Dafny

This project models three parts of IPA-DN-WebNeko, the browser front end
of a remote-desktop gateway built on guacamole-common-js.

**The keyboard translation engine** (`Scripts/Misc/GuaUtil/GuaUtil.ts`).
- A logical keyboard keeps two per-keysym tables, *physical* and *virtual*.
  Each table is a set of the keysyms that are held.
- `GuaLogicalKeyboard.PhysicalKeyPressedAsync`:
  - drops any event that does not change the physical table;
  - otherwise asks the subclass hook what to do;
  - unless the hook handled the event, passes it on through `PressVirtualKeyAsync`.
  - `PressVirtualKeyAsync` emits only real press/release transitions.
- `GuaConnectedKeyboard` is the end of the chain. Each virtual key event is one `Client.sendKeyEvent`.
- `GuaComfortableKeyboard` remaps key combinations through an ordered chain of rules:
  - Meta as Win;
  - Shift+Win, and Win+letter taps;
  - right Ctrl + right Alt as Win;
  - Ctrl+Alt+End/Home/Backspace as Delete;
  - Ctrl+Shift+Backspace as Ctrl+Alt+Delete;
  - Alt+Shift as Tab;
  - three IME hotkeys.
  Its emissions feed a connected keyboard.
- `GuaUtil.KeyCodeToStr` names a keysym from the `GuaKeyCodes` table.

**The string helpers of `Scripts/Common/Base/Str.ts`.**
- Case-insensitive comparison, search and replace.
- Newline normalisation.
- HTML encoding and decoding.
- Hexadecimal formatting.
- The `FontAwsomeIcon` class-string parser.

**The polyfills of `Scripts/Polyfill/polyfill.ts`.**
- `Array.prototype.fill`, as in section 22.1.3.6 of ECMAScript 2015.
- `String.prototype.startsWith`.
- `Object.entries`.

## How each part is modelled

**Keyboard events.**
- Each physical key event is one atomic, pure step. The two `AsyncLock`s of `GuaLogicalKeyboard` serialise these calls.
- A step returns the new keyboard and the trace of virtual key events it emitted.
- `Task.Delay(ms)` becomes a `Delay(ms)` marker in the trace.

**Rules.**
- A rule's `await PressVirtualKeyAsync(...)` calls become a request list.
- `LogicalKeyboard.Run` executes the requests with the same de-duplication as `PressVirtualKeyAsync`.
- Each rule is proved against `LogicalKeyboard.Walk`, the table the requests lead to when each one is a real transition.

**The keyboard chain.** The comfortable keyboard sits over the connected keyboard.
- The upper keyboard's trace is fed event by event into the lower keyboard (`KeyboardChain.Feed`).
- The lower keyboard's trace is what the session sends.

**Strings and integers.**
- JavaScript `null`/`undefined` strings are `Option<string>` in most of the functions where `Str.ts` tests for them.
  - `Str.SearchStr` and `Str.ReplaceStr` take plain strings, although `Str.ts` tests for null there too. Both read a missing string as "", so their behaviour is the same.
  - `Str.Trim` is JavaScript's own `trim` on a string, as called at Str.ts:425, 445 and 517-518. The `Str.Trim` helper of Str.ts:356-359 accepts any value; "## Left out" says what that adds.
- `toLowerCase` is ASCII case folding.
- Key codes are mathematical integers.

| file | module | models |
|---|---|---|
| wrappers.dfy | Wrappers | `Option` |
| str_core.dfy | Str | `NonNull`, `IsSamei`/`StrCmpi`, `trim`, `IsEmpty`, `NonNullTrim`, `indexOf`, `SearchStr`, `ReplaceStr` |
| str_replace.dfy | StrReplace | a reference scan for `ReplaceStr` and its equivalence with the `while` loop of `ReplaceStr` |
| str_tokens.dfy | StrTokens | replacing inside a string built from tokens |
| newlines.dfy | NewLines | `NormalizeCrlf` and its line-unit reading |
| html.dfy | Html | `EncodeHtml`, `DecodeHtml` |
| html_tokens.dfy, html_codec.dfy | HtmlTokens, HtmlCodec | the encode/decode stages token by token; round trip and escaping |
| hex.dfy | Hex | `toString(16)`, `toUpperCase`, `To0xHex` |
| fonticon.dfy | FontIcon | `split(" ")`, the `FontAwsomeIcon` constructor, `ParseFontAwsomeIconClassStr` |
| polyfill.dfy | Polyfill | `fill` (on sequences and on arrays), `startsWith`, `Object.entries` |
| logical_keyboard.dfy | LogicalKeyboard | `GuaConsts`, `NormalizeKeyCode`, `PressVirtualKeyAsync`, `PhysicalKeyPressedAsync` |
| key_codes.dfy | KeyCodes | the `GuaKeyCodes` table, `GuaUtil.KeyCodeToStr` |
| connected_keyboard.dfy | ConnectedKeyboard | `GuaConnectedKeyboard` |
| comfortable_keyboard.dfy | ComfortableKeyboard | `GuaComfortableKeyboard` and its rule chain |
| comfortable_rules.dfy | ComfortableRules | what each rule emits |
| keyboard_chain.dfy | KeyboardChain | the comfortable keyboard over the connected one |

## Model

| member | source | states |
|---|---|---|
| LogicalKeyboard.NormalizeKeyCode | Scripts/Misc/GuaUtil/GuaUtil.ts:258-264 | the result is below `MaxNumKeys`; an in-range code is unchanged; negative codes and codes above `InvalidKeycode` both become `InvalidKeycode`, not 0 |
| LogicalKeyboard.NormalizeIdempotent | Scripts/Misc/GuaUtil/GuaUtil.ts:258-264 | normalising a normalised code changes nothing |
| LogicalKeyboard.SetKey | Scripts/Misc/GuaUtil/GuaUtil.ts:218-229 | writing an entry sets exactly that entry; every other entry keeps its value |
| LogicalKeyboard.Emission.Press | Scripts/Misc/GuaUtil/GuaUtil.ts:208-231 | the hook is called (the event appended) exactly when `pressed` differs from the virtual entry; afterwards the entry equals `pressed` and every other entry is unchanged; the trace stays a genuine run from the start table |
| LogicalKeyboard.Emission.Wait | Scripts/Misc/GuaUtil/GuaUtil.ts:390 | a delay adds a marker and changes no table entry |
| LogicalKeyboard.PressTwiceEmitsOnce | Scripts/Misc/GuaUtil/GuaUtil.ts:208-231 | two identical `PressVirtualKeyAsync` calls emit one event when the first is a transition, none otherwise |
| LogicalKeyboard.GenuineAppend | Scripts/Misc/GuaUtil/GuaUtil.ts:208-231 | two transition-only traces, the second starting where the first ends, join into one |
| LogicalKeyboard.Run | Scripts/Misc/GuaUtil/GuaUtil.ts:208-231 | any sequence of virtual key calls and delays leaves a trace of real transitions that leads from the start table to the final one |
| LogicalKeyboard.RunTransitions | Scripts/Misc/GuaUtil/GuaUtil.ts:208-231 | when every request is a real transition of the table so far, the trace grows by exactly the requests and the table ends where they lead |
| LogicalKeyboard.RunKeys | Scripts/Misc/GuaUtil/GuaUtil.ts:208-231 | a run emits events only on keys it was asked to press or release |
| LogicalKeyboard.PhysicalKeyPressed | Scripts/Misc/GuaUtil/GuaUtil.ts:234-255 | a physical non-transition changes nothing and emits nothing; a transition sets the physical entry; whatever is emitted is a genuine run taking the old virtual table to the new one |
| LogicalKeyboard.Dispatch | Scripts/Misc/GuaUtil/GuaUtil.ts:234-255 | the hook sees the updated physical table; its requests are run; when it returns false the normalised code that arrived follows them (and is emitted if a transition); the keyboard state is the hook's |
| LogicalKeyboard.PressVirtualKey | Scripts/Misc/GuaUtil/GuaUtil.ts:208-231 | a lone `PressVirtualKeyAsync` emits the normalised key exactly when `pressed` differs from its virtual entry; afterwards that entry holds `pressed` and no other entry changes |
| ConnectedKeyboard.Receive | Scripts/Misc/GuaUtil/GuaUtil.ts:301-319 | the connected keyboard's `PhysicalKeyPressedAsync`, whose hook declines every event: it emits nothing or exactly the normalised arriving event, as a genuine run to its new virtual table (`ReceiveSends` gives which one) |
| ComfortableKeyboard.Rules | Scripts/Misc/GuaUtil/GuaUtil.ts:365-646 | the rule chain, first match wins; `RulesKeep` states what holds of every outcome and the `ComfortableRules` lemmas below state what each rule emits |
| ComfortableRules.RulesKeep | Scripts/Misc/GuaUtil/GuaUtil.ts:365-646 | no rule changes the preferences or the service type, and a declined event requests nothing and keeps every latch |
| ComfortableKeyboard.Receive | Scripts/Misc/GuaUtil/GuaUtil.ts:234-255 | `PhysicalKeyPressedAsync` with the rule chain as its hook; `ReceiveKeeps`, `Handles` and `Declines` state what it keeps and what it emits |
| ComfortableRules.ReceiveKeeps | Scripts/Misc/GuaUtil/GuaUtil.ts:234-255 | no event, taken by a rule or declined, changes the preferences or the service type |
| ConnectedKeyboard.ReceiveSends | Scripts/Misc/GuaUtil/GuaUtil.ts:301-319 | with physical and virtual tables equal, every accepted transition sends exactly that event once, a repeat sends nothing, and the tables stay equal |
| KeyCodes.FirstEntry | Scripts/Misc/GuaUtil/GuaUtil.ts:657-666 | the index returned holds the code and no earlier entry does; the table's length when none does |
| KeyCodes.KeyCodeToStr | Scripts/Misc/GuaUtil/GuaUtil.ts:653-669 | a code present in `GuaKeyCodes` gets the name of the first entry, in declaration order, whose value is the code; an absent code gets `To0xHex(code)` |
| KeyCodes.FirstName | Scripts/Misc/GuaUtil/GuaUtil.ts:657-666 | the `for ... of` search with its early return, over any table: the name of the earliest entry holding the code, or the fallback when no entry does |
| KeyCodes.KeyCodeToStrSpec | Scripts/Misc/GuaUtil/GuaUtil.ts:657-666 | the name returned belongs to the first entry, in declaration order, whose value is the code |
| KeyCodes.NamedConstants | Scripts/Misc/GuaUtil/GuaUtil.ts:64-181 | the keysyms the rules use have the values the table gives them |
| KeyCodes.KeyCodeToStrExamples | Scripts/Misc/GuaUtil/GuaUtil.ts:64-181 | 0xFF66 is "Again", 0xFE03 is "Alt2", and 0xFFEB is "Super1" because that entry precedes "Win" |
| KeyCodes.SuperFirst | Scripts/Misc/GuaUtil/GuaUtil.ts:64-181 | "Super1" is the first entry holding 0xFFEB |
| ComfortableRules.Handles | Scripts/Misc/GuaUtil/GuaUtil.ts:234-255 | a handled event emits only keys the rule requested, and exactly its requests when each is a real transition; the forwarded code is never emitted on top |
| ComfortableRules.Declines | Scripts/Misc/GuaUtil/GuaUtil.ts:248-252 | an event no rule takes is forwarded unchanged, once, and only as a virtual transition |
| ComfortableRules.MetaForwards | Scripts/Misc/GuaUtil/GuaUtil.ts:368-373 | with Shift+Win off, Meta is looked at as Win but the original Meta code is what is forwarded |
| ComfortableRules.ShiftWinPress | Scripts/Misc/GuaUtil/GuaUtil.ts:376-400 | a Win press with a Shift virtually held releases the held Shift keys, waits, presses Win, and latches which Shift keys were held; with no Shift held it emits nothing and changes no latch |
| ComfortableRules.ShiftWinRelease | Scripts/Misc/GuaUtil/GuaUtil.ts:401-416 | a Win release emits Win up, a wait, then presses the remembered Shift keys again; it clears the Shift+Win state but not the remembered flags |
| ComfortableRules.StaleShiftRepressed | Scripts/Misc/GuaUtil/GuaUtil.ts:401-416 | the remembered Shift flags are never cleared: a Win release after a Win press that found no Shift held still presses the Shift key remembered from an earlier gesture, although nobody pressed it |
| ComfortableRules.WinLetterTap | Scripts/Misc/GuaUtil/GuaUtil.ts:417-432 | during Shift+Win a newly pressed letter that is not virtually held becomes a tap of the lower-case letter |
| ComfortableRules.WinStateForwards | Scripts/Misc/GuaUtil/GuaUtil.ts:417-439 | during Shift+Win every other key skips the later rules and is forwarded as it arrived (an upper-case letter as itself) |
| ComfortableRules.Ctrl2Alt2Press | Scripts/Misc/GuaUtil/GuaUtil.ts:440-458 | right Alt pressed while right Ctrl is physically held releases right Ctrl and presses Win, sets the latch, and never emits right Alt |
| ComfortableRules.Ctrl2Alt2Release | Scripts/Misc/GuaUtil/GuaUtil.ts:459-471 | right Alt released with the latch set releases Win, clears the latch, and never emits right Alt |
| ComfortableRules.TapRule | Scripts/Misc/GuaUtil/GuaUtil.ts:472-551 | a press that a rule turns into a tap of another key emits only that key, changes no latch, and emits exactly the tap when that key is virtually up |
| ComfortableRules.CtrlAltDelete | Scripts/Misc/GuaUtil/GuaUtil.ts:472-516 | with left Ctrl and left Alt held, End, Home or Backspace (each behind its own switch) emits only a Delete tap and changes no latch; the release that immediately follows emits nothing |
| ComfortableRules.TriggerSilent | Scripts/Misc/GuaUtil/GuaUtil.ts:472-644 | a trigger the rule swallowed on its press is not virtually held, so the release that immediately follows emits nothing |
| ComfortableRules.CtrlShiftBackspace | Scripts/Misc/GuaUtil/GuaUtil.ts:517-537 | with left Ctrl and left Shift held, Backspace emits Shift up, Alt down, Delete down, wait, Delete up, Alt up, Shift down, and nothing else; the Backspace release that immediately follows emits nothing |
| ComfortableRules.AltShiftTab | Scripts/Misc/GuaUtil/GuaUtil.ts:538-551 | with left Alt held, a left Shift press emits only a Tab tap; neither that press nor the Shift release that immediately follows emits Shift |
| ComfortableRules.RequestedKeys | Scripts/Misc/GuaUtil/GuaUtil.ts:365-644 | whatever the event, every key a rule asks to press or release is Win, a Shift, Ctrl or left Alt key, Delete, Tab, one of the two IME keys, or a lower-case letter |
| ComfortableRules.HeldKeyStaysUp | Scripts/Misc/GuaUtil/GuaUtil.ts:234-255 | a key no rule asks for that is held physically but up virtually is not emitted by any one event, stays up virtually, and leaves the physical table only on its own release |
| ComfortableRules.ImeHotkey | Scripts/Misc/GuaUtil/GuaUtil.ts:552-644 | each IME hotkey releases its modifier, then emits Alt down, key down, wait, key up, Alt up, and emits only those keys; the space release that immediately follows emits nothing |
| ComfortableRules.ImeKeyExamples | Scripts/Misc/GuaUtil/GuaUtil.ts:552-582 | the IME key is the grave accent for service type "RDP" or layout "En-US-Qwerty" in any case, Zenkaku/Hankaku otherwise or when both are missing |
| KeyboardChain.FeedGenuine | Scripts/Misc/GuaUtil/GuaUtil.ts:360-363 | feeding a transition-only trace into a mirrored connected keyboard sends every key event once and in order, and the keyboard ends mirroring the table the trace leads to |
| KeyboardChain.KeyEventsGenuine | Scripts/Misc/GuaUtil/GuaUtil.ts:360-363 | dropping the waits from a genuine trace keeps it genuine and leads to the same table |
| KeyboardChain.Connect | Scripts/Misc/GuaUtil/GuaUtil.ts:192-199 | the freshly built chain is in sync, every table empty |
| KeyboardChain.PressKeepsSync | Scripts/Misc/GuaUtil/GuaUtil.ts:360-363 | one browser event keeps the connected keyboard's tables equal to the comfortable keyboard's virtual table, and the session sends exactly the comfortable keyboard's key events |
| KeyboardChain.SessionGenuine | Scripts/Misc/GuaUtil/GuaUtil.ts:208-255 | over any sequence of browser events the remote side never sees a key pressed twice or released while up, and always holds exactly the comfortable keyboard's virtual keys |
| KeyboardChain.SwallowedKeyNeverSent | Scripts/Misc/GuaUtil/GuaUtil.ts:234-255 | over any sequence of browser events up to and including its release, a swallowed key no rule asks for is never sent to the remote session and stays up there, and it stays physically held while no event releases it |
| KeyboardChain.SwallowedTriggerNeverSent | Scripts/Misc/GuaUtil/GuaUtil.ts:472-644 | End, Home, Backspace, Space or the Option+Space code, swallowed by the Ctrl+Alt, Ctrl+Shift or IME rule it triggered, is not sent to the remote session by any event before its release, nor by the release itself |
| Str.NonNull | Scripts/Common/Base/Str.ts:435-439 | a missing string becomes "", a present one is returned as it is |
| Str.IsSamei | Scripts/Common/Base/Str.ts:77-80 | `StrCmpi` under another name; the `Str.StrCmpi` and `Str.StrCmpiEquivalence` rows state what it means |
| Str.StrCmpi | Scripts/Common/Base/Str.ts:81-90 | equal exactly when the strings (missing read as "") have the same length and agree character by character after lower-casing |
| Str.StrCmpiEquivalence | Scripts/Common/Base/Str.ts:77-90 | case-insensitive comparison is reflexive, symmetric and transitive, and a missing string equals "" |
| Str.IsSameiExamples | Scripts/Common/Base/Str.ts:77-90 | "RDP" is "rdp", "En-US-Qwerty" is "en-us-qwerty"; "vnc" and a missing string are not "rdp" |
| Str.Trim | Scripts/Common/Base/Str.ts:445 | JavaScript `trim` on a string: the result neither starts nor ends with white space; `Str.TrimCut` states that only white space is cut off |
| Str.TrimStart | Scripts/Common/Base/Str.ts:442-446 | what is removed is all white space, and what is left is a suffix that does not start with white space |
| Str.TrimEnd | Scripts/Common/Base/Str.ts:442-446 | what is removed is all white space, and what is left is a prefix that does not end with white space |
| Str.TrimCut | Scripts/Common/Base/Str.ts:442-446 | `trim` keeps one contiguous slice and everything cut off either side is white space |
| Str.TrimIdempotent | Scripts/Common/Base/Str.ts:442-446 | trimming twice is trimming once |
| Str.IsEmpty | Scripts/Common/Base/Str.ts:422-428 | missing, or nothing left after trimming; `Str.IsEmptyBlank` gives its meaning |
| Str.IsEmptyBlank | Scripts/Common/Base/Str.ts:422-428 | `IsEmpty` holds exactly of a missing string and of a string made only of white space, the empty string included |
| Str.NonNullTrim | Scripts/Common/Base/Str.ts:442-446 | the trimmed string, with a missing string read as "" |
| Str.IndexOf | Scripts/Common/Base/Str.ts:153 | the least occurrence at or after the clamped start, or -1 when there is none |
| Str.SearchStr | Scripts/Common/Base/Str.ts:147-162 | -1 for an empty string or keyword; otherwise the least position at or after `start` where the keyword matches (case-folded unless case-sensitive), or -1 when none does |
| Str.SearchSkip | Scripts/Common/Base/Str.ts:147-162 | starting the search anywhere in a stretch without matches gives the same answer |
| Str.ReplaceStr | Scripts/Common/Base/Str.ts:107-144 | "" for an empty string; the string itself for an empty keyword or when the keyword matches nowhere |
| StrReplace.ReplaceStrIsScan | Scripts/Common/Base/Str.ts:107-144 | the `while` loop equals a left-to-right scan that replaces each match and resumes after it, so matches never overlap |
| StrReplace.ReplaceSelf | Scripts/Common/Base/Str.ts:107-144 | replacing a keyword by itself, case-sensitively, returns the string unchanged |
| StrTokens.ReplaceTokens | Scripts/Common/Base/Str.ts:107-144 | in a string built from tokens where the keyword can only match whole tokens equal to it, replacing in the string replaces those tokens |
| NewLines.NormalizeCrlf | Scripts/Common/Base/Str.ts:255-303 | the character loop of `NormalizeCrlf` with its pending-line buffer; `NormalizeCrlfIsRender` and `NormalizeCrlfIdempotent` state what it computes |
| NewLines.NormalizeCrlfIsRender | Scripts/Common/Base/Str.ts:255-303 | the result is the line units of the input (CRLF, lone CR and lone LF each one break, other characters kept in order) with every break written as `crlfData`, plus one more `crlfData` exactly when `ensureLastLineCrlf` is set and the last line is open |
| NewLines.UnitsOfRender | Scripts/Common/Base/Str.ts:255-303 | reading the line units back from a CRLF rendering gives the units that were rendered |
| NewLines.NormalizeCrlfIdempotent | Scripts/Common/Base/Str.ts:255-303 | with default arguments, normalising twice is normalising once |
| NewLines.UnitsNoBreak | Scripts/Common/Base/Str.ts:255-303 | a string without line breaks is one text unit per character |
| Html.ConvertSpaces | Scripts/Common/Base/Str.ts:198-235 | the space step of `EncodeHtml`, applied only when the text has a space; `HtmlCodec.EncodeSpaceRun` states what it does to a run of spaces |
| Html.DecodeHtml | Scripts/Common/Base/Str.ts:165-180 | the five replacements, line-break tags first in any case and the ampersand last, then line normalisation; `HtmlCodec.DecodeHtmlTokens` and `HtmlCodec.HtmlRoundTrip` state that it undoes `EncodeHtml` on tab-free text |
| Html.EncodeHtml | Scripts/Common/Base/Str.ts:243-249 | with `spaceIfEmpty`, an encoding that is not the space entity is never blank |
| HtmlCodec.EncodeHtmlTokens | Scripts/Common/Base/Str.ts:183-252 | the encoding is the line units of the normalised input, each written as its escaped token |
| HtmlCodec.DecodeHtmlTokens | Scripts/Common/Base/Str.ts:165-180 | decoding the escaped tokens of tab-free units gives back the normalised text |
| HtmlCodec.HtmlRoundTrip | Scripts/Common/Base/Str.ts:165-252 | for a tab-free string, decoding its encoding (without `spaceIfEmpty`) gives the newline-normalised string |
| HtmlCodec.EncodeHtmlNoAngles | Scripts/Common/Base/Str.ts:183-252 | a string without line breaks encodes to one with no '<' or '>' |
| HtmlCodec.EncodeHtmlSpaceIfEmpty | Scripts/Common/Base/Str.ts:243-249 | `spaceIfEmpty` replaces a blank encoding by the space entity and changes nothing else |
| HtmlCodec.EncodeSpaceRun | Scripts/Common/Base/Str.ts:197-235 | a run of n spaces becomes one space and n−1 space entities, or n entities when every space is forced to a tag |
| HtmlCodec.EscapeTab | Scripts/Common/Base/Str.ts:238 | the tab step of `EncodeHtml` turns every tab token into eight "&amp;" entities and leaves every other token alone |
| HtmlCodec.EncodeTab | Scripts/Common/Base/Str.ts:45 | a string holding one tab encodes to exactly `HtmlTab`, eight "&amp;" entities, with or without `forceAllSpaceToTag` |
| Hex.Base16 | Scripts/Common/Base/Str.ts:332-337 | `toString(16)` of a natural number is canonical lower-case hex: no leading zero except "0" itself |
| Hex.ParseBase16 | Scripts/Common/Base/Str.ts:332-337 | reading the digits back gives the number |
| Hex.Base16Canonical | Scripts/Common/Base/Str.ts:332-337 | every canonical digit string is the base-16 form of its value |
| Hex.CanonicalUnique | Scripts/Common/Base/Str.ts:332-337 | two canonical digit strings of the same case and value are equal |
| Hex.UpperStr | Scripts/Common/Base/Str.ts:335 | upper-casing keeps the length and maps each character |
| Hex.To0xHex | Scripts/Common/Base/Str.ts:332-337 | "0x" followed by `toString(16)`, upper-cased on request; `Hex.To0xHexDigits` states the sign, the case and the value of the digits |
| Hex.To0xHexDigits | Scripts/Common/Base/Str.ts:332-337 | "0x", a minus sign for negatives, then canonical digits in the requested case whose value is the absolute value, with no zero padding |
| FontIcon.Split | Scripts/Common/Base/Str.ts:514 | the pieces of `split` contain no separator and there is at least one |
| FontIcon.JoinSplit | Scripts/Common/Base/Str.ts:514 | joining the pieces gives back the string; there is one more piece than separators |
| FontIcon.SplitJoin | Scripts/Common/Base/Str.ts:514 | splitting a join of separator-free pieces gives the pieces back |
| FontIcon.FromPieces | Scripts/Common/Base/Str.ts:515-530 | a result that is not OK is the all-default object; an OK one has the trimmed first piece as pack name, both trimmed pieces joined by a space as class string, and the text after the first dash of the trimmed second piece as icon name |
| FontIcon.NewFontAwsomeIcon | Scripts/Common/Base/Str.ts:510-531 | an object that is not OK has every field empty; an OK one came from exactly two pieces and its fields are drawn from them |
| FontIcon.TwoWords | Scripts/Common/Base/Str.ts:510-531 | for a trimmed class string "a b" of two words, OK exactly when the second contains '-'; then the pack is the first word, the class string is both words with one space, and the icon name is what follows the first '-' |
| FontIcon.NotTwoWords | Scripts/Common/Base/Str.ts:510-531 | a trimmed class string without exactly one space gives an object that is not OK |
| FontIcon.AfterFirstDashUnique | Scripts/Common/Base/Str.ts:520-523 | the icon name is determined by the second word |
| FontIcon.ParseFontAwsomeIconClassStr | Scripts/Common/Base/Str.ts:488-498 | the icon when the constructor accepts the string, nothing otherwise |
| Polyfill.ToInt32 | Scripts/Polyfill/polyfill.ts:37 | `>> 0` gives a signed 32-bit value congruent to its argument modulo 2^32 |
| Polyfill.ToInt32InRange | Scripts/Polyfill/polyfill.ts:37 | a value already in signed 32-bit range is unchanged |
| Polyfill.RelativeIndex | Scripts/Polyfill/polyfill.ts:40-52 | a negative index counts back from the end and stops at 0; a non-negative one stops at the length; the result is never above the length |
| Polyfill.FillStart | Scripts/Polyfill/polyfill.ts:36-42 | the first index written is at most the length |
| Polyfill.FillEnd | Scripts/Polyfill/polyfill.ts:45-52 | the end is at most the length, and the length itself when omitted |
| Polyfill.Fill | Scripts/Polyfill/polyfill.ts:22-62 | the `fill` polyfill on the array's contents; `Polyfill.FillSpec` states which indices hold the value |
| Polyfill.FillSpec | Scripts/Polyfill/polyfill.ts:33-62 | the length is kept, every index from start up to end holds the value, and every other index is unchanged |
| Polyfill.FillEmptyRange | Scripts/Polyfill/polyfill.ts:55-59 | when start is not below end nothing changes |
| Polyfill.FillAll | Scripts/Polyfill/polyfill.ts:36-52 | with start and end omitted every element becomes the value |
| Polyfill.FillTwice | Scripts/Polyfill/polyfill.ts:55-62 | filling twice with the same arguments is filling once |
| Polyfill.FillArray | Scripts/Polyfill/polyfill.ts:22-62 | the array itself is returned, its contents those of the functional `fill` |
| Polyfill.StartsWith | Scripts/Polyfill/polyfill.ts:71-75 | the `startsWith` polyfill; `Polyfill.StartsWithOccurs` states when it holds |
| Polyfill.StartsWithOccurs | Scripts/Polyfill/polyfill.ts:71-75 | true exactly when the search string is empty or occurs at `StartPos(rawPos)`: `rawPos | 0` when positive, else 0; the truncation wraps to a negative start for raw positions from 2^31 to 2^32, where `substring` clamps to 0 but a non-empty string never occurs |
| Polyfill.StartsWithPrefix | Scripts/Polyfill/polyfill.ts:71-75 | with no position, true exactly when the search string is a prefix |
| Polyfill.Entries | Scripts/Polyfill/polyfill.ts:4-13 | one pair per own key, in key order, pair i being key i and its value |
| Polyfill.EntriesRoundTrip | Scripts/Polyfill/polyfill.ts:4-13 | the pairs rebuild exactly the object's own properties |

## Left out

- Asynchrony and the two `AsyncLock`s: each `PhysicalKeyPressedAsync` is one atomic step, because the locks serialise the calls.
- Timers: `Task.Delay` is a `Delay(ms)` marker in the trace and takes no time.
- Debug logging in the keyboard classes, and the `IsDebug`/`IsVnc` fields it reads. Output only.
- `GuaConnectedKeyboard.SvcType`/`IsRdp`: set but read only by the logging.
- `Client.sendKeyEvent`: the foreign client. The connected keyboard's trace is the sequence of calls it would receive.
- A failing emission. The model assumes every `PressVirtualKeyImplAsync` call, and so every `Client.sendKeyEvent`, returns normally. In the source, a throw from `sendKeyEvent` (GuaUtil.ts:312) rejects out of `PhysicalKeyPressedAsync`:
  - the physical entry has already been written (GuaUtil.ts:245);
  - the virtual entry is written only after the emission returns (GuaUtil.ts:217-220 and 225-228), so it keeps its old value;
  - the rest of the rule is skipped, including the latch updates that follow the emissions (GuaUtil.ts:395-398, 412, 454, 467).
  The lower keyboard would then hold a physical entry without its virtual one. `KeyboardChain.Synced`, `KeyboardChain.SessionGenuine` and the exact-trace clauses of the rule lemmas are stated for runs in which no emission fails.
- `GuaResizeManager` and the window-size constants of `GuaConsts`: timer-driven, and not used by the keyboards.
- `Util.ToInt` (lodash `toInteger`): key codes, `To0xHex` arguments and fill bounds are mathematical integers, so non-integer, NaN and infinite JavaScript numbers are not modelled.
- The `Number.isInteger` polyfill: floating point only.
- The `this === null` check of the `fill` polyfill: a Dafny array or sequence is never null.
- Str.Trim: models JavaScript `trim` on a string only. The `Str.Trim` helper (Str.ts:356-359) first passes its argument through `ToStr` (Str.ts:340-352). A null or undefined argument gives "", the same as `Trim("")`. A non-string argument is converted by its own `toString()`, which the model does not cover.
- Str.StrCmpi: folds ASCII letters only. JavaScript's `toLowerCase` also folds other scripts and can change a string's length.
- Str.SearchStr: case-insensitive matching folds ASCII letters only, so the model agrees with JavaScript's `toLowerCase` when both strings are plain ASCII. Non-ASCII letters are not folded ("Ä" does not match "ä"), so case-insensitive `SearchStr` and `ReplaceStr` miss matches that JavaScript finds.
- Strings are sequences of `char`. UTF-16 surrogate pairs are not treated specially, as in JavaScript.
- HtmlCodec.HtmlRoundTrip: stated for tab-free input only. A tab encodes to eight "&amp;" and decodes to eight '&', so tabs do not round-trip.
- The rest of `Str.ts` (`localeCompare` comparisons, URL and base64 encoding, `StrToInt`, `ToBool`): not part of the modelled core.
- ComfortableKeyboard.Rules: the `Profile.Preference` object is the `Preferences` record of the switches the rules read. A missing switch is `false`.
- ComfortableRules.AltShiftTab: covers the left Shift release that immediately follows the swallowed press, not any later one. Left Shift is a key some rules press, so it is not covered by SwallowedKeyNeverSent. Take left Alt held and a left Shift remembered from an earlier Shift+Win. Pressing left Shift taps Tab, and pressing Win then emits nothing. Releasing Win emits a wait and a left Shift press, which is the stale flag shown by StaleShiftRepressed. Releasing left Shift after that emits a left Shift release.
- Comfortable keyboard rules: each rule lemma assumes the keys it must emit are real virtual transitions at that moment, for the exact-trace part of its statement. In every case the key-set bound and the latch updates hold unconditionally.

=== FILE: comfortable_keyboard.dfy ===
/** `GuaComfortableKeyboard`: the remapping keyboard.  Its hook is an
    ordered chain of rules, each switched on by a preference; whatever it
    emits is fed to the keyboard below it (see `KeyboardChain`).

    Each rule's `await PressVirtualKeyAsync(...)` / `await Task.Delay(...)`
    calls are its request list; `LogicalKeyboard.PhysicalKeyPressed` runs
    them, so a request that is not a real transition emits nothing. */
module ComfortableKeyboard {
  import opened Wrappers
  import opened Str
  import opened LogicalKeyboard
  import opened KeyCodes

  /** The switches of `Profile.Preference` the rules read. */
  datatype Preferences = Preferences(
    winShiftWin: bool,
    winCtrl2Alt2: bool,
    cadCtrlAltEnd: bool,
    cadCtrlAltHome: bool,
    cadCtrlAltBackspace: bool,
    cadCtrlShiftBackspace: bool,
    tabAltShift: bool,
    imeLeftCtrlSpace: bool,
    imeLeftShiftSpace: bool,
    imeOptionSpace: bool,
    keyboardLayout: Option<string>)

  /** The latched flags: the Shift keys held when Shift+Win began, whether
      Shift+Win is active, whether right Ctrl+right Alt stands for Win. */
  datatype Latches = Latches(lastShift1: bool, lastShift2: bool, winInState: bool, ctrl2Alt2InState: bool)

  /** What the comfortable keyboard adds to the two key tables. */
  datatype Comfort = Comfort(prefs: Preferences, svcType: Option<string>, latches: Latches)

  /** The constructor: empty tables, every latch clear. */
  function New(prefs: Preferences, svcType: Option<string>): Keyboard<Comfort>
  {
    Fresh(Comfort(prefs, svcType, Latches(false, false, false, false)))
  }

  /** `IsRdp`: the service type is "rdp", ignoring case. */
  predicate IsRdp(c: Comfort)
  {
    IsSamei(c.svcType, Some("rdp"))
  }

  /** The key the IME hotkeys tap under Alt: the grave accent for RDP or
      the US layout, else Zenkaku/Hankaku. */
  function ImeKey(c: Comfort): Keysym
  {
    if IsRdp(c) || IsSamei(c.prefs.keyboardLayout, Some("en-us-qwerty")) then Grave else ZenkakuHankaku
  }

  /** Press, wait, release. */
  function Tap(k: Keysym, ms: nat): seq<Event>
  {
    [Key(k, true), Delay(ms), Key(k, false)]
  }

  /** An IME hotkey: let go of the modifier, then Alt+key. */
  function ImeToggle(modifier: Keysym, key: Keysym): seq<Event>
  {
    [Key(modifier, false), Key(Alt1, true), Key(key, true), Delay(100), Key(key, false), Key(Alt1, false)]
  }

  /** The Ctrl+Shift+Backspace choreography: Shift up, Alt+Delete tapped,
      Shift down again. */
  const CtrlShiftBackspaceRequests: seq<Event> := [
    Key(Shift1, false), Delay(100), Key(Alt1, true), Key(Delete, true), Delay(300),
    Key(Delete, false), Key(Alt1, false), Delay(100), Key(Shift1, true)]

  predicate IsWinKey(k: Keysym)
  {
    k == Win || k == Meta1 || k == Meta2
  }

  predicate IsUpper(k: int) { 'A' as int <= k <= 'Z' as int }
  predicate IsLower(k: int) { 'a' as int <= k <= 'z' as int }

  /** The letter a Shift+Win tap uses: upper case folded to lower. */
  function Lowered(k: Keysym): Keysym
  {
    if IsUpper(k) then k + 0x20 else k
  }

  /** The Shift keys to release (or press) for the remembered flags. */
  function Shifts(shift1: bool, shift2: bool, pressed: bool): seq<Event>
  {
    (if shift1 then [Key(Shift1, pressed)] else []) + (if shift2 then [Key(Shift2, pressed)] else [])
  }

  /** `PhysicalToVirtualOperationImplAsync`: the rule chain, tried in
      order; `kb` already has the new physical entry. */
  function Rules(kb: Keyboard<Comfort>, k: Keysym, pressed: bool): (o: Outcome<Comfort>)
  {
    var c := kb.state;
    var pref := c.prefs;
    var l := c.latches;
    // Chrome reports the Windows key as Meta.
    var code := if k == Meta1 || k == Meta2 then Win else k;
    if pref.winShiftWin && code == Win then
      if pressed then
        var shift1 := Shift1 in kb.virtual;
        var shift2 := Shift2 in kb.virtual;
        if shift1 || shift2 then
          Outcome(true, Shifts(shift1, shift2, false) + [Delay(100), Key(Win, true)],
                  c.(latches := l.(lastShift1 := shift1, lastShift2 := shift2, winInState := true)))
        else Outcome(true, [], c)
      else
        Outcome(true, [Key(Win, false), Delay(100)] + Shifts(l.lastShift1, l.lastShift2, true),
                c.(latches := l.(winInState := false)))
    else if pref.winShiftWin && l.winInState then
      var letter := Lowered(code);
      if IsLower(letter) && pressed && letter !in kb.virtual then Outcome(true, Tap(letter, 100), c)
      else Outcome(false, [], c)
    else if pref.winCtrl2Alt2 && !l.ctrl2Alt2InState && Control2 in kb.physical && code == Alt2 && pressed then
      Outcome(true, [Key(Control2, false), Key(Win, true)], c.(latches := l.(ctrl2Alt2InState := true)))
    else if pref.winCtrl2Alt2 && l.ctrl2Alt2InState && code == Alt2 && !pressed then
      Outcome(true, [Key(Win, false)], c.(latches := l.(ctrl2Alt2InState := false)))
    else if pref.cadCtrlAltEnd && Control1 in kb.physical && Alt1 in kb.physical && code == End && pressed then
      Outcome(true, Tap(Delete, 300), c)
    else if pref.cadCtrlAltHome && Control1 in kb.physical && Alt1 in kb.physical && code == Home && pressed then
      Outcome(true, Tap(Delete, 300), c)
    else if pref.cadCtrlAltBackspace && Control1 in kb.physical && Alt1 in kb.physical && code == Backspace && pressed then
      Outcome(true, Tap(Delete, 300), c)
    else if pref.cadCtrlShiftBackspace && Control1 in kb.physical && Shift1 in kb.physical && code == Backspace && pressed then
      Outcome(true, CtrlShiftBackspaceRequests, c)
    else if pref.tabAltShift && Alt1 in kb.physical && code == Shift1 && pressed then
      Outcome(true, Tap(Tab, 300), c)
    else if pref.imeLeftCtrlSpace && Control1 in kb.physical && code == Space && pressed then
      Outcome(true, ImeToggle(Control1, ImeKey(c)), c)
    else if pref.imeLeftShiftSpace && Shift1 in kb.physical && code == Space && pressed then
      Outcome(true, ImeToggle(Shift1, ImeKey(c)), c)
    else if pref.imeOptionSpace && Alt1 in kb.physical && code == OptionSpace && pressed then
      Outcome(true, ImeToggle(Alt1, ImeKey(c)), c)
    else
      Outcome(false, [], c)
  }

  /** The comfortable keyboard's `PhysicalKeyPressedAsync`. */
  function Receive(kb: Keyboard<Comfort>, code: int, pressed: bool): (r: Reaction<Comfort>)
  {
    PhysicalKeyPressed(kb, code, pressed, Rules)
  }
}

=== FILE: comfortable_rules.dfy ===
/** What each rule of `GuaComfortableKeyboard` emits, and the keys it
    never lets through. */
module ComfortableRules {
  import opened Wrappers
  import opened Str
  import opened LogicalKeyboard
  import opened KeyCodes
  import opened ComfortableKeyboard

  /** A handled event whose requests are all real transitions emits
      exactly its requests. */
  lemma Handles(kb: Keyboard<Comfort>, k: Keysym, pressed: bool)
    requires IsTransition(kb.physical, k, pressed)
    requires Rules(Touched(kb, k, pressed), k, pressed).handled
    ensures var o := Rules(Touched(kb, k, pressed), k, pressed);
      var r := Receive(kb, k, pressed);
      && r.keyboard.state == o.state
      && r.keyboard.physical == SetKey(kb.physical, k, pressed)
      && KeysOf(r.trace) <= KeysOf(o.requests)
      && (Walk(kb.virtual, o.requests).Some? ==>
            r.trace == o.requests && r.keyboard.virtual == Walk(kb.virtual, o.requests).value)
  {
    var o := Rules(Touched(kb, k, pressed), k, pressed);
    Dispatch(kb, k, pressed, Rules);
    RunKeys(Start(kb.virtual), o.requests);
    if Walk(kb.virtual, o.requests).Some? {
      RunTransitions(Start(kb.virtual), o.requests);
    }
  }

  /** No rule changes the preferences or the service type, and a declined
      event requests nothing and keeps every latch. */
  lemma RulesKeep(kb: Keyboard<Comfort>, k: Keysym, pressed: bool)
    ensures var o := Rules(kb, k, pressed);
      && o.state.prefs == kb.state.prefs && o.state.svcType == kb.state.svcType
      && (!o.handled ==> o.requests == [] && o.state == kb.state)
  {
  }

  /** No event, taken or declined, changes the preferences or the service
      type. */
  lemma ReceiveKeeps(kb: Keyboard<Comfort>, code: int, pressed: bool)
    ensures var r := Receive(kb, code, pressed);
      r.keyboard.state.prefs == kb.state.prefs && r.keyboard.state.svcType == kb.state.svcType
  {
    var k := NormalizeKeyCode(code);
    if IsTransition(kb.physical, k, pressed) {
      Dispatch(kb, code, pressed, Rules);
      RulesKeep(Touched(kb, k, pressed), k, pressed);
    }
  }

  /** A declined event is passed on unchanged: the original key, emitted
      only when it is a virtual transition. */
  lemma Declines(kb: Keyboard<Comfort>, k: Keysym, pressed: bool)
    requires IsTransition(kb.physical, k, pressed)
    requires Rules(Touched(kb, k, pressed), k, pressed) == Outcome(false, [], kb.state)
    ensures var r := Receive(kb, k, pressed);
      && r.keyboard.state == kb.state
      && r.trace == (if IsTransition(kb.virtual, k, pressed) then [Key(k, pressed)] else [])
      && r.keyboard.virtual == SetKey(kb.virtual, k, pressed)
  {
    Dispatch(kb, k, pressed, Rules);
  }

  lemma WalkTap(t: KeyTable, k: Keysym, ms: nat)
    requires k !in t
    ensures Walk(t, Tap(k, ms)) == Some(t)
  {
    var t1 := SetKey(t, k, true);
    assert Tap(k, ms) == [Key(k, true)] + ([Delay(ms)] + ([Key(k, false)] + []));
    WalkCons(t1, Key(k, false), []);
    WalkCons(t1, Delay(ms), [Key(k, false)]);
    WalkCons(t, Key(k, true), [Delay(ms), Key(k, false)]);
    assert SetKey(t1, k, false) == t;
  }

  /** Walks a literal request list event by event. */
  lemma WalkImeToggle(t: KeyTable, m: Keysym, key: Keysym)
    requires m in t && key !in t && key != m && key != Alt1
    requires m == Alt1 || Alt1 !in t
    ensures Walk(t, ImeToggle(m, key)) == Some(t - {m})
  {
    var t1 := SetKey(t, m, false);
    var t2 := SetKey(t1, Alt1, true);
    var t3 := SetKey(t2, key, true);
    var t5 := SetKey(t3, key, false);
    var t6 := SetKey(t5, Alt1, false);
    assert ImeToggle(m, key) == [Key(m, false)] + ([Key(Alt1, true)] + ([Key(key, true)] + ([Delay(100)]
      + ([Key(key, false)] + ([Key(Alt1, false)] + [])))));
    WalkCons(t5, Key(Alt1, false), []);
    WalkCons(t3, Key(key, false), [Key(Alt1, false)]);
    WalkCons(t3, Delay(100), [Key(key, false), Key(Alt1, false)]);
    WalkCons(t2, Key(key, true), [Delay(100), Key(key, false), Key(Alt1, false)]);
    WalkCons(t1, Key(Alt1, true), [Key(key, true), Delay(100), Key(key, false), Key(Alt1, false)]);
    WalkCons(t, Key(m, false), [Key(Alt1, true), Key(key, true), Delay(100), Key(key, false), Key(Alt1, false)]);
    assert t6 == t - {m};
  }

  lemma WalkCtrlShiftBackspace(t: KeyTable)
    requires Shift1 in t && Alt1 !in t && Delete !in t
    ensures Walk(t, CtrlShiftBackspaceRequests) == Some(t)
  {
    var t1 := SetKey(t, Shift1, false);
    var t3 := SetKey(t1, Alt1, true);
    var t4 := SetKey(t3, Delete, true);
    var t6 := SetKey(t4, Delete, false);
    var t7 := SetKey(t6, Alt1, false);
    var t9 := SetKey(t7, Shift1, true);
    var s9 := [Key(Shift1, true)];
    var s8 := [Delay(100)] + s9;
    var s7 := [Key(Alt1, false)] + s8;
    var s6 := [Key(Delete, false)] + s7;
    var s5 := [Delay(300)] + s6;
    var s4 := [Key(Delete, true)] + s5;
    var s3 := [Key(Alt1, true)] + s4;
    var s2 := [Delay(100)] + s3;
    assert CtrlShiftBackspaceRequests == [Key(Shift1, false)] + s2;
    assert s9 == [Key(Shift1, true)] + [];
    WalkCons(t7, Key(Shift1, true), []);
    WalkCons(t7, Delay(100), s9);
    WalkCons(t6, Key(Alt1, false), s8);
    WalkCons(t4, Key(Delete, false), s7);
    WalkCons(t4, Delay(300), s6);
    WalkCons(t3, Key(Delete, true), s5);
    WalkCons(t1, Key(Alt1, true), s4);
    WalkCons(t1, Delay(100), s3);
    WalkCons(t, Key(Shift1, false), s2);
    assert t9 == t;
  }

  /** Walks the Shift releases of Shift+Win, then `rest`. */
  lemma WalkShiftsUp(t: KeyTable, rest: seq<Event>)
    ensures Walk(t, Shifts(Shift1 in t, Shift2 in t, false) + rest) == Walk(t - {Shift1, Shift2}, rest)
  {
    var s1, s2 := Shift1 in t, Shift2 in t;
    var u := SetKey(t, Shift1, false);
    if s1 && s2 {
      assert Shifts(s1, s2, false) + rest == [Key(Shift1, false)] + ([Key(Shift2, false)] + rest);
      WalkCons(u, Key(Shift2, false), rest);
      WalkCons(t, Key(Shift1, false), [Key(Shift2, false)] + rest);
      assert SetKey(u, Shift2, false) == t - {Shift1, Shift2};
    } else if s1 {
      assert Shifts(s1, s2, false) + rest == [Key(Shift1, false)] + rest;
      WalkCons(t, Key(Shift1, false), rest);
      assert u == t - {Shift1, Shift2};
    } else if s2 {
      assert Shifts(s1, s2, false) + rest == [Key(Shift2, false)] + rest;
      WalkCons(t, Key(Shift2, false), rest);
      assert SetKey(t, Shift2, false) == t - {Shift1, Shift2};
    } else {
      assert Shifts(s1, s2, false) + rest == rest;
      assert t == t - {Shift1, Shift2};
    }
  }

  /** Walks the Shift presses that end Shift+Win. */
  lemma WalkShiftsDown(t: KeyTable, shift1: bool, shift2: bool)
    requires shift1 ==> Shift1 !in t
    requires shift2 ==> Shift2 !in t
    ensures Walk(t, Shifts(shift1, shift2, true)) ==
      Some(t + (if shift1 then {Shift1} else {}) + (if shift2 then {Shift2} else {}))
  {
    var u := SetKey(t, Shift1, true);
    if shift1 && shift2 {
      assert Shifts(shift1, shift2, true) == [Key(Shift1, true)] + ([Key(Shift2, true)] + []);
      WalkCons(u, Key(Shift2, true), []);
      WalkCons(t, Key(Shift1, true), [Key(Shift2, true)]);
      assert SetKey(u, Shift2, true) == t + {Shift1} + {Shift2};
    } else if shift1 {
      assert Shifts(shift1, shift2, true) == [Key(Shift1, true)] + [];
      WalkCons(t, Key(Shift1, true), []);
      assert u == t + {Shift1} + {};
    } else if shift2 {
      assert Shifts(shift1, shift2, true) == [Key(Shift2, true)] + [];
      WalkCons(t, Key(Shift2, true), []);
      assert SetKey(t, Shift2, true) == t + {} + {Shift2};
    } else {
      assert Shifts(shift1, shift2, true) == [];
      assert t == t + {} + {};
    }
  }

  /** The trigger of a rule that swallows its press does not reach the
      keyboard below on that press, nor on the release that immediately
      follows it: no rule claims that release, and it finds the virtual
      key already up. */
  lemma TriggerSilent(kb: Keyboard<Comfort>, k: Keysym)
    requires k !in kb.physical && k !in kb.virtual
    requires !IsWinKey(k) && k != Alt2
    requires Rules(Touched(kb, k, true), k, true).handled
    requires k !in KeysOf(Rules(Touched(kb, k, true), k, true).requests)
    ensures var r1 := Receive(kb, k, true);
      var r2 := Receive(r1.keyboard, k, false);
      k !in KeysOf(r1.trace) && r2.trace == [] && r2.keyboard.virtual == r1.keyboard.virtual
  {
    Handles(kb, k, true);
    var r1 := Receive(kb, k, true);
    ApplyFrame(kb.virtual, r1.trace, k);
    assert Rules(Touched(r1.keyboard, k, false), k, false) == Outcome(false, [], r1.keyboard.state);
    Declines(r1.keyboard, k, false);
    assert SetKey(r1.keyboard.virtual, k, false) == r1.keyboard.virtual;
  }

  /** What `Handles` states, for any hook in place of the rules. */
  lemma HookHandles<S>(kb: Keyboard<S>, k: Keysym, pressed: bool, hook: Hook<S>)
    requires IsTransition(kb.physical, k, pressed)
    requires hook(Touched(kb, k, pressed), k, pressed).handled
    ensures var o := hook(Touched(kb, k, pressed), k, pressed);
      var r := PhysicalKeyPressed(kb, k, pressed, hook);
      && r.keyboard.state == o.state
      && KeysOf(r.trace) <= KeysOf(o.requests)
      && (Walk(kb.virtual, o.requests).Some? ==>
            r.trace == o.requests && r.keyboard.virtual == Walk(kb.virtual, o.requests).value)
  {
    var o := hook(Touched(kb, k, pressed), k, pressed);
    Dispatch(kb, k, pressed, hook);
    RunKeys(Start(kb.virtual), o.requests);
    if Walk(kb.virtual, o.requests).Some? {
      RunTransitions(Start(kb.virtual), o.requests);
    }
  }

  /** A press that any hook turns into a tap of another key keeps the
      hook's state and emits only that key. */
  lemma HookTapKeys<S>(kb: Keyboard<S>, k: Keysym, hook: Hook<S>, tapped: Keysym, ms: nat)
    requires k !in kb.physical
    requires hook(Touched(kb, k, true), k, true) == Outcome(true, Tap(tapped, ms), kb.state)
    ensures var r := PhysicalKeyPressed(kb, k, true, hook);
      r.keyboard.state == kb.state && KeysOf(r.trace) <= {tapped}
  {
    HookHandles(kb, k, true, hook);
    KeysWithin(Tap(tapped, ms), {tapped});
  }

  /** When the tapped key is up, that press emits exactly the tap. */
  lemma HookTapExact<S>(kb: Keyboard<S>, k: Keysym, hook: Hook<S>, tapped: Keysym, ms: nat)
    requires k !in kb.physical && tapped !in kb.virtual
    requires hook(Touched(kb, k, true), k, true) == Outcome(true, Tap(tapped, ms), kb.state)
    ensures var r := PhysicalKeyPressed(kb, k, true, hook);
      r.trace == Tap(tapped, ms) && r.keyboard.virtual == kb.virtual
  {
    HookHandles(kb, k, true, hook);
    WalkTap(kb.virtual, tapped, ms);
  }

  /** A press that a rule turns into a tap of another key emits only that
      key, and exactly the tap when that key is up. */
  lemma TapRule(kb: Keyboard<Comfort>, k: Keysym, tapped: Keysym, ms: nat)
    requires k !in kb.physical
    requires Rules(Touched(kb, k, true), k, true) == Outcome(true, Tap(tapped, ms), kb.state)
    ensures var r := Receive(kb, k, true);
      && r.keyboard.state == kb.state
      && KeysOf(r.trace) <= {tapped}
      && (tapped !in kb.virtual ==> r.trace == Tap(tapped, ms) && r.keyboard.virtual == kb.virtual)
  {
    HookTapKeys(kb, k, Rules, tapped, ms);
    if tapped !in kb.virtual {
      HookTapExact(kb, k, Rules, tapped, ms);
    }
  }

  /** Shift+Win is not in progress, so the rules after it are reached. */
  predicate Idle(c: Comfort)
  {
    !(c.prefs.winShiftWin && c.latches.winInState)
  }

  /** Ctrl+Alt and End, Home or Backspace, each behind its own switch. */
  predicate CtrlAltTrigger(p: Preferences, k: Keysym)
  {
    (k == End && p.cadCtrlAltEnd) || (k == Home && p.cadCtrlAltHome) || (k == Backspace && p.cadCtrlAltBackspace)
  }

  lemma CtrlAltRule(kb: Keyboard<Comfort>, k: Keysym)
    requires CtrlAltTrigger(kb.state.prefs, k) && Idle(kb.state)
    requires Control1 in kb.physical && Alt1 in kb.physical
    ensures Rules(Touched(kb, k, true), k, true) == Outcome(true, Tap(Delete, 300), kb.state)
  {
    var kb1 := Touched(kb, k, true);
    assert Control1 in kb1.physical && Alt1 in kb1.physical;
  }

  /** With Ctrl and Alt held, End, Home or Backspace becomes a Delete tap;
      the trigger is emitted neither by its press nor by the release that
      immediately follows it. */
  lemma CtrlAltDelete(kb: Keyboard<Comfort>, k: Keysym)
    requires CtrlAltTrigger(kb.state.prefs, k) && Idle(kb.state)
    requires Control1 in kb.physical && Alt1 in kb.physical && k !in kb.physical
    ensures var r := Receive(kb, k, true);
      && r.keyboard.state == kb.state
      && KeysOf(r.trace) <= {Delete}
      && (Delete !in kb.virtual ==> r.trace == Tap(Delete, 300) && r.keyboard.virtual == kb.virtual)
      && (k !in kb.virtual ==> Receive(r.keyboard, k, false).trace == [])
  {
    CtrlAltRule(kb, k);
    Handles(kb, k, true);
    KeysWithin(Tap(Delete, 300), {Delete});
    if Delete !in kb.virtual {
      WalkTap(kb.virtual, Delete, 300);
    }
    if k !in kb.virtual {
      TriggerSilent(kb, k);
    }
  }

  /** With Ctrl and Shift held, Backspace releases Shift, taps Alt+Delete
      and presses Shift again; Backspace is emitted neither by its press
      nor by the release that immediately follows it. */
  lemma CtrlShiftBackspace(kb: Keyboard<Comfort>)
    requires kb.state.prefs.cadCtrlShiftBackspace && Idle(kb.state)
    requires !(kb.state.prefs.cadCtrlAltBackspace && Alt1 in kb.physical)
    requires Control1 in kb.physical && Shift1 in kb.physical && Backspace !in kb.physical
    ensures var r := Receive(kb, Backspace, true);
      && r.keyboard.state == kb.state
      && KeysOf(r.trace) <= {Shift1, Alt1, Delete}
      && (Shift1 in kb.virtual && Alt1 !in kb.virtual && Delete !in kb.virtual ==>
            r.trace == CtrlShiftBackspaceRequests && r.keyboard.virtual == kb.virtual)
      && (Backspace !in kb.virtual ==> Receive(r.keyboard, Backspace, false).trace == [])
  {
    assert Rules(Touched(kb, Backspace, true), Backspace, true) == Outcome(true, CtrlShiftBackspaceRequests, kb.state);
    Handles(kb, Backspace, true);
    KeysWithin(CtrlShiftBackspaceRequests, {Shift1, Alt1, Delete});
    if Shift1 in kb.virtual && Alt1 !in kb.virtual && Delete !in kb.virtual {
      WalkCtrlShiftBackspace(kb.virtual);
    }
    if Backspace !in kb.virtual {
      TriggerSilent(kb, Backspace);
    }
  }

  /** With Alt held, pressing Shift taps Tab instead; Shift is emitted
      neither by that press nor by the release that immediately follows
      it. */
  lemma AltShiftTab(kb: Keyboard<Comfort>)
    requires kb.state.prefs.tabAltShift && Idle(kb.state)
    requires Alt1 in kb.physical && Shift1 !in kb.physical
    ensures var r := Receive(kb, Shift1, true);
      && r.keyboard.state == kb.state
      && KeysOf(r.trace) <= {Tab}
      && (Tab !in kb.virtual ==> r.trace == Tap(Tab, 300) && r.keyboard.virtual == kb.virtual)
      && (Shift1 !in kb.virtual ==> Receive(r.keyboard, Shift1, false).trace == [])
  {
    assert Rules(Touched(kb, Shift1, true), Shift1, true) == Outcome(true, Tap(Tab, 300), kb.state);
    TapRule(kb, Shift1, Tab, 300);
    if Shift1 !in kb.virtual {
      TriggerSilent(kb, Shift1);
    }
  }

  /** Which IME hotkey fires: left Ctrl+Space, else left Shift+Space,
      else Option+Space (reported as 0xA0), each behind its switch. */
  predicate ImeTrigger(kb: Keyboard<Comfort>, k: Keysym, modifier: Keysym)
  {
    var p := kb.state.prefs;
    || (modifier == Control1 && k == Space && p.imeLeftCtrlSpace)
    || (modifier == Shift1 && k == Space && p.imeLeftShiftSpace && !(p.imeLeftCtrlSpace && Control1 in kb.physical))
    || (modifier == Alt1 && k == OptionSpace && p.imeOptionSpace)
  }

  /** An IME hotkey releases its modifier and taps Alt with the IME key;
      the space is emitted neither by its press nor by the release that
      immediately follows it. */
  lemma ImeHotkey(kb: Keyboard<Comfort>, k: Keysym, modifier: Keysym)
    requires ImeTrigger(kb, k, modifier) && Idle(kb.state)
    requires modifier in kb.physical && k !in kb.physical
    ensures var r := Receive(kb, k, true);
      var key := ImeKey(kb.state);
      && r.keyboard.state == kb.state
      && KeysOf(r.trace) <= {modifier, Alt1, key}
      && (modifier in kb.virtual && key !in kb.virtual && (modifier == Alt1 || Alt1 !in kb.virtual) ==>
            r.trace == ImeToggle(modifier, key) && r.keyboard.virtual == kb.virtual - {modifier})
      && (k !in kb.virtual ==> Receive(r.keyboard, k, false).trace == [])
  {
    var key := ImeKey(kb.state);
    assert Rules(Touched(kb, k, true), k, true) == Outcome(true, ImeToggle(modifier, key), kb.state);
    Handles(kb, k, true);
    KeysWithin(ImeToggle(modifier, key), {modifier, Alt1, key});
    if modifier in kb.virtual && key !in kb.virtual && (modifier == Alt1 || Alt1 !in kb.virtual) {
      WalkImeToggle(kb.virtual, modifier, key);
    }
    if k !in kb.virtual {
      TriggerSilent(kb, k);
    }
  }

  /** Shift+Win, on the Win press: with a Shift key virtually held, the
      held Shift keys are released and Win is pressed, and the keyboard
      remembers which Shift keys were held; with neither held the press is
      swallowed.  Either way the press itself is handled. */
  lemma ShiftWinPress(kb: Keyboard<Comfort>, k: Keysym)
    requires kb.state.prefs.winShiftWin && IsWinKey(k) && k !in kb.physical
    ensures var r := Receive(kb, k, true);
      var shift1 := Shift1 in kb.virtual;
      var shift2 := Shift2 in kb.virtual;
      var l := kb.state.latches;
      && KeysOf(r.trace) <= {Shift1, Shift2, Win}
      && (!shift1 && !shift2 ==> r.trace == [] && r.keyboard.virtual == kb.virtual && r.keyboard.state == kb.state)
      && ((shift1 || shift2) ==>
            r.keyboard.state == kb.state.(latches := l.(lastShift1 := shift1, lastShift2 := shift2, winInState := true)))
      && ((shift1 || shift2) && Win !in kb.virtual ==>
            && r.trace == Shifts(shift1, shift2, false) + [Delay(100), Key(Win, true)]
            && r.keyboard.virtual == kb.virtual - {Shift1, Shift2} + {Win})
  {
    var shift1, shift2 := Shift1 in kb.virtual, Shift2 in kb.virtual;
    var o := Rules(Touched(kb, k, true), k, true);
    Handles(kb, k, true);
    KeysWithin(o.requests, {Shift1, Shift2, Win});
    if (shift1 || shift2) && Win !in kb.virtual {
      var u := kb.virtual - {Shift1, Shift2};
      WalkShiftsUp(kb.virtual, [Delay(100), Key(Win, true)]);
      assert [Delay(100), Key(Win, true)] == [Delay(100)] + ([Key(Win, true)] + []);
      WalkCons(u, Key(Win, true), []);
      WalkCons(u, Delay(100), [Key(Win, true)]);
    }
  }

  /** Shift+Win, on the Win release: Win is released and the remembered
      Shift keys pressed again; the flags stay as they were, so a later
      Win press that found no Shift held still re-presses them. */
  lemma ShiftWinRelease(kb: Keyboard<Comfort>, k: Keysym)
    requires kb.state.prefs.winShiftWin && IsWinKey(k) && k in kb.physical
    ensures var r := Receive(kb, k, false);
      var l := kb.state.latches;
      && r.keyboard.state == kb.state.(latches := l.(winInState := false))
      && KeysOf(r.trace) <= {Shift1, Shift2, Win}
      && (Win in kb.virtual && (l.lastShift1 ==> Shift1 !in kb.virtual) && (l.lastShift2 ==> Shift2 !in kb.virtual) ==>
            && r.trace == [Key(Win, false), Delay(100)] + Shifts(l.lastShift1, l.lastShift2, true)
            && r.keyboard.virtual == kb.virtual - {Win}
                 + (if l.lastShift1 then {Shift1} else {}) + (if l.lastShift2 then {Shift2} else {}))
  {
    var l := kb.state.latches;
    var o := Rules(Touched(kb, k, false), k, false);
    Handles(kb, k, false);
    KeysWithin(o.requests, {Shift1, Shift2, Win});
    if Win in kb.virtual && (l.lastShift1 ==> Shift1 !in kb.virtual) && (l.lastShift2 ==> Shift2 !in kb.virtual) {
      var u := kb.virtual - {Win};
      var rest := Shifts(l.lastShift1, l.lastShift2, true);
      WalkShiftsDown(u, l.lastShift1, l.lastShift2);
      assert o.requests == [Key(Win, false)] + ([Delay(100)] + rest);
      WalkCons(u, Delay(100), rest);
      WalkCons(kb.virtual, Key(Win, false), [Delay(100)] + rest);
    }
  }

  /** The remembered Shift flags outlive the Shift+Win gesture: a Win
      release whose press found no Shift held (so Win was never pressed
      virtually) still presses the Shift key remembered from an earlier
      gesture, whether or not anyone holds it. */
  lemma StaleShiftRepressed(kb: Keyboard<Comfort>, k: Keysym)
    requires kb.state.prefs.winShiftWin && IsWinKey(k) && k in kb.physical
    requires kb.state.latches.lastShift1 && !kb.state.latches.lastShift2
    requires Win !in kb.virtual && Shift1 !in kb.virtual
    ensures var r := Receive(kb, k, false);
      && r.trace == [Delay(100), Key(Shift1, true)]
      && r.keyboard.virtual == kb.virtual + {Shift1}
  {
    var v := kb.virtual;
    var o := Rules(Touched(kb, k, false), k, false);
    var rest := [Delay(100), Key(Shift1, true)];
    assert o.requests == [Key(Win, false)] + rest;
    Dispatch(kb, k, false, Rules);
    var e0 := Start(v);
    var e1 := Step(e0, Key(Win, false));
    assert e1.trace == [] && e1.table == v;
    assert Run(e0, o.requests) == Run(e1, rest);
    assert rest == [Delay(100)] + ([Key(Shift1, true)] + []);
    WalkCons(v, Key(Shift1, true), []);
    WalkCons(v, Delay(100), [Key(Shift1, true)]);
    RunTransitions(e1, rest);
  }

  /** While Shift+Win is active, a newly pressed letter that is not
      virtually held becomes a tap of its lower-case key. */
  lemma WinLetterTap(kb: Keyboard<Comfort>, k: Keysym)
    requires kb.state.prefs.winShiftWin && kb.state.latches.winInState
    requires !IsWinKey(k) && k !in kb.physical
    requires IsLower(Lowered(k)) && Lowered(k) !in kb.virtual
    ensures var r := Receive(kb, k, true);
      && r.trace == Tap(Lowered(k), 100)
      && r.keyboard.virtual == kb.virtual
      && r.keyboard.state == kb.state
  {
    assert Rules(Touched(kb, k, true), k, true) == Outcome(true, Tap(Lowered(k), 100), kb.state);
    Handles(kb, k, true);
    WalkTap(kb.virtual, Lowered(k), 100);
  }

  /** While Shift+Win is active every other event skips the remaining
      rules and is passed on as it arrived: an upper-case letter goes on
      as itself, not as the lower-case key the rule looked at. */
  lemma WinStateForwards(kb: Keyboard<Comfort>, k: Keysym, pressed: bool)
    requires kb.state.prefs.winShiftWin && kb.state.latches.winInState
    requires !IsWinKey(k) && IsTransition(kb.physical, k, pressed)
    requires !(pressed && IsLower(Lowered(k)) && Lowered(k) !in kb.virtual)
    ensures var r := Receive(kb, k, pressed);
      && r.trace == (if IsTransition(kb.virtual, k, pressed) then [Key(k, pressed)] else [])
      && r.keyboard.state == kb.state
  {
    Declines(kb, k, pressed);
  }

  /** With Shift+Win off, Meta is looked at as Win but passed on as Meta. */
  lemma MetaForwards(kb: Keyboard<Comfort>, k: Keysym, pressed: bool)
    requires !kb.state.prefs.winShiftWin && (k == Meta1 || k == Meta2)
    requires IsTransition(kb.physical, k, pressed)
    ensures var r := Receive(kb, k, pressed);
      && r.trace == (if IsTransition(kb.virtual, k, pressed) then [Key(k, pressed)] else [])
      && r.keyboard.state == kb.state
  {
    Declines(kb, k, pressed);
  }

  /** Right Ctrl held, then right Alt: right Ctrl is released and Win
      pressed instead of Alt, and the latch is set. */
  lemma Ctrl2Alt2Press(kb: Keyboard<Comfort>)
    requires kb.state.prefs.winCtrl2Alt2 && !kb.state.latches.ctrl2Alt2InState && Idle(kb.state)
    requires Control2 in kb.physical && Alt2 !in kb.physical
    ensures var r := Receive(kb, Alt2, true);
      var l := kb.state.latches;
      && r.keyboard.state == kb.state.(latches := l.(ctrl2Alt2InState := true))
      && KeysOf(r.trace) <= {Control2, Win}
      && (Control2 in kb.virtual && Win !in kb.virtual ==>
            r.trace == [Key(Control2, false), Key(Win, true)] && r.keyboard.virtual == kb.virtual - {Control2} + {Win})
  {
    var o := Rules(Touched(kb, Alt2, true), Alt2, true);
    assert o.requests == [Key(Control2, false)] + ([Key(Win, true)] + []);
    Handles(kb, Alt2, true);
    KeysWithin(o.requests, {Control2, Win});
    WalkCons(SetKey(kb.virtual, Control2, false), Key(Win, true), []);
    WalkCons(kb.virtual, Key(Control2, false), [Key(Win, true)]);
  }

  /** Right Alt released while the latch is set: Win is released, the
      latch cleared, and right Alt is not emitted. */
  lemma Ctrl2Alt2Release(kb: Keyboard<Comfort>)
    requires kb.state.prefs.winCtrl2Alt2 && kb.state.latches.ctrl2Alt2InState && Idle(kb.state)
    requires Alt2 in kb.physical
    ensures var r := Receive(kb, Alt2, false);
      var l := kb.state.latches;
      && r.keyboard.state == kb.state.(latches := l.(ctrl2Alt2InState := false))
      && KeysOf(r.trace) <= {Win}
      && (Win in kb.virtual ==> r.trace == [Key(Win, false)] && r.keyboard.virtual == kb.virtual - {Win})
  {
    var o := Rules(Touched(kb, Alt2, false), Alt2, false);
    assert o.requests == [Key(Win, false)] + [];
    Handles(kb, Alt2, false);
    KeysWithin(o.requests, {Win});
    WalkCons(kb.virtual, Key(Win, false), []);
  }

  /** The IME key is chosen ignoring case, and a missing service type or
      layout counts as neither. */
  lemma ImeKeyExamples(prefs: Preferences)
    ensures ImeKey(Comfort(prefs.(keyboardLayout := None), Some("RDP"), Latches(false, false, false, false))) == Grave
    ensures ImeKey(Comfort(prefs.(keyboardLayout := Some("En-US-Qwerty")), None, Latches(false, false, false, false))) == Grave
    ensures ImeKey(Comfort(prefs.(keyboardLayout := Some("ja-jp")), Some("vnc"), Latches(false, false, false, false))) == ZenkakuHankaku
    ensures ImeKey(Comfort(prefs.(keyboardLayout := None), None, Latches(false, false, false, false))) == ZenkakuHankaku
  {
    IsSameiExamples();
    assert !IsSamei(Some("ja-jp"), Some("en-us-qwerty"));
  }

  /** The keys some rule asks to press or release: Win, the Shift, Ctrl
      and left Alt keys, Delete, Tab, the two IME keys and the lower-case
      letters a Shift+Win tap uses. */
  predicate Requestable(j: Keysym)
  {
    || j == Win || j == Shift1 || j == Shift2 || j == Control1 || j == Control2 || j == Alt1
    || j == Delete || j == Tab || j == Grave || j == ZenkakuHankaku || IsLower(j)
  }

  /** A trace whose key events are all on requestable keys mentions only
      requestable keys. */
  lemma {:induction false} KeysRequestable(s: seq<Event>)
    requires forall i :: 0 <= i < |s| ==> (s[i].Key? ==> Requestable(s[i].code))
    ensures forall j :: j in KeysOf(s) ==> Requestable(j)
    decreases |s|
  {
    if s != [] {
      KeysRequestable(s[..|s| - 1]);
    }
  }

  /** Every key a rule asks for is requestable, whatever the event. */
  lemma RequestedKeys(kb: Keyboard<Comfort>, k: Keysym, pressed: bool)
    ensures forall j :: j in KeysOf(Rules(kb, k, pressed).requests) ==> Requestable(j)
  {
    var rs := Rules(kb, k, pressed).requests;
    assert forall i :: 0 <= i < |rs| ==> (rs[i].Key? ==> Requestable(rs[i].code));
    KeysRequestable(rs);
  }

  /** End, Home, Backspace and the two spaces, the triggers of the
      Ctrl+Alt, Ctrl+Shift and IME rules, are keys no rule ever asks for. */
  lemma TriggersUnrequested(k: Keysym)
    requires k == End || k == Home || k == Backspace || k == Space || k == OptionSpace
    ensures !Requestable(k)
  {
  }

  /** A key no rule asks for that is held physically but up virtually
      stays up virtually through any event, and no event emits it: other
      events leave its physical entry alone, and its own release finds the
      virtual key already up. */
  lemma HeldKeyStaysUp(kb: Keyboard<Comfort>, code: int, pressed: bool, k: Keysym)
    requires !Requestable(k) && k in kb.physical && k !in kb.virtual
    ensures var r := Receive(kb, code, pressed);
      && k !in KeysOf(r.trace) && k !in r.keyboard.virtual
      && (k in r.keyboard.physical <==> !(NormalizeKeyCode(code) == k && !pressed))
  {
    var key := NormalizeKeyCode(code);
    var r := Receive(kb, code, pressed);
    if IsTransition(kb.physical, key, pressed) {
      var o := Rules(Touched(kb, key, pressed), key, pressed);
      var e := Run(Start(kb.virtual), o.requests);
      Dispatch(kb, code, pressed, Rules);
      RequestedKeys(Touched(kb, key, pressed), key, pressed);
      RunKeys(Start(kb.virtual), o.requests);
      assert KeysOf(Start(kb.virtual).trace) == {};
      assert k !in KeysOf(e.trace);
      ApplyFrame(kb.virtual, e.trace, k);
      if !o.handled {
        var tail := if IsTransition(e.table, key, pressed) then [Key(key, pressed)] else [];
        KeysOfAppend(e.trace, tail);
        assert k !in KeysOf(tail);
      }
      ApplyFrame(kb.virtual, r.trace, k);
    }
  }
}

=== FILE: connected_keyboard.dfy ===
/** `GuaConnectedKeyboard`: the logical keyboard bound to the remote
    session.  Its hook never handles an event, and each virtual key event it
    emits is one `Client.sendKeyEvent(pressed, code)` call, so its trace is
    exactly what the client sends. */
module ConnectedKeyboard {
  import opened LogicalKeyboard

  /** `PhysicalToVirtualOperationImplAsync`: declines every event. */
  function NoHook(kb: Keyboard<()>, k: Keysym, pressed: bool): Outcome<()>
  {
    Outcome(false, [], ())
  }

  /** The connected keyboard's `PhysicalKeyPressedAsync`. */
  function Receive(kb: Keyboard<()>, code: int, pressed: bool): (r: Reaction<()>)
    ensures Genuine(kb.virtual, r.trace) && Apply(kb.virtual, r.trace) == r.keyboard.virtual
    ensures r.trace == [] || r.trace == [Key(NormalizeKeyCode(code), pressed)]
  {
    PhysicalKeyPressed(kb, code, pressed, NoHook)
  }

  /** Physical and virtual tables agree, as they do from the start. */
  predicate Mirrored(kb: Keyboard<()>)
  {
    kb.physical == kb.virtual
  }

  /** A mirrored connected keyboard sends exactly one key event for each
      physical transition, the normalised code itself, and nothing for a
      repeat; it stays mirrored. */
  lemma ReceiveSends(kb: Keyboard<()>, code: int, pressed: bool)
    requires Mirrored(kb)
    ensures var r := Receive(kb, code, pressed);
      var k := NormalizeKeyCode(code);
      && Mirrored(r.keyboard)
      && r.keyboard.physical == SetKey(kb.physical, k, pressed)
      && r.trace == (if IsTransition(kb.physical, k, pressed) then [Key(k, pressed)] else [])
  {
    var k := NormalizeKeyCode(code);
    if IsTransition(kb.physical, k, pressed) {
      Dispatch(kb, code, pressed, NoHook);
    }
  }
}

=== FILE: fonticon.dfy ===
/** The `FontAwsomeIcon` class of Scripts/Common/Base/Str.ts: a parser for
    Font Awesome class strings such as "fas fa-home", and
    `Str.ParseFontAwsomeIconClassStr`, which keeps only a successful
    parse. */
module FontIcon {
  import opened Wrappers
  import opened Str

  // ---------------------------------------------------------------- split

  /** JavaScript's `s.split(sep)` for a one-character separator: the
      pieces between separators, empty ones included. */
  function Split(s: string, sep: char): (ts: seq<string>)
    ensures |ts| >= 1
    ensures forall i :: 0 <= i < |ts| ==> sep !in ts[i]
    decreases |s|
  {
    if s == [] then [""]
    else
      var rest := Split(s[1..], sep);
      if s[0] == sep then [""] + rest
      else [[s[0]] + rest[0]] + rest[1..]
  }

  /** The pieces joined back with the separator between them. */
  function Join(ts: seq<string>, sep: char): string
    requires |ts| >= 1
    decreases |ts|
  {
    if |ts| == 1 then ts[0] else ts[0] + [sep] + Join(ts[1..], sep)
  }

  /** How many times `c` occurs in `s`. */
  function Count(s: string, c: char): nat
    decreases |s|
  {
    if s == [] then 0 else (if s[0] == c then 1 else 0) + Count(s[1..], c)
  }

  /** Splitting loses nothing: joining the pieces gives the string back,
      and there is one piece more than there are separators. */
  lemma {:induction false} JoinSplit(s: string, sep: char)
    ensures Join(Split(s, sep), sep) == s
    ensures |Split(s, sep)| == Count(s, sep) + 1
    decreases |s|
  {
    if s != [] {
      var rest := Split(s[1..], sep);
      JoinSplit(s[1..], sep);
      if s[0] == sep {
        assert ([""] + rest)[1..] == rest;
      } else {
        var ts := Split(s, sep);
        if |rest| > 1 {
          assert ts[1..] == rest[1..];
          assert Join(rest, sep) == rest[0] + [sep] + Join(rest[1..], sep);
        }
      }
    }
  }

  /** Pieces without the separator are what splitting their join gives. */
  lemma {:induction false} SplitJoin(ts: seq<string>, sep: char)
    requires |ts| >= 1 && forall i :: 0 <= i < |ts| ==> sep !in ts[i]
    ensures Split(Join(ts, sep), sep) == ts
    decreases |ts|, |ts[0]|
  {
    if |ts| == 1 {
      SplitPlain(ts[0], sep);
    } else if ts[0] == [] {
      var j := Join(ts, sep);
      SplitJoin(ts[1..], sep);
      assert j == [sep] + Join(ts[1..], sep);
      assert j[1..] == Join(ts[1..], sep);
    } else {
      var t := ts[0];
      var ts' := [t[1..]] + ts[1..];
      assert ts'[1..] == ts[1..];
      SplitJoin(ts', sep);
      var j := Join(ts, sep);
      assert j == [t[0]] + Join(ts', sep);
      assert j[1..] == Join(ts', sep);
      assert [t[0]] + t[1..] == t;
    }
  }

  /** A string without the separator is one piece. */
  lemma {:induction false} SplitPlain(s: string, sep: char)
    requires sep !in s
    ensures Split(s, sep) == [s]
    decreases |s|
  {
    if s != [] {
      SplitPlain(s[1..], sep);
      assert [s[0]] + s[1..] == s;
    }
  }

  // ---------------------------------------------------------------- icon

  /** The fields of a `FontAwsomeIcon`. */
  datatype FontAwsomeIcon = FontAwsomeIcon(IsOK: bool, ClassStr: string, PackName: string, IconName: string)

  /** The field values the class starts with. */
  const Unparsed: FontAwsomeIcon := FontAwsomeIcon(false, "", "", "")

  /** `name` is what follows the first '-' of `t`. */
  predicate AfterFirstDash(t: string, name: string)
  {
    |name| < |t| &&
    t == t[..|t| - |name| - 1] + "-" + name &&
    '-' !in t[..|t| - |name| - 1]
  }

  lemma FirstDash(t: string)
    requires IndexOf(t, "-", 0) != -1
    ensures AfterFirstDash(t, t[IndexOf(t, "-", 0) + 1..])
  {
    var i := IndexOf(t, "-", 0);
    assert t[i..i + 1] == "-";
    assert t[..i] + "-" + t[i + 1..] == t;
    forall j | 0 <= j < i
      ensures t[j] != '-'
    {
      assert !OccursAt(t, "-", j);
      assert t[j..j + 1] == [t[j]];
    }
  }

  /** `new FontAwsomeIcon(classStr)`: the trimmed string must split on " "
      into exactly two pieces, the second of which (trimmed) contains a
      '-'; the pack name is the first piece, the icon name what follows
      the first '-', the class string the two trimmed pieces joined by a
      space.  Otherwise every field keeps its initial value. */
  function NewFontAwsomeIcon(classStr: Option<string>): (icon: FontAwsomeIcon)
    ensures !icon.IsOK ==> icon == Unparsed
    ensures icon.IsOK ==> |Split(NonNullTrim(classStr), ' ')| == 2
    ensures icon.IsOK ==> IconFields(icon, Split(NonNullTrim(classStr), ' '))
  {
    var tokens := Split(NonNullTrim(classStr), ' ');
    if |tokens| == 2 then FromPieces(tokens) else Unparsed
  }

  /** The constructor once the string has split into two pieces. */
  function FromPieces(tokens: seq<string>): (icon: FontAwsomeIcon)
    requires |tokens| == 2
    ensures !icon.IsOK ==> icon == Unparsed
    ensures icon.IsOK ==> IconFields(icon, tokens)
  {
    var packName := Trim(tokens[0]);
    var tmp := Trim(tokens[1]);
    var i := IndexOf(tmp, "-", 0);
    if i != -1 then
      FirstDash(tmp);
      FontAwsomeIcon(true, Trim(tokens[0]) + " " + Trim(tokens[1]), packName, tmp[i + 1..])
    else
      Unparsed
  }

  /** The fields of an icon parsed from the two pieces `tokens`. */
  predicate IconFields(icon: FontAwsomeIcon, tokens: seq<string>)
    requires |tokens| == 2
  {
    var pack := Trim(tokens[0]);
    var tail := Trim(tokens[1]);
    && icon.PackName == pack
    && icon.ClassStr == pack + " " + tail
    && AfterFirstDash(tail, icon.IconName)
  }

  /** `Str.ParseFontAwsomeIconClassStr`: the icon when it parsed, `None`
      (the source's `null`) otherwise. */
  function ParseFontAwsomeIconClassStr(classStr: Option<string>): (r: Option<FontAwsomeIcon>)
    ensures r.Some? <==> NewFontAwsomeIcon(classStr).IsOK
    ensures r.Some? ==> r.value == NewFontAwsomeIcon(classStr)
  {
    var icon := NewFontAwsomeIcon(classStr);
    if !icon.IsOK then None else Some(icon)
  }

  // ------------------------------------------------------------ properties

  /** `indexOf("-")` finds a dash exactly when there is one. */
  lemma DashFound(t: string)
    ensures IndexOf(t, "-", 0) != -1 <==> '-' in t
  {
    var r := IndexOf(t, "-", 0);
    if r != -1 {
      assert t[r..r + 1] == "-";
      assert t[r] == '-';
    }
    if '-' in t {
      var k :| 0 <= k < |t| && t[k] == '-';
      assert t[k..k + 1] == "-";
      assert OccursAt(t, "-", k);
    }
  }

  /** A class string that is two space-free words separated by one space
      parses exactly when the second word, trimmed, has a dash; then the
      pack name is the first word and the icon name follows the first dash
      of the second. */
  lemma TwoWords(classStr: Option<string>, a: string, b: string)
    requires ' ' !in a && ' ' !in b && NonNullTrim(classStr) == a + " " + b
    ensures var icon := NewFontAwsomeIcon(classStr);
      && (icon.IsOK <==> '-' in Trim(b))
      && (icon.IsOK ==>
            icon.PackName == Trim(a) && icon.ClassStr == Trim(a) + " " + Trim(b) &&
            AfterFirstDash(Trim(b), icon.IconName))
  {
    SplitJoin([a, b], ' ');
    assert Join([a, b], ' ') == a + " " + b;
    DashFound(Trim(b));
  }

  /** A class string without exactly one space (after trimming) does not
      parse. */
  lemma NotTwoWords(classStr: Option<string>)
    requires Count(NonNullTrim(classStr), ' ') != 1
    ensures NewFontAwsomeIcon(classStr) == Unparsed
  {
    JoinSplit(NonNullTrim(classStr), ' ');
  }

  lemma NoDashBefore(t: string, n: nat)
    requires n <= |t| && '-' !in t[..n]
    ensures forall j :: 0 <= j < n ==> t[j] != '-'
  {
    forall j | 0 <= j < n
      ensures t[j] != '-'
    {
      assert t[..n][j] == t[j];
    }
  }

  /** The icon name after a dash is determined: only one split of a string
      puts the first dash at the cut. */
  lemma AfterFirstDashUnique(t: string, x: string, y: string)
    requires AfterFirstDash(t, x) && AfterFirstDash(t, y)
    ensures x == y
  {
    var p := |t| - |x| - 1;
    var q := |t| - |y| - 1;
    assert t[p] == '-' && t[q] == '-';
    NoDashBefore(t, p);
    NoDashBefore(t, q);
    assert x == t[p + 1..];
  }
}

=== FILE: hex.dfy ===
/** `Str.To0xHex` (Scripts/Common/Base/Str.ts): "0x" followed by the
    base-16 digits of an integer, upper-cased by default.

    The argument is a mathematical integer, so `Util.ToInt` leaves it as
    it is; `Number.prototype.toString(16)` writes a '-' before the digits
    of a negative value and uses lower-case digits, `toUpperCase` is
    ASCII. */
module Hex {

  /** The digit for `d < 16`, in upper or lower case. */
  function HexDigit(d: nat, upper: bool): char
    requires d < 16
  {
    if d < 10 then ('0' as int + d) as char
    else ((if upper then 'A' else 'a') as int + d - 10) as char
  }

  predicate IsHexDigit(c: char, upper: bool)
  {
    '0' <= c <= '9' || (if upper then 'A' <= c <= 'F' else 'a' <= c <= 'f')
  }

  /** The value of a hex digit of either case. */
  function DigitValue(c: char): (v: nat)
    ensures v < 16
  {
    if '0' <= c <= '9' then c as int - '0' as int
    else if 'a' <= c <= 'f' then c as int - 'a' as int + 10
    else if 'A' <= c <= 'F' then c as int - 'A' as int + 10
    else 0
  }

  /** Digits as JavaScript writes them: at least one, no leading zero
      unless the value is 0, all in one case. */
  predicate Canonical(s: string, upper: bool)
  {
    |s| >= 1 && (|s| > 1 ==> s[0] != '0') &&
    forall i :: 0 <= i < |s| ==> IsHexDigit(s[i], upper)
  }

  /** `n.toString(16)` for `n >= 0`. */
  function Base16(n: nat): (r: string)
    ensures Canonical(r, false)
    decreases n
  {
    if n < 16 then [HexDigit(n, false)]
    else Base16(n / 16) + [HexDigit(n % 16, false)]
  }

  /** `n.toString(16)`. */
  function ToString16(n: int): string
  {
    if n < 0 then "-" + Base16(-n) else Base16(n)
  }

  /** ASCII `toUpperCase` of one character. */
  function UpperChar(c: char): char
  {
    if 'a' <= c <= 'z' then (c as int - 32) as char else c
  }

  function UpperStr(s: string): (r: string)
    ensures |r| == |s| && forall i :: 0 <= i < |s| ==> r[i] == UpperChar(s[i])
  {
    seq(|s|, i requires 0 <= i < |s| => UpperChar(s[i]))
  }

  /** `Str.To0xHex(n, upperCase)`. */
  function To0xHex(n: int, upperCase: bool): string
  {
    var str := ToString16(n);
    var str := if upperCase then UpperStr(str) else str;
    "0x" + str
  }

  /** The value of a string of hex digits. */
  function ParseDigits(s: string): nat
    decreases |s|
  {
    if s == [] then 0 else ParseDigits(s[..|s| - 1]) * 16 + DigitValue(s[|s| - 1])
  }

  lemma DivMod16(q: nat, r: nat)
    requires r < 16
    ensures (q * 16 + r) / 16 == q && (q * 16 + r) % 16 == r
  {
  }

  /** The digits of `n` read back as `n`. */
  lemma {:induction false} ParseBase16(n: nat)
    ensures ParseDigits(Base16(n)) == n
    decreases n
  {
    var s := Base16(n);
    if n >= 16 {
      ParseBase16(n / 16);
      assert s[..|s| - 1] == Base16(n / 16);
    }
  }

  /** Upper-casing digits does not change their value. */
  lemma {:induction false} ParseUpper(s: string)
    requires forall i :: 0 <= i < |s| ==> IsHexDigit(s[i], false)
    ensures ParseDigits(UpperStr(s)) == ParseDigits(s)
    decreases |s|
  {
    if s != [] {
      var u := UpperStr(s);
      assert u[..|u| - 1] == UpperStr(s[..|s| - 1]);
      ParseUpper(s[..|s| - 1]);
    }
  }

  /** A non-empty digit string is worth at least its first digit. */
  lemma {:induction false} ParseAtLeastHead(s: string)
    requires |s| > 0
    ensures ParseDigits(s) >= DigitValue(s[0])
    decreases |s|
  {
    if |s| > 1 {
      ParseAtLeastHead(s[..|s| - 1]);
    }
  }

  /** Canonical lower-case digits are the digits of their value: each
      value has exactly one way to be written. */
  lemma {:induction false} Base16Canonical(s: string)
    requires Canonical(s, false)
    ensures Base16(ParseDigits(s)) == s
    decreases |s|
  {
    var v := ParseDigits(s);
    if |s| == 1 {
      assert v == DigitValue(s[0]);
    } else {
      var p := s[..|s| - 1];
      var d := DigitValue(s[|s| - 1]);
      assert p[0] == s[0];
      ParseAtLeastHead(p);
      DivMod16(ParseDigits(p), d);
      Base16Canonical(p);
      assert s == p + [s[|s| - 1]];
    }
  }

  /** Two canonical digit strings of the same case and value are equal. */
  lemma CanonicalUnique(a: string, b: string, upper: bool)
    requires Canonical(a, upper) && Canonical(b, upper) && ParseDigits(a) == ParseDigits(b)
    ensures a == b
  {
    if upper {
      var la := LowerDigits(a);
      var lb := LowerDigits(b);
      Base16Canonical(la);
      Base16Canonical(lb);
      assert la == lb;
      assert a == UpperStr(la) && b == UpperStr(lb);
    } else {
      Base16Canonical(a);
      Base16Canonical(b);
    }
  }

  /** The lower-case spelling of upper-case digits, with the same value. */
  function LowerDigits(s: string): (r: string)
    requires Canonical(s, true)
    ensures Canonical(r, false) && UpperStr(r) == s && ParseDigits(r) == ParseDigits(s)
  {
    var r := seq(|s|, i requires 0 <= i < |s| => if 'A' <= s[i] <= 'F' then (s[i] as int + 32) as char else s[i]);
    ParseUpper(r);
    r
  }

  /** Canonical digits stay canonical, in upper case, when upper-cased. */
  lemma UpperCanonical(s: string)
    requires Canonical(s, false)
    ensures Canonical(UpperStr(s), true)
  {
  }

  /** The digits in the requested case. */
  function InCase(s: string, upper: bool): string
  {
    if upper then UpperStr(s) else s
  }

  lemma To0xHexShape(n: int, upperCase: bool)
    ensures To0xHex(n, upperCase) ==
      "0x" + (if n < 0 then "-" else "") + InCase(Base16(if n < 0 then -n else n), upperCase)
  {
    if n < 0 && upperCase {
      var b := Base16(-n);
      assert UpperStr("-" + b) == "-" + UpperStr(b);
    }
  }

  /** `To0xHex(n, upperCase)` is "0x", a '-' for a negative `n`, then the
      canonical digits of `|n|` in the requested case. */
  lemma To0xHexDigits(n: int, upperCase: bool)
    ensures var r := To0xHex(n, upperCase);
      var k := if n < 0 then 3 else 2;
      |r| > k && r[..2] == "0x" && (n < 0 ==> r[2] == '-') &&
      Canonical(r[k..], upperCase) && ParseDigits(r[k..]) == (if n < 0 then -n else n)
  {
    var m := if n < 0 then -n else n;
    var b := Base16(m);
    var d := InCase(b, upperCase);
    ParseBase16(m);
    To0xHexShape(n, upperCase);
    if upperCase {
      ParseUpper(b);
      UpperCanonical(b);
    }
    var r := To0xHex(n, upperCase);
    var k := if n < 0 then 3 else 2;
    assert r[k..] == d;
  }
}

=== FILE: html.dfy ===
/** `Str.EncodeHtml` and `Str.DecodeHtml` (Scripts/Common/Base/Str.ts): HTML
    escaping of text and its inverse, as a fixed chain of `ReplaceStr`
    calls around `NormalizeCrlf`. */
module Html {
  import opened Wrappers
  import opened Str
  import opened NewLines

  const HtmlSpacing: string := "&nbsp;"
  const HtmlCrlf: string := "<BR>"
  const HtmlLt: string := "&lt;"
  const HtmlGt: string := "&gt;"
  const HtmlAmp: string := "&amp;"
  /** What a tab becomes: eight escaped ampersands. */
  const HtmlTab: string := "&amp;&amp;&amp;&amp;&amp;&amp;&amp;&amp;"

  /** The space loop of `EncodeHtml` from a position where `afterSpace`
      says whether the previous character was a space: the first space of a
      run stays a space, each further one becomes `HtmlSpacing`. */
  function SpaceRuns(s: string, afterSpace: bool): string
    decreases |s|
  {
    if s == [] then ""
    else if s[0] == ' ' then
      (if afterSpace then HtmlSpacing else " ") + SpaceRuns(s[1..], true)
    else
      [s[0]] + SpaceRuns(s[1..], false)
  }

  /** The space conversion of `EncodeHtml`, applied only when the text has
      a space: every space, or every space but the first of a run. */
  function ConvertSpaces(s: string, forceAllSpaceToTag: bool): string
  {
    if IndexOf(s, " ", 0) != -1 then
      if forceAllSpaceToTag then ReplaceStr(s, " ", HtmlSpacing, true)
      else SpaceRuns(s, false)
    else s
  }

  /** `Str.EncodeHtml(str, forceAllSpaceToTag, spaceIfEmpty)`. */
  function EncodeHtml(str: Option<string>, forceAllSpaceToTag: bool, spaceIfEmpty: bool): (r: string)
    ensures spaceIfEmpty && r != HtmlSpacing ==> !IsEmpty(Some(r))
  {
    var s1 := NormalizeCrlf(Some(NonNull(str)), CrLf, false);
    var s2 := ReplaceStr(s1, "&", HtmlAmp, true);
    var s3 := ReplaceStr(s2, "<", HtmlLt, true);
    var s4 := ReplaceStr(s3, ">", HtmlGt, true);
    var s5 := ConvertSpaces(s4, forceAllSpaceToTag);
    var s6 := ReplaceStr(s5, "\t", HtmlTab, true);
    var s7 := ReplaceStr(s6, CrLf, HtmlCrlf, true);
    if spaceIfEmpty && IsEmpty(Some(s7)) then HtmlSpacing else s7
  }

  /** `Str.DecodeHtml(str)`: line-break tags (in any case) first, the
      ampersand last. */
  function DecodeHtml(str: Option<string>): string
  {
    var s1 := ReplaceStr(NonNull(str), HtmlCrlf, CrLf, false);
    var s2 := ReplaceStr(s1, HtmlSpacing, " ", true);
    var s3 := ReplaceStr(s2, HtmlLt, "<", true);
    var s4 := ReplaceStr(s3, HtmlGt, ">", true);
    var s5 := ReplaceStr(s4, HtmlAmp, "&", true);
    NormalizeCrlf(Some(s5), CrLf, false)
  }
}

=== FILE: html_codec.dfy ===
/** What `EncodeHtml` produces and how `DecodeHtml` undoes it, stated on
    the strings themselves and proved through the token stages. */
module HtmlCodec {
  import opened Wrappers
  import opened Str
  import opened StrTokens
  import opened NewLines
  import opened Html
  import opened HtmlTokens

  lemma KindsMarked(us: seq<Unit>, forceAllSpaceToTag: bool)
    requires WellFormed(us)
    ensures forceAllSpaceToTag ==> forall i :: 0 <= i < |us| ==> !Kinds(us, forceAllSpaceToTag)[i].Space?
    ensures !forceAllSpaceToTag ==> RunsMarked(Kinds(us, forceAllSpaceToTag))
  {
  }

  lemma {:induction false} ConcatRender(ts: seq<string>, us: seq<Unit>)
    requires |ts| == |us|
    requires forall i :: 0 <= i < |us| ==> ts[i] == RenderUnit(us[i], CrLf)
    ensures Concat(ts) == Render(us, CrLf)
    decreases |us|
  {
    if us != [] {
      ConcatRender(ts[1..], us[1..]);
    }
  }

  lemma KindToken(us: seq<Unit>, i: nat, forceAllSpaceToTag: bool)
    requires WellFormed(us) && i < |us|
    ensures Tok(KindOf(us, i, forceAllSpaceToTag), 0) == RenderUnit(us[i], CrLf)
  {
  }

  /** The line-normalised input is the join of the stage-0 tokens. */
  lemma NormalizedTokens(s: string, forceAllSpaceToTag: bool)
    ensures NormalizeCrlf(Some(s), CrLf, false) == Concat(Toks(Kinds(Units(s), forceAllSpaceToTag), 0))
  {
    var us := Units(s);
    var ts := Toks(Kinds(us, forceAllSpaceToTag), 0);
    NormalizeCrlfIsRender(Some(s), CrLf, false);
    assert NonNull(Some(s)) == s;
    forall i | 0 <= i < |us|
      ensures ts[i] == RenderUnit(us[i], CrLf)
    {
      KindToken(us, i, forceAllSpaceToTag);
    }
    ConcatRender(ts, us);
  }

  lemma AllSteps(ks: seq<Kind>, st: nat)
    requires forall i :: 0 <= i < |ks| ==> Admissible(ks[i])
    requires st <= 10
    requires st == 3 ==> forall i :: 0 <= i < |ks| ==> !ks[i].Space?
    requires st >= 6 ==> forall i :: 0 <= i < |ks| ==> !ks[i].Tab?
    ensures ReplaceStr(Concat(Toks(ks, st)), Pattern(st), Replacement(st), CaseSensitive(st))
         == Concat(Toks(ks, st + 1))
  {
    forall i | 0 <= i < |ks|
      ensures KindStep(ks[i], st)
    {
      KindSteps(ks[i], st);
    }
    StageStep(ks, st);
  }

  /** The `&` step of `EncodeHtml`. */
  lemma EscapeAmp(ks: seq<Kind>)
    requires forall i :: 0 <= i < |ks| ==> Admissible(ks[i])
    ensures ReplaceStr(Concat(Toks(ks, 0)), "&", HtmlAmp, true) == Concat(Toks(ks, 1))
  {
    AllSteps(ks, 0);
    assert Pattern(0) == "&" && Replacement(0) == HtmlAmp && CaseSensitive(0) == true;
  }

  /** The `<` step of `EncodeHtml`. */
  lemma EscapeLt(ks: seq<Kind>)
    requires forall i :: 0 <= i < |ks| ==> Admissible(ks[i])
    ensures ReplaceStr(Concat(Toks(ks, 1)), "<", HtmlLt, true) == Concat(Toks(ks, 2))
  {
    AllSteps(ks, 1);
    assert Pattern(1) == "<" && Replacement(1) == HtmlLt && CaseSensitive(1) == true;
  }

  /** The `>` step of `EncodeHtml`. */
  lemma EscapeGt(ks: seq<Kind>)
    requires forall i :: 0 <= i < |ks| ==> Admissible(ks[i])
    ensures ReplaceStr(Concat(Toks(ks, 2)), ">", HtmlGt, true) == Concat(Toks(ks, 3))
  {
    AllSteps(ks, 2);
    assert Pattern(2) == ">" && Replacement(2) == HtmlGt && CaseSensitive(2) == true;
  }

  /** The tab step of `EncodeHtml`. */
  lemma EscapeTab(ks: seq<Kind>)
    requires forall i :: 0 <= i < |ks| ==> Admissible(ks[i])
    ensures ReplaceStr(Concat(Toks(ks, 4)), "\t", HtmlTab, true) == Concat(Toks(ks, 5))
  {
    AllSteps(ks, 4);
    assert Pattern(4) == "\t" && Replacement(4) == HtmlTab && CaseSensitive(4) == true;
  }

  /** The line-break step of `EncodeHtml`. */
  lemma EscapeBreak(ks: seq<Kind>)
    requires forall i :: 0 <= i < |ks| ==> Admissible(ks[i])
    ensures ReplaceStr(Concat(Toks(ks, 5)), CrLf, HtmlCrlf, true) == Concat(Toks(ks, 6))
  {
    AllSteps(ks, 5);
    assert Pattern(5) == CrLf && Replacement(5) == HtmlCrlf && CaseSensitive(5) == true;
  }

  /** The "<BR>" step of `DecodeHtml`, in any case. */
  lemma UnescapeBreak(ks: seq<Kind>)
    requires forall i :: 0 <= i < |ks| ==> Admissible(ks[i]) && !ks[i].Tab?
    ensures ReplaceStr(Concat(Toks(ks, 6)), HtmlCrlf, CrLf, false) == Concat(Toks(ks, 7))
  {
    AllSteps(ks, 6);
    assert Pattern(6) == HtmlCrlf && Replacement(6) == CrLf && CaseSensitive(6) == false;
  }

  /** The "&nbsp;" step of `DecodeHtml`. */
  lemma UnescapeSpacing(ks: seq<Kind>)
    requires forall i :: 0 <= i < |ks| ==> Admissible(ks[i]) && !ks[i].Tab?
    ensures ReplaceStr(Concat(Toks(ks, 7)), HtmlSpacing, " ", true) == Concat(Toks(ks, 8))
  {
    AllSteps(ks, 7);
    assert Pattern(7) == HtmlSpacing && Replacement(7) == " " && CaseSensitive(7) == true;
  }

  /** The "&lt;" step of `DecodeHtml`. */
  lemma UnescapeLt(ks: seq<Kind>)
    requires forall i :: 0 <= i < |ks| ==> Admissible(ks[i]) && !ks[i].Tab?
    ensures ReplaceStr(Concat(Toks(ks, 8)), HtmlLt, "<", true) == Concat(Toks(ks, 9))
  {
    AllSteps(ks, 8);
    assert Pattern(8) == HtmlLt && Replacement(8) == "<" && CaseSensitive(8) == true;
  }

  /** The "&gt;" step of `DecodeHtml`. */
  lemma UnescapeGt(ks: seq<Kind>)
    requires forall i :: 0 <= i < |ks| ==> Admissible(ks[i]) && !ks[i].Tab?
    ensures ReplaceStr(Concat(Toks(ks, 9)), HtmlGt, ">", true) == Concat(Toks(ks, 10))
  {
    AllSteps(ks, 9);
    assert Pattern(9) == HtmlGt && Replacement(9) == ">" && CaseSensitive(9) == true;
  }

  /** The "&amp;" step of `DecodeHtml`. */
  lemma UnescapeAmp(ks: seq<Kind>)
    requires forall i :: 0 <= i < |ks| ==> Admissible(ks[i]) && !ks[i].Tab?
    ensures ReplaceStr(Concat(Toks(ks, 10)), HtmlAmp, "&", true) == Concat(Toks(ks, 11))
  {
    AllSteps(ks, 10);
    assert Pattern(10) == HtmlAmp && Replacement(10) == "&" && CaseSensitive(10) == true;
  }

  /** The steps of `EncodeHtml` without `spaceIfEmpty`, one at a time. */
  lemma EncodeSteps(str: Option<string>, force: bool,
                    s1: string, s2: string, s3: string, s4: string, s5: string, s6: string, s7: string)
    requires s1 == NormalizeCrlf(Some(NonNull(str)), CrLf, false)
    requires s2 == ReplaceStr(s1, "&", HtmlAmp, true)
    requires s3 == ReplaceStr(s2, "<", HtmlLt, true)
    requires s4 == ReplaceStr(s3, ">", HtmlGt, true)
    requires s5 == ConvertSpaces(s4, force)
    requires s6 == ReplaceStr(s5, "\t", HtmlTab, true)
    requires s7 == ReplaceStr(s6, CrLf, HtmlCrlf, true)
    ensures EncodeHtml(str, force, false) == s7
  {
  }

  /** The steps of `DecodeHtml`, one at a time. */
  lemma DecodeSteps(str: Option<string>, s1: string, s2: string, s3: string, s4: string, s5: string)
    requires s1 == ReplaceStr(NonNull(str), HtmlCrlf, CrLf, false)
    requires s2 == ReplaceStr(s1, HtmlSpacing, " ", true)
    requires s3 == ReplaceStr(s2, HtmlLt, "<", true)
    requires s4 == ReplaceStr(s3, HtmlGt, ">", true)
    requires s5 == ReplaceStr(s4, HtmlAmp, "&", true)
    ensures DecodeHtml(str) == NormalizeCrlf(Some(s5), CrLf, false)
  {
  }

  /** `EncodeHtml` without `spaceIfEmpty` writes every unit of the
      line-normalised input as one token: a line break as "<BR>", '&', '<'
      and '>' as their entities, a tab as eight "&amp;", a space that
      follows a space (any space, when `forceAllSpaceToTag`) as "&nbsp;"
      and every other character as itself. */
  lemma EncodeHtmlTokens(str: Option<string>, forceAllSpaceToTag: bool)
    ensures EncodeHtml(str, forceAllSpaceToTag, false)
         == Concat(Toks(Kinds(Units(NonNull(str)), forceAllSpaceToTag), Encoded))
  {
    var s := NonNull(str);
    var us := Units(s);
    var ks := Kinds(us, forceAllSpaceToTag);
    NormalizedTokens(s, forceAllSpaceToTag);
    EscapeAmp(ks);
    EscapeLt(ks);
    EscapeGt(ks);
    KindsMarked(us, forceAllSpaceToTag);
    ConvertSpacesTokens(ks, forceAllSpaceToTag);
    EscapeTab(ks);
    EscapeBreak(ks);
    EncodeSteps(str, forceAllSpaceToTag, Concat(Toks(ks, 0)), Concat(Toks(ks, 1)), Concat(Toks(ks, 2)),
                Concat(Toks(ks, 3)), Concat(Toks(ks, 4)), Concat(Toks(ks, 5)), Concat(Toks(ks, 6)));
  }

  /** `DecodeHtml` takes the encoded tokens back to the normalised ones,
      provided there is no tab. */
  lemma DecodeHtmlTokens(ks: seq<Kind>)
    requires forall i :: 0 <= i < |ks| ==> Admissible(ks[i]) && !ks[i].Tab?
    ensures DecodeHtml(Some(Concat(Toks(ks, Encoded))))
         == NormalizeCrlf(Some(Concat(Toks(ks, 0))), CrLf, false)
  {
    UnescapeBreak(ks);
    UnescapeSpacing(ks);
    UnescapeLt(ks);
    UnescapeGt(ks);
    UnescapeAmp(ks);
    DecodedIsNormalized(ks);
    DecodeSteps(Some(Concat(Toks(ks, Encoded))), Concat(Toks(ks, 7)), Concat(Toks(ks, 8)),
                Concat(Toks(ks, 9)), Concat(Toks(ks, 10)), Concat(Toks(ks, 11)));
  }

  /** Without tabs, decoding restores the stage-0 tokens. */
  lemma DecodedIsNormalized(ks: seq<Kind>)
    requires forall i :: 0 <= i < |ks| ==> !ks[i].Tab?
    ensures Toks(ks, Decoded) == Toks(ks, 0)
  {
  }

  lemma TabFreeKinds(s: string, forceAllSpaceToTag: bool)
    requires forall i :: 0 <= i < |s| ==> s[i] != '\t'
    ensures var ks := Kinds(Units(s), forceAllSpaceToTag);
      forall i :: 0 <= i < |ks| ==> Admissible(ks[i]) && !ks[i].Tab?
  {
    var us := Units(s);
    UnitsChars(s);
  }

  /** `NormalizeCrlf` reads a missing string as "". */
  lemma NormalizeNonNull(str: Option<string>)
    ensures NormalizeCrlf(Some(NonNull(str)), CrLf, false) == NormalizeCrlf(str, CrLf, false)
  {
    assert NonNull(Some(NonNull(str))) == NonNull(str);
  }

  /** Decoding an encoded text gives back the text with its line breaks
      normalised, whether or not every space was encoded; a tab does not
      come back (it decodes to eight '&'), so the text has none. */
  lemma HtmlRoundTrip(str: Option<string>, forceAllSpaceToTag: bool)
    requires forall i :: 0 <= i < |NonNull(str)| ==> NonNull(str)[i] != '\t'
    ensures DecodeHtml(Some(EncodeHtml(str, forceAllSpaceToTag, false))) == NormalizeCrlf(str, CrLf, false)
  {
    var s := NonNull(str);
    var ks := Kinds(Units(s), forceAllSpaceToTag);
    EncodeHtmlTokens(str, forceAllSpaceToTag);
    TabFreeKinds(s, forceAllSpaceToTag);
    DecodeHtmlTokens(ks);
    NormalizedTokens(s, forceAllSpaceToTag);
    NormalizeCrlfIdempotent(Some(s));
    NormalizeNonNull(str);
  }

  lemma {:induction false} ConcatAvoids(ts: seq<string>, x: char)
    requires forall i, j :: 0 <= i < |ts| && 0 <= j < |ts[i]| ==> ts[i][j] != x
    ensures forall j :: 0 <= j < |Concat(ts)| ==> Concat(ts)[j] != x
    decreases |ts|
  {
    if ts != [] {
      ConcatAvoids(ts[1..], x);
    }
  }

  lemma EncodedTokenNoAngles(k: Kind)
    requires Admissible(k) && !k.LineBreak?
    ensures forall j :: 0 <= j < |Tok(k, Encoded)| ==> Tok(k, Encoded)[j] != '<' && Tok(k, Encoded)[j] != '>'
  {
  }

  /** With `spaceIfEmpty`, an output that is empty after trimming is
      replaced by `HtmlSpacing`; nothing else changes. */
  lemma EncodeHtmlSpaceIfEmpty(str: Option<string>, forceAllSpaceToTag: bool)
    ensures var r := EncodeHtml(str, forceAllSpaceToTag, false);
      EncodeHtml(str, forceAllSpaceToTag, true) == if IsEmpty(Some(r)) then HtmlSpacing else r
  {
  }

  /** The encoded tokens of a text without line breaks have no '<' or
      '>'. */
  lemma EncodedNoAngles(s: string, forceAllSpaceToTag: bool)
    requires forall i :: 0 <= i < |s| ==> !IsLineBreak(s[i])
    ensures var ts := Toks(Kinds(Units(s), forceAllSpaceToTag), Encoded);
      forall i, j :: 0 <= i < |ts| && 0 <= j < |ts[i]| ==> ts[i][j] != '<' && ts[i][j] != '>'
  {
    var ks := Kinds(Units(s), forceAllSpaceToTag);
    UnitsNoBreak(s);
    forall i | 0 <= i < |ks|
      ensures forall j :: 0 <= j < |Tok(ks[i], Encoded)| ==> Tok(ks[i], Encoded)[j] != '<' && Tok(ks[i], Encoded)[j] != '>'
    {
      EncodedTokenNoAngles(ks[i]);
    }
  }

  /** Without `spaceIfEmpty`, encoding a text without line breaks leaves
      no '<' or '>' in it. */
  lemma EncodeHtmlPlainNoAngles(str: Option<string>, forceAllSpaceToTag: bool)
    requires forall i :: 0 <= i < |NonNull(str)| ==> !IsLineBreak(NonNull(str)[i])
    ensures var r := EncodeHtml(str, forceAllSpaceToTag, false);
      forall j :: 0 <= j < |r| ==> r[j] != '<' && r[j] != '>'
  {
    var s := NonNull(str);
    var ts := Toks(Kinds(Units(s), forceAllSpaceToTag), Encoded);
    EncodeHtmlTokens(str, forceAllSpaceToTag);
    EncodedNoAngles(s, forceAllSpaceToTag);
    ConcatAvoids(ts, '<');
    ConcatAvoids(ts, '>');
  }

  /** Encoding a text without line breaks leaves no '<' or '>' in it. */
  lemma EncodeHtmlNoAngles(str: Option<string>, forceAllSpaceToTag: bool, spaceIfEmpty: bool)
    requires forall i :: 0 <= i < |NonNull(str)| ==> !IsLineBreak(NonNull(str)[i])
    ensures var r := EncodeHtml(str, forceAllSpaceToTag, spaceIfEmpty);
      forall j :: 0 <= j < |r| ==> r[j] != '<' && r[j] != '>'
  {
    EncodeHtmlPlainNoAngles(str, forceAllSpaceToTag);
    EncodeHtmlSpaceIfEmpty(str, forceAllSpaceToTag);
  }

  /** `n` spaces. */
  function Spaces(n: nat): (r: string)
    ensures |r| == n && forall i :: 0 <= i < n ==> r[i] == ' '
  {
    seq(n, i => ' ')
  }

  /** `t` written `n` times. */
  function Repeat(t: string, n: nat): string
  {
    if n == 0 then "" else t + Repeat(t, n - 1)
  }

  lemma {:induction false} ConcatRepeat(ts: seq<string>, t: string)
    requires forall i :: 0 <= i < |ts| ==> ts[i] == t
    ensures Concat(ts) == Repeat(t, |ts|)
    decreases |ts|
  {
    if ts != [] {
      ConcatRepeat(ts[1..], t);
    }
  }

  /** The kinds of a run of spaces: the first is a `Space` unless every
      space is converted, the others are `RunSpace`s. */
  lemma SpaceRunKinds(n: nat, forceAllSpaceToTag: bool)
    ensures var ks := Kinds(Units(Spaces(n)), forceAllSpaceToTag);
      |ks| == n && forall i :: 0 <= i < n ==> ks[i] == if forceAllSpaceToTag || i > 0 then RunSpace else Space
  {
    UnitsNoBreak(Spaces(n));
  }

  lemma SpaceRunTokens(n: nat, forceAllSpaceToTag: bool)
    requires n >= 1
    ensures var ts := Toks(Kinds(Units(Spaces(n)), forceAllSpaceToTag), Encoded);
      Concat(ts) == if forceAllSpaceToTag then Repeat(HtmlSpacing, n) else " " + Repeat(HtmlSpacing, n - 1)
  {
    var ts := Toks(Kinds(Units(Spaces(n)), forceAllSpaceToTag), Encoded);
    SpaceRunKinds(n, forceAllSpaceToTag);
    if forceAllSpaceToTag {
      ConcatRepeat(ts, HtmlSpacing);
    } else {
      ConcatRepeat(ts[1..], HtmlSpacing);
    }
  }

  /** A run of `n` spaces encodes as one space followed by `n - 1`
      "&nbsp;", or as `n` "&nbsp;" when every space is converted. */
  lemma EncodeSpaceRun(n: nat)
    requires n >= 1
    ensures EncodeHtml(Some(Spaces(n)), false, false) == " " + Repeat(HtmlSpacing, n - 1)
    ensures EncodeHtml(Some(Spaces(n)), true, false) == Repeat(HtmlSpacing, n)
  {
    assert NonNull(Some(Spaces(n))) == Spaces(n);
    EncodeHtmlTokens(Some(Spaces(n)), false);
    EncodeHtmlTokens(Some(Spaces(n)), true);
    SpaceRunTokens(n, false);
    SpaceRunTokens(n, true);
  }

  /** The single token of a lone tab. */
  lemma TabTokens(forceAllSpaceToTag: bool)
    ensures Concat(Toks(Kinds(Units("\t"), forceAllSpaceToTag), Encoded)) == HtmlTab
  {
    UnitsNoBreak("\t");
    var ks := Kinds(Units("\t"), forceAllSpaceToTag);
    assert ks == [Tab];
    var ts := Toks(ks, Encoded);
    assert ts == [HtmlTab];
    assert Concat(ts) == HtmlTab + Concat([]);
  }

  /** A tab encodes to eight "&amp;" entities, whether or not every space
      is converted. */
  lemma EncodeTab(forceAllSpaceToTag: bool)
    ensures EncodeHtml(Some("\t"), forceAllSpaceToTag, false) == HtmlTab
  {
    assert NonNull(Some("\t")) == "\t";
    EncodeHtmlTokens(Some("\t"), forceAllSpaceToTag);
    TabTokens(forceAllSpaceToTag);
  }
}

=== FILE: html_tokens.dfy ===
/** The text `EncodeHtml` and `DecodeHtml` work on, read as one token per
    `Unit` of the line-normalised input.  Every `ReplaceStr` of the two
    chains rewrites whole tokens only, so each intermediate string is the
    join of the tokens of one `Stage`; the round trip and the escaping
    properties follow token by token. */
module HtmlTokens {
  import opened Wrappers
  import opened Str
  import opened StrReplace
  import opened StrTokens
  import opened NewLines
  import opened Html

  /** The role of one unit of normalised text in the HTML codec. */
  datatype Kind =
    | LineBreak
    | Amp
    | Lt
    | Gt
    | Space      // a space that stays a space
    | RunSpace   // a space that becomes `HtmlSpacing`
    | Tab
    | Plain(c: char)

  /** A character no step of the codec rewrites. */
  predicate PlainChar(c: char)
  {
    !IsLineBreak(c) && c != '&' && c != '<' && c != '>' && c != ' ' && c != '\t'
  }

  predicate Admissible(k: Kind)
  {
    k.Plain? ==> PlainChar(k.c)
  }

  predicate IsSpaceKind(k: Kind)
  {
    k.Space? || k.RunSpace?
  }

  /** The kind of unit `i`: with `forceAllSpaceToTag` every space is a
      `RunSpace`, otherwise only the spaces right after a space are. */
  function KindOf(us: seq<Unit>, i: nat, forceAllSpaceToTag: bool): (k: Kind)
    requires WellFormed(us) && i < |us|
    ensures Admissible(k)
  {
    match us[i]
    case Break => LineBreak
    case Text(c) =>
      if c == '&' then Amp
      else if c == '<' then Lt
      else if c == '>' then Gt
      else if c == '\t' then Tab
      else if c == ' ' then
        if forceAllSpaceToTag || (i > 0 && us[i - 1] == Text(' ')) then RunSpace else Space
      else Plain(c)
  }

  function Kinds(us: seq<Unit>, forceAllSpaceToTag: bool): (ks: seq<Kind>)
    requires WellFormed(us)
    ensures |ks| == |us|
    ensures forall i :: 0 <= i < |us| ==> ks[i] == KindOf(us, i, forceAllSpaceToTag)
  {
    seq(|us|, i requires 0 <= i < |us| => KindOf(us, i, forceAllSpaceToTag))
  }

  // ---------------------------------------------------------------- stages

  /** The stages of the two chains: 0 is the normalised text, stages 1 to
      6 follow the six replacement steps of `EncodeHtml` (6 is its
      output), stages 7 to 11 the five of `DecodeHtml`. */
  const Encoded: nat := 6
  const Decoded: nat := 11

  /** The token of a unit of kind `k` at stage `st`. */
  function Tok(k: Kind, st: nat): string
  {
    match k
    case LineBreak => if st == 6 then HtmlCrlf else CrLf
    case Amp => if 1 <= st <= 10 then HtmlAmp else "&"
    case Lt => if 2 <= st <= 8 then HtmlLt else "<"
    case Gt => if 3 <= st <= 9 then HtmlGt else ">"
    case Space => " "
    case RunSpace => if 4 <= st <= 7 then HtmlSpacing else " "
    case Tab => if 5 <= st then HtmlTab else "\t"
    case Plain(c) => [c]
  }

  function Toks(ks: seq<Kind>, st: nat): (ts: seq<string>)
    ensures |ts| == |ks|
    ensures forall i :: 0 <= i < |ks| ==> ts[i] == Tok(ks[i], st)
  {
    seq(|ks|, i requires 0 <= i < |ks| => Tok(ks[i], st))
  }

  /** The keyword, replacement and case sensitivity of the `ReplaceStr`
      step that leads from stage `st` to stage `st + 1`; step 3, the space
      conversion, is a `ReplaceStr` only when every space is converted. */
  function Pattern(st: nat): string
  {
    if st == 0 then "&" else if st == 1 then "<" else if st == 2 then ">"
    else if st == 3 then " " else if st == 4 then "\t" else if st == 5 then CrLf
    else if st == 6 then HtmlCrlf else if st == 7 then HtmlSpacing
    else if st == 8 then HtmlLt else if st == 9 then HtmlGt else HtmlAmp
  }

  function Replacement(st: nat): string
  {
    if st == 0 then HtmlAmp else if st == 1 then HtmlLt else if st == 2 then HtmlGt
    else if st == 3 then HtmlSpacing else if st == 4 then HtmlTab else if st == 5 then HtmlCrlf
    else if st == 6 then CrLf else if st == 7 then " "
    else if st == 8 then "<" else if st == 9 then ">" else "&"
  }

  function CaseSensitive(st: nat): bool
  {
    st != 6
  }

  /** Step `st` either replaces a token of kind `k` whole or cannot match
      anywhere inside it, and the stage-`st + 1` token is the outcome. */
  predicate KindStep(k: Kind, st: nat)
  {
    var t := Tok(k, st);
    var p := Pattern(st);
    var cs := CaseSensitive(st);
    (Fold(t, cs) == Fold(p, cs) && Tok(k, st + 1) == Replacement(st)) ||
    (|t| > 0 && AgreeNowhere(Fold(t, cs), Fold(p, cs)) && Tok(k, st + 1) == t)
  }

  lemma {:induction false} AgreeRefl(a: string)
    ensures Agree(a, a)
    decreases |a|
  {
    if |a| > 0 {
      AgreeRefl(a[1..]);
    }
  }

  /** A step all of whose tokens are whole matches or apart from the
      keyword takes the join of the stage-`st` tokens to the join of the
      stage-`st + 1` tokens. */
  lemma StageStep(ks: seq<Kind>, st: nat)
    requires forall i :: 0 <= i < |ks| ==> KindStep(ks[i], st)
    ensures ReplaceStr(Concat(Toks(ks, st)), Pattern(st), Replacement(st), CaseSensitive(st))
         == Concat(Toks(ks, st + 1))
  {
    var ts := Toks(ks, st);
    var p := Pattern(st);
    var cs := CaseSensitive(st);
    assert |p| > 0;
    forall i | 0 <= i < |ts|
      ensures Fold(ts[i], cs) == Fold(p, cs) || AgreeNowhere(Fold(ts[i], cs), Fold(p, cs))
    {
      assert KindStep(ks[i], st);
    }
    ReplaceTokens(ts, p, Replacement(st), cs);
    var sub := Substitute(ts, p, Replacement(st), cs);
    forall i | 0 <= i < |ts|
      ensures sub[i] == Toks(ks, st + 1)[i]
    {
      assert KindStep(ks[i], st);
      if Fold(ts[i], cs) != Fold(p, cs) {
      } else if Tok(ks[i], st + 1) != Replacement(st) {
        FoldIndex(ts[i], cs);
        AgreeRefl(Fold(ts[i], cs));
        assert false;
      }
    }
    assert sub == Toks(ks, st + 1);
  }

  // ------------------------------------------------------ steps per kind

  predicate IsLetter(c: char)
  {
    'A' <= c <= 'Z' || 'a' <= c <= 'z'
  }

  /** A token without the keyword's first character, a non-letter, admits
      no match, folded or not. */
  lemma ApartByHead(t: string, p: string, cs: bool)
    requires |p| > 0 && !IsLetter(p[0])
    requires forall i :: 0 <= i < |t| ==> t[i] != p[0]
    ensures AgreeNowhere(Fold(t, cs), Fold(p, cs))
  {
    FoldIndex(t, cs);
    FoldIndex(p, cs);
    AgreeNowhereNoHead(Fold(t, cs), Fold(p, cs));
  }

  lemma ApartStep(k: Kind, st: nat)
    requires |Tok(k, st)| > 0 && Tok(k, st + 1) == Tok(k, st)
    requires |Pattern(st)| > 0 && !IsLetter(Pattern(st)[0])
    requires forall i :: 0 <= i < |Tok(k, st)| ==> Tok(k, st)[i] != Pattern(st)[0]
    ensures KindStep(k, st)
  {
    ApartByHead(Tok(k, st), Pattern(st), CaseSensitive(st));
  }

  lemma MatchStep(k: Kind, st: nat)
    requires Tok(k, st) == Pattern(st) && Tok(k, st + 1) == Replacement(st)
    ensures KindStep(k, st)
  {
  }

  lemma LineBreakSteps(st: nat)
    requires st <= 10
    ensures KindStep(LineBreak, st)
  {
    if st == 5 || st == 6 {
      MatchStep(LineBreak, st);
    } else {
      ApartStep(LineBreak, st);
    }
  }

  lemma AmpSteps(st: nat)
    requires st <= 10
    ensures KindStep(Amp, st)
  {
    if st == 0 || st == 10 {
      MatchStep(Amp, st);
    } else if st == 7 {
      assert AgreeNowhere(HtmlAmp, HtmlSpacing);
    } else if st == 8 {
      assert AgreeNowhere(HtmlAmp, HtmlLt);
    } else if st == 9 {
      assert AgreeNowhere(HtmlAmp, HtmlGt);
    } else {
      ApartStep(Amp, st);
    }
  }

  lemma LtSteps(st: nat)
    requires st <= 10
    ensures KindStep(Lt, st)
  {
    if st == 1 || st == 8 {
      MatchStep(Lt, st);
    } else if st == 7 {
      assert AgreeNowhere(HtmlLt, HtmlSpacing);
    } else {
      ApartStep(Lt, st);
    }
  }

  lemma GtSteps(st: nat)
    requires st <= 10
    ensures KindStep(Gt, st)
  {
    if st == 2 || st == 9 {
      MatchStep(Gt, st);
    } else if st == 7 {
      assert AgreeNowhere(HtmlGt, HtmlSpacing);
    } else if st == 8 {
      assert AgreeNowhere(HtmlGt, HtmlLt);
    } else {
      ApartStep(Gt, st);
    }
  }

  lemma SpaceSteps(st: nat)
    requires st <= 10 && st != 3
    ensures KindStep(Space, st)
  {
    ApartStep(Space, st);
  }

  lemma RunSpaceSteps(st: nat)
    requires st <= 10
    ensures KindStep(RunSpace, st)
  {
    if st == 3 || st == 7 {
      MatchStep(RunSpace, st);
    } else {
      ApartStep(RunSpace, st);
    }
  }

  lemma TabSteps(st: nat)
    requires st <= 5
    ensures KindStep(Tab, st)
  {
    if st == 4 {
      MatchStep(Tab, st);
    } else {
      ApartStep(Tab, st);
    }
  }

  lemma PlainSteps(c: char, st: nat)
    requires PlainChar(c) && st <= 10
    ensures KindStep(Plain(c), st)
  {
    ApartStep(Plain(c), st);
  }

  /** Every step but the non-forced space conversion rewrites whole
      tokens; a plain space is only apart from the keyword when spaces are
      not converted by `ReplaceStr`, a tab only up to the end of
      `EncodeHtml`. */
  lemma KindSteps(k: Kind, st: nat)
    requires Admissible(k) && st <= 10
    requires st == 3 ==> !k.Space?
    requires st >= 6 ==> !k.Tab?
    ensures KindStep(k, st)
  {
    match k
    case LineBreak => LineBreakSteps(st);
    case Amp => AmpSteps(st);
    case Lt => LtSteps(st);
    case Gt => GtSteps(st);
    case Space => SpaceSteps(st);
    case RunSpace => RunSpaceSteps(st);
    case Tab => TabSteps(st);
    case Plain(c) => PlainSteps(c, st);
  }

  // ---------------------------------------------------------- space runs

  /** Whether the space loop is inside a run after reading `a`. */
  function AfterSpace(a: string, afterSpace: bool): bool
  {
    if |a| == 0 then afterSpace else a[|a| - 1] == ' '
  }

  lemma {:induction false} SpaceRunsAppend(a: string, b: string, afterSpace: bool)
    ensures SpaceRuns(a + b, afterSpace) == SpaceRuns(a, afterSpace) + SpaceRuns(b, AfterSpace(a, afterSpace))
    decreases |a|
  {
    if |a| == 0 {
      assert a + b == b;
    } else {
      assert (a + b)[1..] == a[1..] + b;
      SpaceRunsAppend(a[1..], b, a[0] == ' ');
    }
  }

  lemma {:induction false} SpaceRunsNoSpace(t: string, afterSpace: bool)
    requires forall i :: 0 <= i < |t| ==> t[i] != ' '
    ensures SpaceRuns(t, afterSpace) == t
    decreases |t|
  {
    if |t| > 0 {
      SpaceRunsNoSpace(t[1..], false);
    }
  }

  /** The first and the later spaces of each run are told apart. */
  predicate RunsMarked(ks: seq<Kind>)
  {
    forall i :: 0 <= i < |ks| ==>
      (ks[i].Space? ==> i == 0 || !IsSpaceKind(ks[i - 1])) &&
      (ks[i].RunSpace? ==> i > 0 && IsSpaceKind(ks[i - 1]))
  }

  lemma SpaceRunsToken(k: Kind, afterSpace: bool)
    requires Admissible(k)
    requires k.Space? ==> !afterSpace
    requires k.RunSpace? ==> afterSpace
    ensures SpaceRuns(Tok(k, 3), afterSpace) == Tok(k, 4)
    ensures AfterSpace(Tok(k, 3), afterSpace) == IsSpaceKind(k)
  {
    if !IsSpaceKind(k) {
      SpaceRunsNoSpace(Tok(k, 3), afterSpace);
    }
  }

  /** The space loop over the stage-3 tokens from token `m` on. */
  lemma {:induction false} SpaceRunsTokens(ks: seq<Kind>, m: nat)
    requires m <= |ks| && RunsMarked(ks)
    requires forall i :: 0 <= i < |ks| ==> Admissible(ks[i])
    ensures SpaceRuns(Concat(Toks(ks, 3)[m..]), m > 0 && IsSpaceKind(ks[m - 1]))
         == Concat(Toks(ks, 4)[m..])
    decreases |ks| - m
  {
    var t3 := Toks(ks, 3);
    var t4 := Toks(ks, 4);
    if m == |ks| {
      assert t3[m..] == [] && t4[m..] == [];
    } else {
      var f := m > 0 && IsSpaceKind(ks[m - 1]);
      SpaceRunsTokens(ks, m + 1);
      ConcatCons(t3, m);
      ConcatCons(t4, m);
      SpaceRunsToken(ks[m], f);
      SpaceRunsAppend(t3[m], Concat(t3[m + 1..]), f);
    }
  }

  /** A text whose space conversion finds no space has no space unit. */
  lemma NoSpaceKinds(ks: seq<Kind>)
    requires IndexOf(Concat(Toks(ks, 3)), " ", 0) == -1
    ensures forall i :: 0 <= i < |ks| ==> !IsSpaceKind(ks[i])
  {
    var ts := Toks(ks, 3);
    forall i | 0 <= i < |ks|
      ensures !IsSpaceKind(ks[i])
    {
      ConcatToken(ts, i);
      if IsSpaceKind(ks[i]) {
        assert OccursAt(Concat(ts), " ", |Concat(ts[..i])|);
      }
    }
  }

  /** The space conversion of `EncodeHtml` takes stage 3 to stage 4. */
  lemma ConvertSpacesTokens(ks: seq<Kind>, forceAllSpaceToTag: bool)
    requires forall i :: 0 <= i < |ks| ==> Admissible(ks[i])
    requires forceAllSpaceToTag ==> forall i :: 0 <= i < |ks| ==> !ks[i].Space?
    requires !forceAllSpaceToTag ==> RunsMarked(ks)
    ensures ConvertSpaces(Concat(Toks(ks, 3)), forceAllSpaceToTag) == Concat(Toks(ks, 4))
  {
    var s := Concat(Toks(ks, 3));
    if IndexOf(s, " ", 0) == -1 {
      NoSpaceKinds(ks);
      assert Toks(ks, 3) == Toks(ks, 4);
    } else if forceAllSpaceToTag {
      forall i | 0 <= i < |ks|
        ensures KindStep(ks[i], 3)
      {
        KindSteps(ks[i], 3);
      }
      StageStep(ks, 3);
    } else {
      SpaceRunsTokens(ks, 0);
      assert Toks(ks, 3)[0..] == Toks(ks, 3);
      assert Toks(ks, 4)[0..] == Toks(ks, 4);
    }
  }
}

=== FILE: key_codes.dfy ===
/** The keysym table `GuaKeyCodes` and `GuaUtil.KeyCodeToStr`, which names
    a keysym by the first table entry holding it. */
module KeyCodes {
  import opened LogicalKeyboard
  import Hex

  /** `GuaKeyCodes` as its `Object.entries`: name and keysym, in
      declaration order.  Several names share a keysym (`Super1` and `Win`,
      `Alt2` and `AltGraph`, ...).  The entries commented out in the
      source (`FullWidth`, `HalfWidth`, `Hyper`, `RomanCharacters`) are not
      part of it, so no value is `null`.  Kept as ten-entry blocks. */
  const Table: seq<(string, int)> :=
    Rows0 + (Rows1 + (Rows2 + (Rows3 + (Rows4 + (Rows5 + (Rows6 + (Rows7 + (Rows8 + (Rows9 + Rows10)))))))))

  const Rows0: seq<(string, int)> := [
    ("Again", 0xFF66),
    ("AllCandidates", 0xFF3D),
    ("Alphanumeric", 0xFF30),
    ("Alt1", 0xFFE9),
    ("Alt2", 0xFE03),
    ("Attn", 0xFD0E),
    ("AltGraph", 0xFE03),
    ("ArrowDown", 0xFF54),
    ("ArrowLeft", 0xFF51),
    ("ArrowRight", 0xFF53)
  ]
  const Rows1: seq<(string, int)> := [
    ("ArrowUp", 0xFF52),
    ("Backspace", 0xFF08),
    ("CapsLock", 0xFFE5),
    ("Cancel", 0xFF69),
    ("Clear", 0xFF0B),
    ("Convert", 0xFF21),
    ("Copy", 0xFD15),
    ("Crsel", 0xFD1C),
    ("CrSel", 0xFD1C),
    ("CodeInput", 0xFF37)
  ]
  const Rows2: seq<(string, int)> := [
    ("Compose", 0xFF20),
    ("Control1", 0xFFE3),
    ("Control2", 0xFFE4),
    ("ContextMenu", 0xFF67),
    ("Delete", 0xFFFF),
    ("Down", 0xFF54),
    ("End", 0xFF57),
    ("Enter", 0xFF0D),
    ("EraseEof", 0xFD06),
    ("Escape", 0xFF1B)
  ]
  const Rows3: seq<(string, int)> := [
    ("Execute", 0xFF62),
    ("Exsel", 0xFD1D),
    ("ExSel", 0xFD1D),
    ("F1", 0xFFBE),
    ("F2", 0xFFBF),
    ("F3", 0xFFC0),
    ("F4", 0xFFC1),
    ("F5", 0xFFC2),
    ("F6", 0xFFC3),
    ("F7", 0xFFC4)
  ]
  const Rows4: seq<(string, int)> := [
    ("F8", 0xFFC5),
    ("F9", 0xFFC6),
    ("F10", 0xFFC7),
    ("F11", 0xFFC8),
    ("F12", 0xFFC9),
    ("F13", 0xFFCA),
    ("F14", 0xFFCB),
    ("F15", 0xFFCC),
    ("F16", 0xFFCD),
    ("F17", 0xFFCE)
  ]
  const Rows5: seq<(string, int)> := [
    ("F18", 0xFFCF),
    ("F19", 0xFFD0),
    ("F20", 0xFFD1),
    ("F21", 0xFFD2),
    ("F22", 0xFFD3),
    ("F23", 0xFFD4),
    ("F24", 0xFFD5),
    ("Find", 0xFF68),
    ("GroupFirst", 0xFE0C),
    ("GroupLast", 0xFE0E)
  ]
  const Rows6: seq<(string, int)> := [
    ("GroupNext", 0xFE08),
    ("GroupPrevious", 0xFE0A),
    ("HangulMode", 0xFF31),
    ("Hankaku", 0xFF29),
    ("HanjaMode", 0xFF34),
    ("Help", 0xFF6A),
    ("Hiragana", 0xFF25),
    ("HiraganaKatakana", 0xFF27),
    ("Home", 0xFF50),
    ("Insert", 0xFF63)
  ]
  const Rows7: seq<(string, int)> := [
    ("JapaneseHiragana", 0xFF25),
    ("JapaneseKatakana", 0xFF26),
    ("JapaneseRomaji", 0xFF24),
    ("JunjaMode", 0xFF38),
    ("KanaMode", 0xFF2D),
    ("KanjiMode", 0xFF21),
    ("Katakana", 0xFF26),
    ("Left", 0xFF51),
    ("Meta1", 0xFFE7),
    ("Meta2", 0xFFE8)
  ]
  const Rows8: seq<(string, int)> := [
    ("ModeChange", 0xFF7E),
    ("NumLock", 0xFF7F),
    ("PageDown", 0xFF56),
    ("PageUp", 0xFF55),
    ("Pause", 0xFF13),
    ("Play", 0xFD16),
    ("PreviousCandidate", 0xFF3E),
    ("PrintScreen", 0xFF61),
    ("Redo", 0xFF66),
    ("Right", 0xFF53)
  ]
  const Rows9: seq<(string, int)> := [
    ("Scroll", 0xFF14),
    ("Select", 0xFF60),
    ("Separator", 0xFFAC),
    ("Shift1", 0xFFE1),
    ("Shift2", 0xFFE2),
    ("SingleCandidate", 0xFF3C),
    ("Super1", 0xFFEB),
    ("Super2", 0xFFEC),
    ("Tab", 0xFF09),
    ("UIKeyInputDownArrow", 0xFF54)
  ]
  const Rows10: seq<(string, int)> := [
    ("UIKeyInputEscape", 0xFF1B),
    ("UIKeyInputLeftArrow", 0xFF51),
    ("UIKeyInputRightArrow", 0xFF53),
    ("UIKeyInputUpArrow", 0xFF52),
    ("Up", 0xFF52),
    ("Undo", 0xFF65),
    ("Win", 0xFFEB),
    ("Zenkaku", 0xFF28),
    ("ZenkakuHankaku", 0xFF2A),
    ("Space", 0x20)
  ]

  // The keysyms the keyboard rules use, as the table gives them.
  const Alt1: Keysym := 0xFFE9
  const Alt2: Keysym := 0xFE03
  const Backspace: Keysym := 0xFF08
  const Control1: Keysym := 0xFFE3
  const Control2: Keysym := 0xFFE4
  const Delete: Keysym := 0xFFFF
  const End: Keysym := 0xFF57
  const Home: Keysym := 0xFF50
  const Meta1: Keysym := 0xFFE7
  const Meta2: Keysym := 0xFFE8
  const Shift1: Keysym := 0xFFE1
  const Shift2: Keysym := 0xFFE2
  const Space: Keysym := 0x20
  const Tab: Keysym := 0xFF09
  const Win: Keysym := 0xFFEB
  const ZenkakuHankaku: Keysym := 0xFF2A

  // Two codes the rules write as bare numbers: the grave accent key and
  // the no-break space a Mac sends for Option+Space.
  const Grave: Keysym := 0x60
  const OptionSpace: Keysym := 0xA0

  /** No entry of `t` holds `code`. */
  predicate Absent(t: seq<(string, int)>, code: int)
  {
    forall j :: 0 <= j < |t| ==> t[j].1 != code
  }

  /** The index of the first entry of `t` from `i` on that holds `code`,
      or `|t|` when there is none: the `for ... of` loop with its early
      `return`. */
  function FirstEntry(t: seq<(string, int)>, code: int, i: nat): (r: nat)
    requires i <= |t|
    ensures i <= r <= |t|
    ensures r < |t| ==> t[r].1 == code
    ensures forall j :: i <= j < r ==> t[j].1 != code
    decreases |t| - i
  {
    if i == |t| then i
    else if t[i].1 == code then i
    else FirstEntry(t, code, i + 1)
  }

  /** The name of the first entry of `t` holding `code`, else `fallback`. */
  function FirstName(t: seq<(string, int)>, code: int, fallback: string): (r: string)
    ensures !Absent(t, code) ==> (r, code) in t
    ensures Absent(t, code) ==> r == fallback
    ensures forall j :: 0 <= j < |t| && t[j].1 == code && Absent(t[..j], code) ==> r == t[j].0
  {
    var i := FirstEntry(t, code, 0);
    if i < |t| then t[i].0 else fallback
  }

  /** `GuaUtil.KeyCodeToStr`: the name of the first entry holding `code`,
      else `To0xHex(code)` with upper-case digits. */
  function KeyCodeToStr(code: int): (r: string)
    ensures !Absent(Table, code) ==> (r, code) in Table
    ensures Absent(Table, code) ==> r == Hex.To0xHex(code, true)
    ensures forall j :: 0 <= j < |Table| && Table[j].1 == code && Absent(Table[..j], code) ==> r == Table[j].0
  {
    FirstName(Table, code, Hex.To0xHex(code, true))
  }

  /** The first entry holding `code` is the one the search stops at. */
  lemma FirstIs(t: seq<(string, int)>, code: int, k: nat)
    requires k < |t| && t[k].1 == code
    requires Absent(t[..k], code)
    ensures FirstEntry(t, code, 0) == k
  {
    var r := FirstEntry(t, code, 0);
    assert forall j :: 0 <= j < k ==> t[..k][j] == t[j];
  }

  /** A named keysym gets the name of its earliest entry; any other code
      gets its hexadecimal form. */
  lemma KeyCodeToStrSpec(code: int, k: nat)
    requires k < |Table| && Table[k].1 == code && Absent(Table[..k], code)
    ensures KeyCodeToStr(code) == Table[k].0
  {
    FirstIs(Table, code, k);
  }

  /** Searching past a block that lacks `code` lands in what follows,
      shifted by the block's length. */
  lemma FirstAfter(a: seq<(string, int)>, b: seq<(string, int)>, code: int)
    requires Absent(a, code)
    ensures FirstEntry(a + b, code, 0) == |a| + FirstEntry(b, code, 0)
    ensures FirstEntry(b, code, 0) < |b| ==> (a + b)[|a| + FirstEntry(b, code, 0)] == b[FirstEntry(b, code, 0)]
  {
    var r := FirstEntry(b, code, 0);
    var q := FirstEntry(a + b, code, 0);
    if r < |b| {
      assert (a + b)[|a| + r] == b[r];
    }
  }

  /** The names the constants above go by, each in its block of the
      table. */
  lemma NamedConstants()
    ensures ("Alt1", Alt1) in Rows0
    ensures ("Alt2", Alt2) in Rows0
    ensures ("Backspace", Backspace) in Rows1
    ensures ("Control1", Control1) in Rows2
    ensures ("Control2", Control2) in Rows2
    ensures ("Delete", Delete) in Rows2
    ensures ("End", End) in Rows2
    ensures ("Home", Home) in Rows6
    ensures ("Meta1", Meta1) in Rows7
    ensures ("Meta2", Meta2) in Rows7
    ensures ("Shift1", Shift1) in Rows9
    ensures ("Shift2", Shift2) in Rows9
    ensures ("Space", Space) in Rows10
    ensures ("Tab", Tab) in Rows9
    ensures ("Win", Win) in Rows10
    ensures ("ZenkakuHankaku", ZenkakuHankaku) in Rows10
  {
  }

  /** The first entry wins: `Alt2` rather than `AltGraph`, and Win
      (0xFFEB) reads as "Super1", ten entries before "Win". */
  lemma KeyCodeToStrExamples()
    ensures KeyCodeToStr(0xFF66) == "Again"
    ensures KeyCodeToStr(Alt2) == "Alt2"
    ensures KeyCodeToStr(Win) == "Super1"
  {
    FirstIs(Table, 0xFF66, 0);
    assert Table[..4] == Rows0[..4];
    FirstIs(Table, Alt2, 4);
    SuperFirst();
  }

  /** 0xFFEB is not in the first nine blocks. */
  lemma WinAbsentEarly()
    ensures Absent(Rows0, Win) && Absent(Rows1, Win) && Absent(Rows2, Win)
    ensures Absent(Rows3, Win) && Absent(Rows4, Win) && Absent(Rows5, Win)
    ensures Absent(Rows6, Win) && Absent(Rows7, Win) && Absent(Rows8, Win)
  {
  }

  lemma SuperFirst()
    ensures FirstEntry(Table, Win, 0) == 96 && Table[96].0 == "Super1"
  {
    var s9 := Rows9 + Rows10;
    assert Absent(Rows9[..6], Win);
    FirstIs(s9, Win, 6);
    WinAbsentEarly();
    var s := s9;
    FirstAfter(Rows8, s, Win);
    s := Rows8 + s;
    FirstAfter(Rows7, s, Win);
    s := Rows7 + s;
    FirstAfter(Rows6, s, Win);
    s := Rows6 + s;
    FirstAfter(Rows5, s, Win);
    s := Rows5 + s;
    FirstAfter(Rows4, s, Win);
    s := Rows4 + s;
    FirstAfter(Rows3, s, Win);
    s := Rows3 + s;
    FirstAfter(Rows2, s, Win);
    s := Rows2 + s;
    FirstAfter(Rows1, s, Win);
    s := Rows1 + s;
    FirstAfter(Rows0, s, Win);
    s := Rows0 + s;
    assert s == Table;
  }
}

=== FILE: keyboard_chain.dfy ===
/** The two keyboards as the session wires them: every virtual key event
    of the comfortable keyboard is a physical key event of the connected
    keyboard below it (`PressVirtualKeyImplAsync` calls the lower
    keyboard's `PhysicalKeyPressedAsync`), and every virtual key event of
    the connected keyboard is one key event sent to the remote session. */
module KeyboardChain {
  import opened Wrappers
  import opened LogicalKeyboard
  import ConnectedKeyboard
  import ComfortableKeyboard
  import ComfortableRules
  import KeyCodes

  /** The key events of `trace`, waits dropped. */
  function KeyEvents(trace: seq<Event>): seq<Event>
    decreases |trace|
  {
    if trace == [] then []
    else
      var ev := trace[|trace| - 1];
      KeyEvents(trace[..|trace| - 1]) + (if ev.Key? then [ev] else [])
  }

  /** Dropping the waits neither changes the table a trace leads to nor
      makes a genuine trace stop being one. */
  lemma {:induction false} KeyEventsGenuine(t: KeyTable, trace: seq<Event>)
    requires Genuine(t, trace)
    ensures Genuine(t, KeyEvents(trace)) && Apply(t, KeyEvents(trace)) == Apply(t, trace)
    ensures forall i :: 0 <= i < |KeyEvents(trace)| ==> KeyEvents(trace)[i].Key?
    decreases |trace|
  {
    if trace != [] {
      var front := trace[..|trace| - 1];
      var ev := trace[|trace| - 1];
      var ks := KeyEvents(front);
      KeyEventsGenuine(t, front);
      if ev.Key? {
        assert KeyEvents(trace) == ks + [ev];
        assert (ks + [ev])[..|ks|] == ks;
        assert Apply(t, ks + [ev]) == SetKey(Apply(t, ks), ev.code, ev.pressed);
        assert Genuine(t, ks + [ev]);
      } else {
        assert KeyEvents(trace) == ks + [] == ks;
      }
    }
  }

  /** Dropping the waits drops no key. */
  lemma {:induction false} KeyEventsKeys(trace: seq<Event>)
    ensures KeysOf(KeyEvents(trace)) == KeysOf(trace)
    decreases |trace|
  {
    if trace != [] {
      var front := trace[..|trace| - 1];
      var ev := trace[|trace| - 1];
      KeyEventsKeys(front);
      KeysOfAppend(KeyEvents(front), if ev.Key? then [ev] else []);
      if ev.Key? {
        KeysOfSnoc([], ev);
      }
    }
  }

  /** The connected keyboard receiving `trace` one key event at a time;
      the waits only pass time. */
  function Feed(lower: Keyboard<()>, trace: seq<Event>): Reaction<()>
    decreases |trace|
  {
    if trace == [] then Reaction(lower, [])
    else
      var r := Feed(lower, trace[..|trace| - 1]);
      match trace[|trace| - 1]
      case Key(k, p) =>
        var x := ConnectedKeyboard.Receive(r.keyboard, k, p);
        Reaction(x.keyboard, r.trace + x.trace)
      case Delay(_) => r
  }

  /** Fed a genuine trace, a mirrored connected keyboard sends every key
      event of it exactly once, in order, and ends mirroring the table the
      trace leads to. */
  lemma {:induction false} FeedGenuine(lower: Keyboard<()>, trace: seq<Event>)
    requires ConnectedKeyboard.Mirrored(lower) && Genuine(lower.virtual, trace)
    ensures var r := Feed(lower, trace);
      && ConnectedKeyboard.Mirrored(r.keyboard)
      && r.keyboard.virtual == Apply(lower.virtual, trace)
      && r.trace == KeyEvents(trace)
    decreases |trace|
  {
    if trace != [] {
      var front := trace[..|trace| - 1];
      FeedGenuine(lower, front);
      var r := Feed(lower, front);
      match trace[|trace| - 1]
      case Key(k, p) =>
        ConnectedKeyboard.ReceiveSends(r.keyboard, k, p);
      case Delay(_) =>
    }
  }

  /** The comfortable keyboard on top of the connected one. */
  datatype Chain = Chain(upper: Keyboard<ComfortableKeyboard.Comfort>, lower: Keyboard<()>)

  /** The connected keyboard mirrors the comfortable keyboard's virtual
      table: what the remote session holds down is what the comfortable
      keyboard believes it has pressed. */
  predicate Synced(c: Chain)
  {
    ConnectedKeyboard.Mirrored(c.lower) && c.lower.virtual == c.upper.virtual
  }

  /** The chain as the session builds it: every table empty. */
  function Connect(prefs: ComfortableKeyboard.Preferences, svcType: Option<string>): (c: Chain)
    ensures Synced(c)
    ensures c.upper.physical == {} && c.lower.physical == {}
  {
    Chain(ComfortableKeyboard.New(prefs, svcType), Fresh(()))
  }

  /** One browser key event, as the comfortable keyboard receives it. */
  datatype Input = Input(code: int, pressed: bool)

  /** The chain after one browser key event, and what the session sends. */
  datatype Sent = Sent(chain: Chain, sent: seq<Event>)

  /** One browser key event through both keyboards. */
  function Press(c: Chain, input: Input): Sent
  {
    var r := ComfortableKeyboard.Receive(c.upper, input.code, input.pressed);
    var f := Feed(c.lower, r.trace);
    Sent(Chain(r.keyboard, f.keyboard), f.trace)
  }

  /** One event keeps the chain in sync; the session sends exactly the key
      events the comfortable keyboard emitted, and they are genuine for
      the remote table. */
  lemma PressKeepsSync(c: Chain, input: Input)
    requires Synced(c)
    ensures var s := Press(c, input);
      var r := ComfortableKeyboard.Receive(c.upper, input.code, input.pressed);
      && Synced(s.chain)
      && s.sent == KeyEvents(r.trace)
      && Genuine(c.lower.virtual, s.sent)
      && Apply(c.lower.virtual, s.sent) == s.chain.lower.virtual
      && s.chain.upper == r.keyboard
  {
    var r := ComfortableKeyboard.Receive(c.upper, input.code, input.pressed);
    FeedGenuine(c.lower, r.trace);
    KeyEventsGenuine(c.lower.virtual, r.trace);
  }

  /** A sequence of browser key events through both keyboards. */
  function Session(c: Chain, inputs: seq<Input>): Sent
    decreases |inputs|
  {
    if inputs == [] then Sent(c, [])
    else
      var s := Session(c, inputs[..|inputs| - 1]);
      var t := Press(s.chain, inputs[|inputs| - 1]);
      Sent(t.chain, s.sent + t.sent)
  }

  /** Over any session the remote side never sees a key pressed twice or
      released while up, and at every point it holds exactly the keys the
      comfortable keyboard has virtually pressed. */
  lemma {:induction false} SessionGenuine(c: Chain, inputs: seq<Input>)
    requires Synced(c)
    ensures var s := Session(c, inputs);
      && Synced(s.chain)
      && Genuine(c.lower.virtual, s.sent)
      && Apply(c.lower.virtual, s.sent) == s.chain.lower.virtual
    decreases |inputs|
  {
    if inputs != [] {
      var s := Session(c, inputs[..|inputs| - 1]);
      SessionGenuine(c, inputs[..|inputs| - 1]);
      PressKeepsSync(s.chain, inputs[|inputs| - 1]);
      var t := Press(s.chain, inputs[|inputs| - 1]);
      GenuineAppend(c.lower.virtual, s.sent, t.sent);
    }
  }

  /** Whether a browser key event releases key `k`. */
  predicate Releases(input: Input, k: Keysym)
  {
    NormalizeKeyCode(input.code) == k && !input.pressed
  }

  /** A key no rule asks for, held down but swallowed by the rule it
      triggered, is never sent to the remote session before it is let go,
      whatever events come in between, nor by its own release: the remote
      side never sees it pressed, and it stays held physically until that
      release. */
  lemma {:induction false} SwallowedKeyNeverSent(c: Chain, inputs: seq<Input>, k: Keysym)
    requires Synced(c) && !ComfortableRules.Requestable(k)
    requires k in c.upper.physical && k !in c.upper.virtual
    requires forall i :: 0 <= i < |inputs| - 1 ==> !Releases(inputs[i], k)
    ensures var s := Session(c, inputs);
      && k !in KeysOf(s.sent) && k !in s.chain.upper.virtual && k !in s.chain.lower.virtual
      && ((forall i :: 0 <= i < |inputs| ==> !Releases(inputs[i], k)) ==> k in s.chain.upper.physical)
    decreases |inputs|
  {
    SessionGenuine(c, inputs);
    if inputs != [] {
      var front := inputs[..|inputs| - 1];
      var last := inputs[|inputs| - 1];
      assert forall i :: 0 <= i < |front| ==> front[i] == inputs[i];
      SwallowedKeyNeverSent(c, front, k);
      var s := Session(c, front);
      SessionGenuine(c, front);
      var r := ComfortableKeyboard.Receive(s.chain.upper, last.code, last.pressed);
      ComfortableRules.HeldKeyStaysUp(s.chain.upper, last.code, last.pressed, k);
      PressKeepsSync(s.chain, last);
      KeyEventsKeys(r.trace);
      KeysOfAppend(s.sent, Press(s.chain, last).sent);
    }
  }

  /** End, Home, Backspace and the IME spaces, once swallowed by the
      Ctrl+Alt, Ctrl+Shift or IME rule they trigger, are not sent to the
      remote session by any event up to and including their release. */
  lemma SwallowedTriggerNeverSent(c: Chain, inputs: seq<Input>, k: Keysym)
    requires Synced(c)
    requires || k == KeyCodes.End || k == KeyCodes.Home || k == KeyCodes.Backspace
             || k == KeyCodes.Space || k == KeyCodes.OptionSpace
    requires k in c.upper.physical && k !in c.upper.virtual
    requires forall i :: 0 <= i < |inputs| - 1 ==> !Releases(inputs[i], k)
    ensures k !in KeysOf(Session(c, inputs).sent)
    ensures k !in Session(c, inputs).chain.lower.virtual
  {
    ComfortableRules.TriggersUnrequested(k);
    SwallowedKeyNeverSent(c, inputs, k);
  }
}

=== FILE: logical_keyboard.dfy ===
/** The bookkeeping shared by every logical keyboard (`GuaLogicalKeyboard`):
    keysym normalisation, the per-keysym physical and virtual key tables, and
    the rule that a virtual key event is emitted only on a real transition.

    A key table is modelled as the set of keysyms whose entry is `true`; the
    all-false table of the constructor is `{}`.  A run of emissions is a
    trace of `Event`s: `Key(code, pressed)` is one call of the emission hook,
    `Delay(ms)` marks an awaited `Task.Delay(ms)` between two of them. */
module LogicalKeyboard {
  import opened Wrappers

  /** Number of entries of each key table (`GuaConsts.MaxNumKeys`). */
  const MaxNumKeys: int := 0xFFFF + 2
  /** The "unknown key" sentinel (`GuaConsts.InvalidKeycode`). */
  const InvalidKeycode: int := 0xFFFF + 1

  /** A normalised keysym: a valid index into a key table. */
  type Keysym = k: int | 0 <= k <= InvalidKeycode

  /** Clamps a key code into the table range; out-of-range codes, negative
      ones included, become the sentinel rather than 0. */
  function NormalizeKeyCode(code: int): (r: Keysym)
    ensures 0 <= r < MaxNumKeys
    ensures 0 <= code <= InvalidKeycode ==> r == code
    ensures code < 0 || code > InvalidKeycode ==> r == InvalidKeycode
  {
    if code < 0 || code > InvalidKeycode then InvalidKeycode else code
  }

  /** Normalising twice is normalising once. */
  lemma NormalizeIdempotent(code: int)
    ensures NormalizeKeyCode(NormalizeKeyCode(code)) == NormalizeKeyCode(code)
  {
  }

  /** The set of keysyms whose table entry is `true`. */
  type KeyTable = set<Keysym>

  /** The table after writing `pressed` into entry `k`. */
  function SetKey(t: KeyTable, k: Keysym, pressed: bool): (r: KeyTable)
    ensures (k in r) == pressed
    ensures forall j :: j != k ==> (j in r <==> j in t)
  {
    if pressed then t + {k} else t - {k}
  }

  /** `pressed` differs from the table's entry for `k`: a press of a
      released key or a release of a pressed one. */
  predicate IsTransition(t: KeyTable, k: Keysym, pressed: bool)
  {
    pressed != (k in t)
  }

  datatype Event = Key(code: Keysym, pressed: bool) | Delay(ms: nat)

  /** The table obtained from `t` by applying every key event of `trace`
      in order. */
  function Apply(t: KeyTable, trace: seq<Event>): KeyTable
    decreases |trace|
  {
    if trace == [] then t
    else
      var m := Apply(t, trace[..|trace| - 1]);
      match trace[|trace| - 1]
      case Key(k, p) => SetKey(m, k, p)
      case Delay(_) => m
  }

  /** Every key event of `trace` is a real transition of the table it is
      applied to: nothing is pressed twice or released while up. */
  predicate Genuine(t: KeyTable, trace: seq<Event>)
    decreases |trace|
  {
    trace == [] ||
    (Genuine(t, trace[..|trace| - 1]) &&
     match trace[|trace| - 1]
     case Key(k, p) => IsTransition(Apply(t, trace[..|trace| - 1]), k, p)
     case Delay(_) => true)
  }

  /** The keysyms that some key event of `trace` mentions. */
  function KeysOf(trace: seq<Event>): set<Keysym>
    decreases |trace|
  {
    if trace == [] then {}
    else
      KeysOf(trace[..|trace| - 1]) +
      match trace[|trace| - 1]
      case Key(k, _) => {k}
      case Delay(_) => {}
  }

  lemma {:induction false} KeysOfAppend(a: seq<Event>, b: seq<Event>)
    ensures KeysOf(a + b) == KeysOf(a) + KeysOf(b)
    decreases |b|
  {
    if b == [] {
      assert a + b == a;
    } else {
      var b' := b[..|b| - 1];
      assert (a + b)[..|a + b| - 1] == a + b';
      KeysOfAppend(a, b');
    }
  }

  lemma KeysOfSnoc(s: seq<Event>, ev: Event)
    ensures KeysOf(s + [ev]) == KeysOf(s) + (if ev.Key? then {ev.code} else {})
  {
    assert (s + [ev])[..|s|] == s;
  }

  /** A trace whose every key event is on a key of `keys` mentions only
      keys of `keys`. */
  lemma {:induction false} KeysWithin(s: seq<Event>, keys: set<Keysym>)
    requires forall i :: 0 <= i < |s| ==> (s[i].Key? ==> s[i].code in keys)
    ensures KeysOf(s) <= keys
    decreases |s|
  {
    if s != [] {
      KeysWithin(s[..|s| - 1], keys);
    }
  }

  /** A keysym that no event of `trace` mentions keeps its table entry. */
  lemma {:induction false} ApplyFrame(t: KeyTable, trace: seq<Event>, j: Keysym)
    requires j !in KeysOf(trace)
    ensures j in Apply(t, trace) <==> j in t
    decreases |trace|
  {
    if trace != [] {
      ApplyFrame(t, trace[..|trace| - 1], j);
    }
  }

  /** The emissions of one hook invocation so far: the virtual table it
      started from, the current virtual table and the events emitted. */
  datatype Emission = Emission(start: KeyTable, table: KeyTable, trace: seq<Event>) {

    /** The trace takes `start` to `table` by real transitions only. */
    predicate Valid()
    {
      Genuine(start, trace) && Apply(start, trace) == table
    }

    /** `PressVirtualKeyAsync(code, pressed)`: normalises the code and calls
        the emission hook exactly when `pressed` differs from the virtual
        entry, which then holds `pressed`; every other entry is untouched. */
    function Press(code: int, pressed: bool): (r: Emission)
      requires Valid()
      ensures r.Valid() && r.start == start
      ensures NormalizeKeyCode(code) in r.table <==> pressed
      ensures forall j :: j != NormalizeKeyCode(code) ==> (j in r.table <==> j in table)
      ensures IsTransition(table, NormalizeKeyCode(code), pressed) ==>
                r.trace == trace + [Key(NormalizeKeyCode(code), pressed)]
      ensures !IsTransition(table, NormalizeKeyCode(code), pressed) ==> r.trace == trace
      ensures KeysOf(r.trace) <= KeysOf(trace) + {NormalizeKeyCode(code)}
    {
      var k := NormalizeKeyCode(code);
      if pressed && k !in table then
        var r := Emission(start, SetKey(table, k, true), trace + [Key(k, true)]);
        assert r.trace[..|r.trace| - 1] == trace;
        r
      else if !pressed && k in table then
        var r := Emission(start, SetKey(table, k, false), trace + [Key(k, false)]);
        assert r.trace[..|r.trace| - 1] == trace;
        r
      else
        this
    }

    /** `Task.Delay(ms)`: a marker in the trace, no table change. */
    function Wait(ms: nat): (r: Emission)
      requires Valid()
      ensures r.Valid() && r.start == start && r.table == table
      ensures r.trace == trace + [Delay(ms)]
      ensures KeysOf(r.trace) == KeysOf(trace)
    {
      var r := Emission(start, table, trace + [Delay(ms)]);
      assert r.trace[..|r.trace| - 1] == trace;
      r
    }
  }

  /** No emission yet, starting from virtual table `t`. */
  function Start(t: KeyTable): (e: Emission)
    ensures e.Valid() && e.start == t && e.table == t && e.trace == []
  {
    Emission(t, t, [])
  }

  /** A lone `PressVirtualKeyAsync` call on virtual table `t`. */
  function PressVirtualKey(t: KeyTable, code: int, pressed: bool): (e: Emission)
    ensures e.Valid() && e.start == t
    ensures e.trace == if IsTransition(t, NormalizeKeyCode(code), pressed)
                       then [Key(NormalizeKeyCode(code), pressed)] else []
    ensures NormalizeKeyCode(code) in e.table <==> pressed
    ensures forall j :: j != NormalizeKeyCode(code) ==> (j in e.table <==> j in t)
  {
    Start(t).Press(code, pressed)
  }

  /** Pressing (or releasing) the same key twice in a row emits at most one
      event: exactly one when the first call is a real transition, none
      otherwise. */
  lemma PressTwiceEmitsOnce(t: KeyTable, code: int, pressed: bool)
    ensures var e := Start(t).Press(code, pressed).Press(code, pressed);
      e.trace == (if IsTransition(t, NormalizeKeyCode(code), pressed)
                  then [Key(NormalizeKeyCode(code), pressed)] else [])
  {
  }

  /** Concatenating two genuine traces, the second starting where the
      first ends, gives a genuine trace. */
  lemma {:induction false} GenuineAppend(t: KeyTable, a: seq<Event>, b: seq<Event>)
    requires Genuine(t, a) && Genuine(Apply(t, a), b)
    ensures Genuine(t, a + b) && Apply(t, a + b) == Apply(Apply(t, a), b)
    decreases |b|
  {
    if b == [] {
      assert a + b == a;
    } else {
      var b' := b[..|b| - 1];
      assert (a + b)[..|a + b| - 1] == a + b';
      assert (a + b)[|a + b| - 1] == b[|b| - 1];
      GenuineAppend(t, a, b');
    }
  }

  /** The table after one event. */
  function Next(t: KeyTable, ev: Event): KeyTable
  {
    match ev
    case Key(k, p) => SetKey(t, k, p)
    case Delay(_) => t
  }

  /** A key event is a real transition of `t`; a delay always is fine. */
  predicate Moves(t: KeyTable, ev: Event)
  {
    match ev
    case Key(k, p) => IsTransition(t, k, p)
    case Delay(_) => true
  }

  /** Walks `requests` from the front over table `t`: the table reached
      when every key event is a real transition of the table so far,
      `None` as soon as one is not. */
  function Walk(t: KeyTable, requests: seq<Event>): Option<KeyTable>
    decreases |requests|
  {
    if requests == [] then Some(t)
    else if !Moves(t, requests[0]) then None
    else Walk(Next(t, requests[0]), requests[1..])
  }

  lemma WalkCons(t: KeyTable, ev: Event, rest: seq<Event>)
    ensures Walk(t, [ev] + rest) == if Moves(t, ev) then Walk(Next(t, ev), rest) else None
  {
    assert ([ev] + rest)[1..] == rest;
  }

  /** One `await PressVirtualKeyAsync(...)` or `await Task.Delay(...)`. */
  function Step(e: Emission, request: Event): (r: Emission)
    requires e.Valid()
    ensures r.Valid() && r.start == e.start
  {
    match request
    case Key(k, p) => e.Press(k, p)
    case Delay(ms) => e.Wait(ms)
  }

  /** A request that is a real transition (or a delay) is emitted as
      asked. */
  lemma StepTransition(e: Emission, request: Event)
    requires e.Valid() && Moves(e.table, request)
    ensures Step(e, request).trace == e.trace + [request]
    ensures Step(e, request).table == Next(e.table, request)
  {
  }

  /** A sequence of `await PressVirtualKeyAsync(...)` and `await
      Task.Delay(...)` calls, in order. */
  function Run(e: Emission, requests: seq<Event>): (r: Emission)
    requires e.Valid()
    ensures r.Valid() && r.start == e.start
    decreases |requests|
  {
    if requests == [] then e else Run(Step(e, requests[0]), requests[1..])
  }

  /** When every request is a real transition, each one is emitted as
      asked: the trace grows by exactly the requests, and the table ends
      where the walk ends. */
  lemma {:induction false} RunTransitions(e: Emission, requests: seq<Event>)
    requires e.Valid() && Walk(e.table, requests).Some?
    ensures Run(e, requests).trace == e.trace + requests
    ensures Run(e, requests).table == Walk(e.table, requests).value
    decreases |requests|
  {
    if requests != [] {
      StepTransition(e, requests[0]);
      RunTransitions(Step(e, requests[0]), requests[1..]);
      assert e.trace + requests == (e.trace + [requests[0]]) + requests[1..];
    }
  }

  /** A run only mentions the keys it was asked to press or release. */
  lemma {:induction false} RunKeys(e: Emission, requests: seq<Event>)
    requires e.Valid()
    ensures KeysOf(Run(e, requests).trace) <= KeysOf(e.trace) + KeysOf(requests)
    decreases |requests|
  {
    if requests != [] {
      var e1 := Step(e, requests[0]);
      RunKeys(e1, requests[1..]);
      KeysOfAppend([requests[0]], requests[1..]);
      assert [requests[0]] + requests[1..] == requests;
      assert [requests[0]] == [] + [requests[0]];
    }
  }

  /** A logical keyboard: its physical and virtual key tables and the
      state its subclass adds. */
  datatype Keyboard<S> = Keyboard(physical: KeyTable, virtual: KeyTable, state: S)

  /** The constructor's keyboard: both tables all `false`. */
  function Fresh<S>(state: S): Keyboard<S>
  {
    Keyboard({}, {}, state)
  }

  /** What the subclass hook (`PhysicalToVirtualOperationImplAsync`) does:
      whether it handled the event, the virtual key calls it makes and
      its new state. */
  datatype Outcome<S> = Outcome(handled: bool, requests: seq<Event>, state: S)

  /** The keyboard after one physical event, and the events emitted. */
  datatype Reaction<S> = Reaction(keyboard: Keyboard<S>, trace: seq<Event>)

  /** The keyboard with physical entry `k` set to `pressed`. */
  function Touched<S>(kb: Keyboard<S>, k: Keysym, pressed: bool): Keyboard<S>
  {
    kb.(physical := SetKey(kb.physical, k, pressed))
  }

  /** The hook of a subclass, called with the physical table already
      updated. */
  type Hook<!S> = (Keyboard<S>, Keysym, bool) -> Outcome<S>

  /** `PhysicalKeyPressedAsync(code, pressed)`, one atomic step: a
      physical non-transition is dropped; otherwise the physical entry is
      updated, the hook runs, and unless it handled the event the
      normalised code is passed on to `PressVirtualKeyAsync`. */
  function PhysicalKeyPressed<S>(kb: Keyboard<S>, code: int, pressed: bool, hook: Hook<S>): (r: Reaction<S>)
    ensures Genuine(kb.virtual, r.trace) && Apply(kb.virtual, r.trace) == r.keyboard.virtual
    ensures !IsTransition(kb.physical, NormalizeKeyCode(code), pressed) ==> r == Reaction(kb, [])
    ensures IsTransition(kb.physical, NormalizeKeyCode(code), pressed) ==>
      r.keyboard.physical == SetKey(kb.physical, NormalizeKeyCode(code), pressed)
  {
    var k := NormalizeKeyCode(code);
    if !IsTransition(kb.physical, k, pressed) then Reaction(kb, [])
    else
      var kb1 := Touched(kb, k, pressed);
      var o := hook(kb1, k, pressed);
      var e := Run(Start(kb.virtual), o.requests);
      var e' := if o.handled then e else e.Press(k, pressed);
      Reaction(Keyboard(kb1.physical, e'.table, o.state), e'.trace)
  }

  /** On a physical transition the hook sees the updated physical table;
      its requests are run and, when it declines the event, the very code
      that arrived (normalised) follows them. */
  lemma Dispatch<S>(kb: Keyboard<S>, code: int, pressed: bool, hook: Hook<S>)
    requires IsTransition(kb.physical, NormalizeKeyCode(code), pressed)
    ensures var k := NormalizeKeyCode(code);
      var o := hook(Touched(kb, k, pressed), k, pressed);
      var e := Run(Start(kb.virtual), o.requests);
      var r := PhysicalKeyPressed(kb, code, pressed, hook);
      && r.keyboard.state == o.state
      && (o.handled ==> r.trace == e.trace && r.keyboard.virtual == e.table)
      && (!o.handled ==> r.trace == e.trace + (if IsTransition(e.table, k, pressed) then [Key(k, pressed)] else []))
  {
  }
}

=== FILE: newlines.dfy ===
/** `Str.NormalizeCrlf` (Scripts/Common/Base/Str.ts): every line break of a
    string -- CR LF, a lone CR or a lone LF -- becomes one `crlfData`.

    The source's loop is modelled as it is written; a separate reading of a
    string as a sequence of `Unit`s (a character or a break) is the
    reference the loop is proved against. */
module NewLines {
  import opened Wrappers
  import opened Str

  /** `Str.NewLine_CrLf`, the default `crlfData`. */
  const CrLf: string := "\r\n"

  /** The two characters the loop treats as line breaks (codes 13 and 10). */
  predicate IsLineBreak(c: char)
  {
    c == '\r' || c == '\n'
  }

  /** `Str.NormalizeCrlf(src, crlfData, ensureLastLineCrlf)`. */
  function NormalizeCrlf(src: Option<string>, crlfData: string, ensureLastLineCrlf: bool): string
  {
    NormalizeFrom(NonNull(src), crlfData, ensureLastLineCrlf, 0, "", "")
  }

  /** The loop of `NormalizeCrlf` from index `i`, with `ret` the output so
      far and `tmp` the current line not yet written out.  A CR swallows an
      LF right after it. */
  function NormalizeFrom(src: string, crlfData: string, ensureLastLineCrlf: bool,
                         i: nat, ret: string, tmp: string): string
    requires i <= |src|
    decreases |src| - i
  {
    if i == |src| then
      if |tmp| >= 1 then ret + tmp + (if ensureLastLineCrlf then crlfData else "") else ret
    else if src[i] == '\r' then
      var next := if i < |src| - 1 && src[i + 1] == '\n' then i + 2 else i + 1;
      NormalizeFrom(src, crlfData, ensureLastLineCrlf, next, ret + tmp + crlfData, "")
    else if src[i] == '\n' then
      NormalizeFrom(src, crlfData, ensureLastLineCrlf, i + 1, ret + tmp + crlfData, "")
    else
      NormalizeFrom(src, crlfData, ensureLastLineCrlf, i + 1, ret, tmp + [src[i]])
  }

  // ------------------------------------------------------------ reference

  /** A piece of text: one line break, or one character that is not a
      line break. */
  datatype Unit = Break | Text(c: char)

  predicate WellFormed(us: seq<Unit>)
  {
    forall i :: 0 <= i < |us| && us[i].Text? ==> !IsLineBreak(us[i].c)
  }

  /** The units of a string: CR LF, a lone CR and a lone LF are each one
      break, every other character is itself. */
  function Units(s: string): (us: seq<Unit>)
    ensures WellFormed(us)
    decreases |s|
  {
    if s == [] then []
    else if s[0] == '\r' && |s| >= 2 && s[1] == '\n' then [Break] + Units(s[2..])
    else if IsLineBreak(s[0]) then [Break] + Units(s[1..])
    else [Text(s[0])] + Units(s[1..])
  }

  /** Every character unit is a character of the string. */
  lemma {:induction false} UnitsChars(s: string)
    ensures forall i :: 0 <= i < |Units(s)| && Units(s)[i].Text? ==> Units(s)[i].c in s
    decreases |s|
  {
    if s != [] {
      if s[0] == '\r' && |s| >= 2 && s[1] == '\n' {
        UnitsChars(s[2..]);
      } else {
        UnitsChars(s[1..]);
      }
    }
  }

  /** A string without line breaks is one unit per character. */
  lemma {:induction false} UnitsNoBreak(s: string)
    requires forall i :: 0 <= i < |s| ==> !IsLineBreak(s[i])
    ensures |Units(s)| == |s| && forall i :: 0 <= i < |s| ==> Units(s)[i] == Text(s[i])
    decreases |s|
  {
    if s != [] {
      UnitsNoBreak(s[1..]);
    }
  }

  function RenderUnit(u: Unit, crlfData: string): string
  {
    match u
    case Break => crlfData
    case Text(c) => [c]
  }

  /** The units written out, each break as `crlfData`. */
  function Render(us: seq<Unit>, crlfData: string): string
    decreases |us|
  {
    if us == [] then "" else RenderUnit(us[0], crlfData) + Render(us[1..], crlfData)
  }

  /** The last line of `s` is not followed by a break. */
  predicate OpenLastLine(s: string)
  {
    |s| > 0 && !IsLineBreak(s[|s| - 1])
  }

  lemma RenderCons(u: Unit, us: seq<Unit>, crlfData: string)
    ensures Render([u] + us, crlfData) == RenderUnit(u, crlfData) + Render(us, crlfData)
  {
    assert ([u] + us)[1..] == us;
  }

  /** `NormalizeCrlf` writes every unit of the input in order, each break as
      `crlfData`, and ends an unterminated last line with `crlfData` exactly
      when `ensureLastLineCrlf` is set. */
  lemma NormalizeCrlfIsRender(src: Option<string>, crlfData: string, ensureLastLineCrlf: bool)
    ensures NormalizeCrlf(src, crlfData, ensureLastLineCrlf) ==
      Render(Units(NonNull(src)), crlfData) +
      (if ensureLastLineCrlf && OpenLastLine(NonNull(src)) then crlfData else "")
  {
    var s := NonNull(src);
    NormalizeFromIsRender(s, crlfData, ensureLastLineCrlf, 0, "", "");
    assert s[0..] == s;
  }

  /** Whether the line open at the end of the loop is non-empty. */
  predicate OpenAtEnd(src: string, i: nat, tmp: string)
    requires i <= |src|
  {
    if i < |src| then OpenLastLine(src) else |tmp| > 0
  }

  lemma {:induction false} NormalizeFromIsRender(src: string, crlfData: string, ensureLastLineCrlf: bool,
                                                 i: nat, ret: string, tmp: string)
    requires i <= |src|
    ensures NormalizeFrom(src, crlfData, ensureLastLineCrlf, i, ret, tmp) ==
      ret + tmp + Render(Units(src[i..]), crlfData) +
      (if ensureLastLineCrlf && OpenAtEnd(src, i, tmp) then crlfData else "")
    decreases |src| - i
  {
    if i == |src| {
      assert src[i..] == [];
    } else if src[i] == '\r' && i < |src| - 1 && src[i + 1] == '\n' {
      NormalizeFromIsRender(src, crlfData, ensureLastLineCrlf, i + 2, ret + tmp + crlfData, "");
      BreakStep(src, crlfData, ensureLastLineCrlf, i, i + 2, ret, tmp);
    } else if IsLineBreak(src[i]) {
      NormalizeFromIsRender(src, crlfData, ensureLastLineCrlf, i + 1, ret + tmp + crlfData, "");
      BreakStep(src, crlfData, ensureLastLineCrlf, i, i + 1, ret, tmp);
    } else {
      NormalizeFromIsRender(src, crlfData, ensureLastLineCrlf, i + 1, ret, tmp + [src[i]]);
      TextStep(src, crlfData, ensureLastLineCrlf, i, ret, tmp);
    }
  }

  /** The units from `i` on, when a break of `next - i` characters starts
      at `i`. */
  lemma UnitsAtBreak(src: string, i: nat, next: nat)
    requires i < |src| && IsLineBreak(src[i])
    requires next == (if src[i] == '\r' && i < |src| - 1 && src[i + 1] == '\n' then i + 2 else i + 1)
    ensures Units(src[i..]) == [Break] + Units(src[next..])
  {
    assert src[i..][next - i..] == src[next..];
  }

  lemma UnitsAtText(src: string, i: nat)
    requires i < |src| && !IsLineBreak(src[i])
    ensures Units(src[i..]) == [Text(src[i])] + Units(src[i + 1..])
  {
    assert src[i..][1..] == src[i + 1..];
  }

  /** One step of the loop over a break, given the claim from `next` on. */
  lemma BreakStep(src: string, crlfData: string, ensureLastLineCrlf: bool,
                  i: nat, next: nat, ret: string, tmp: string)
    requires i < |src| && IsLineBreak(src[i])
    requires next == (if src[i] == '\r' && i < |src| - 1 && src[i + 1] == '\n' then i + 2 else i + 1)
    requires NormalizeFrom(src, crlfData, ensureLastLineCrlf, next, ret + tmp + crlfData, "") ==
      ret + tmp + crlfData + "" + Render(Units(src[next..]), crlfData) +
      (if ensureLastLineCrlf && OpenAtEnd(src, next, "") then crlfData else "")
    ensures NormalizeFrom(src, crlfData, ensureLastLineCrlf, i, ret, tmp) ==
      ret + tmp + Render(Units(src[i..]), crlfData) +
      (if ensureLastLineCrlf && OpenAtEnd(src, i, tmp) then crlfData else "")
  {
    UnitsAtBreak(src, i, next);
    RenderCons(Break, Units(src[next..]), crlfData);
    assert OpenAtEnd(src, next, "") == OpenAtEnd(src, i, tmp);
    var tail := if ensureLastLineCrlf && OpenAtEnd(src, i, tmp) then crlfData else "";
    var rest := Render(Units(src[next..]), crlfData);
    assert ret + tmp + crlfData + "" + rest + tail == ret + tmp + (crlfData + rest) + tail;
  }

  /** One step of the loop over a character, given the claim from `i + 1`
      on. */
  lemma TextStep(src: string, crlfData: string, ensureLastLineCrlf: bool,
                 i: nat, ret: string, tmp: string)
    requires i < |src| && !IsLineBreak(src[i])
    requires NormalizeFrom(src, crlfData, ensureLastLineCrlf, i + 1, ret, tmp + [src[i]]) ==
      ret + (tmp + [src[i]]) + Render(Units(src[i + 1..]), crlfData) +
      (if ensureLastLineCrlf && OpenAtEnd(src, i + 1, tmp + [src[i]]) then crlfData else "")
    ensures NormalizeFrom(src, crlfData, ensureLastLineCrlf, i, ret, tmp) ==
      ret + tmp + Render(Units(src[i..]), crlfData) +
      (if ensureLastLineCrlf && OpenAtEnd(src, i, tmp) then crlfData else "")
  {
    UnitsAtText(src, i);
    RenderCons(Text(src[i]), Units(src[i + 1..]), crlfData);
    assert OpenAtEnd(src, i + 1, tmp + [src[i]]) == OpenAtEnd(src, i, tmp);
    var tail := if ensureLastLineCrlf && OpenAtEnd(src, i, tmp) then crlfData else "";
    var rest := Render(Units(src[i + 1..]), crlfData);
    assert ret + (tmp + [src[i]]) + rest + tail == ret + tmp + ([src[i]] + rest) + tail;
  }

  /** Reading back rendered units with CR LF breaks gives the units. */
  lemma {:induction false} UnitsOfRender(us: seq<Unit>)
    requires WellFormed(us)
    ensures Units(Render(us, CrLf)) == us
    decreases |us|
  {
    if us != [] {
      var rest := Render(us[1..], CrLf);
      UnitsOfRender(us[1..]);
      var s := RenderUnit(us[0], CrLf) + rest;
      if us[0].Break? {
        assert s[2..] == rest;
      } else {
        assert s[1..] == rest;
      }
    }
  }

  /** With its default arguments `NormalizeCrlf` is idempotent. */
  lemma NormalizeCrlfIdempotent(src: Option<string>)
    ensures var once := NormalizeCrlf(src, CrLf, false);
      NormalizeCrlf(Some(once), CrLf, false) == once
  {
    var once := NormalizeCrlf(src, CrLf, false);
    NormalizeCrlfIsRender(src, CrLf, false);
    NormalizeCrlfIsRender(Some(once), CrLf, false);
    assert once == Render(Units(NonNull(src)), CrLf);
    UnitsOfRender(Units(NonNull(src)));
    assert NonNull(Some(once)) == once;
  }
}

=== FILE: polyfill.dfy ===
/** The polyfills of Scripts/Polyfill/polyfill.ts: `Array.prototype.fill`
    (section 22.1.3.6 of ECMAScript 2015), `String.prototype.startsWith`
    and `Object.entries`.

    JavaScript numbers are modelled as integers and an omitted argument as
    `None`; the `>> 0` and `| 0` conversions are ToInt32, written out. */
module Polyfill {
  import opened Wrappers
  import opened Str

  const TwoTo32: int := 0x1_0000_0000
  const TwoTo31: int := 0x8000_0000

  /** ToInt32: the integer taken modulo 2^32 into [-2^31, 2^31). */
  function ToInt32(x: int): (r: int)
    ensures -TwoTo31 <= r < TwoTo31
    ensures (r - x) % TwoTo32 == 0
  {
    var m := x % TwoTo32;
    if m >= TwoTo31 then m - TwoTo32 else m
  }

  /** `x >> 0` on an argument that may be omitted (`undefined` becomes 0). */
  function ArgToInt32(x: Option<int>): int
  {
    match x
    case None => 0
    case Some(v) => ToInt32(v)
  }

  lemma ToInt32InRange(x: int)
    requires -TwoTo31 <= x < TwoTo31
    ensures ToInt32(x) == x
  {
  }

  // ------------------------------------------------------------------ fill

  /** Steps 8 and 11: a relative index clamped into [0, len], counting
      from the end when negative. */
  function RelativeIndex(relative: int, len: nat): (k: nat)
    ensures k <= len
    ensures relative < 0 ==> k == (if len + relative > 0 then len + relative else 0)
    ensures relative >= 0 ==> k == (if relative < len then relative else len)
  {
    if relative < 0 then Max(len + relative, 0) else Min(relative, len)
  }

  function Max(a: int, b: int): int { if a >= b then a else b }
  function Min(a: int, b: int): int { if a <= b then a else b }

  /** The first index `fill` writes (steps 6 to 8). */
  function FillStart(len: nat, start: Option<int>): (k: nat)
    ensures k <= len
  {
    RelativeIndex(ArgToInt32(start), len)
  }

  /** The index where `fill` stops (steps 9 to 11): `len` when `end` is
      omitted. */
  function FillEnd(len: nat, end: Option<int>): (final: nat)
    ensures final <= len
    ensures end.None? ==> final == len
  {
    var relativeEnd := if end.None? then len else ArgToInt32(end);
    RelativeIndex(relativeEnd, len)
  }

  /** The loop of step 12 over the array's contents, from `k` on. */
  function FillFrom<T>(o: seq<T>, value: T, k: nat, final: nat): (r: seq<T>)
    requires final <= |o|
    ensures |r| == |o|
    ensures forall i :: 0 <= i < |o| ==> r[i] == if k <= i < final then value else o[i]
    decreases final - k
  {
    if k < final then FillFrom(o[k := value], value, k + 1, final) else o
  }

  /** `Array.prototype.fill(value, start, end)` on the array's contents. */
  function Fill<T>(o: seq<T>, value: T, start: Option<int>, end: Option<int>): seq<T>
  {
    FillFrom(o, value, FillStart(|o|, start), FillEnd(|o|, end))
  }

  /** `fill` writes `value` at exactly the indices from the start to the
      end index and nowhere else; the length never changes. */
  lemma FillSpec<T>(o: seq<T>, value: T, start: Option<int>, end: Option<int>)
    ensures var r := Fill(o, value, start, end);
      var k := FillStart(|o|, start);
      var final := FillEnd(|o|, end);
      && |r| == |o|
      && (forall i :: 0 <= i < |o| && k <= i < final ==> r[i] == value)
      && (forall i :: 0 <= i < |o| && !(k <= i < final) ==> r[i] == o[i])
  {
  }

  /** A start at or after the end leaves the array as it was. */
  lemma FillEmptyRange<T>(o: seq<T>, value: T, start: Option<int>, end: Option<int>)
    requires FillStart(|o|, start) >= FillEnd(|o|, end)
    ensures Fill(o, value, start, end) == o
  {
  }

  /** With neither bound given every element becomes `value`. */
  lemma FillAll<T>(o: seq<T>, value: T)
    ensures var r := Fill(o, value, None, None);
      |r| == |o| && forall i :: 0 <= i < |r| ==> r[i] == value
  {
  }

  /** Filling is idempotent. */
  lemma FillTwice<T>(o: seq<T>, value: T, start: Option<int>, end: Option<int>)
    ensures Fill(Fill(o, value, start, end), value, start, end) == Fill(o, value, start, end)
  {
    var r := Fill(o, value, start, end);
    assert |r| == |o|;
  }

  /** The polyfill itself: the array is written in place, one index at a
      time, and the same array is returned. */
  method FillArray<T>(a: array<T>, value: T, start: Option<int>, end: Option<int>) returns (r: array<T>)
    modifies a
    ensures r == a
    ensures a[..] == Fill(old(a[..]), value, start, end)
  {
    var len := a.Length;
    var k := FillStart(len, start);
    var finalValue := FillEnd(len, end);
    ghost var first := k;
    ghost var o := a[..];
    while k < finalValue
      invariant first <= k && (k <= finalValue || k == first)
      invariant forall i :: 0 <= i < len ==> a[i] == if first <= i < k then value else o[i]
      decreases finalValue - k
    {
      a[k] := value;
      k := k + 1;
    }
    assert a[..] == Fill(o, value, start, end);
    return a;
  }

  // ------------------------------------------------------------ startsWith

  /** JavaScript's `substring(a, b)`: both ends clamped to the string and
      put in order. */
  function Substring(s: string, a: int, b: int): (r: string)
  {
    var a' := Min(Max(a, 0), |s|);
    var b' := Min(Max(b, 0), |s|);
    if a' <= b' then s[a'..b'] else s[b'..a']
  }

  /** The position `startsWith` starts at: `rawPos | 0` when positive,
      otherwise 0. */
  function StartPos(rawPos: Option<int>): int
  {
    if rawPos.Some? && rawPos.value > 0 then ToInt32(rawPos.value) else 0
  }

  /** The `startsWith` polyfill. */
  function StartsWith(s: string, search: string, rawPos: Option<int>): bool
  {
    var pos := StartPos(rawPos);
    Substring(s, pos, pos + |search|) == search
  }

  /** `startsWith` holds exactly when `search` is empty or occurs at the
      start position; a non-empty `search` past the end is not found. */
  lemma StartsWithOccurs(s: string, search: string, rawPos: Option<int>)
    ensures StartsWith(s, search, rawPos) <==> |search| == 0 || OccursAt(s, search, StartPos(rawPos))
  {
    var pos := StartPos(rawPos);
    var sub := Substring(s, pos, pos + |search|);
    if |search| > 0 && sub == search {
      assert |sub| == |search|;
    }
  }

  /** Without a position the search starts at 0. */
  lemma StartsWithPrefix(s: string, search: string)
    ensures StartsWith(s, search, None) <==> |search| <= |s| && s[..|search|] == search
  {
    StartsWithOccurs(s, search, None);
  }

  // -------------------------------------------------------------- entries

  /** An object: its own enumerable keys in `Object.keys` order and its
      property values. */
  datatype Object<V> = Object(keys: seq<string>, props: map<string, V>)
  {
    /** Every key has a value and no key is listed twice. */
    predicate Valid()
    {
      && (forall i :: 0 <= i < |keys| ==> keys[i] in props)
      && (forall i, j :: 0 <= i < j < |keys| ==> keys[i] != keys[j])
    }

    /** The properties the keys name. */
    function Own(): map<string, V>
      requires Valid()
    {
      map k | k in keys :: props[k]
    }
  }

  /** The `Object.entries` polyfill: the result is pre-sized and filled
      from the last key down. */
  method Entries<V>(obj: Object<V>) returns (res: seq<(string, V)>)
    requires obj.Valid()
    ensures |res| == |obj.keys|
    ensures forall i :: 0 <= i < |res| ==> res[i] == (obj.keys[i], obj.props[obj.keys[i]])
  {
    var ownProps := obj.keys;
    var i := |ownProps|;
    res := [];
    while i > 0
      invariant 0 <= i <= |ownProps|
      invariant |res| == |ownProps| - i
      invariant forall j :: 0 <= j < |res| ==> res[j] == (ownProps[i + j], obj.props[ownProps[i + j]])
      decreases i
    {
      i := i - 1;
      res := [(ownProps[i], obj.props[ownProps[i]])] + res;
    }
  }

  /** `Object.fromEntries`: later pairs overwrite earlier ones. */
  function FromEntries<V>(es: seq<(string, V)>): map<string, V>
  {
    if es == [] then map[] else FromEntries(es[..|es| - 1])[es[|es| - 1].0 := es[|es| - 1].1]
  }

  /** `Object.fromEntries` undoes `Object.entries`: the pairs rebuild the
      object's own properties. */
  lemma EntriesRoundTrip<V>(obj: Object<V>, es: seq<(string, V)>)
    requires obj.Valid()
    requires |es| == |obj.keys|
    requires forall i :: 0 <= i < |es| ==> es[i] == (obj.keys[i], obj.props[obj.keys[i]])
    ensures FromEntries(es) == obj.Own()
  {
    FromEntriesPrefix(obj, es, |es|);
    assert es[..|es|] == es;
    assert obj.keys[..|es|] == obj.keys;
  }

  lemma {:induction false} FromEntriesPrefix<V>(obj: Object<V>, es: seq<(string, V)>, n: nat)
    requires obj.Valid()
    requires |es| == |obj.keys| && n <= |es|
    requires forall i :: 0 <= i < |es| ==> es[i] == (obj.keys[i], obj.props[obj.keys[i]])
    ensures FromEntries(es[..n]) == map k | k in obj.keys[..n] :: obj.props[k]
  {
    if n > 0 {
      FromEntriesPrefix(obj, es, n - 1);
      assert es[..n][..n - 1] == es[..n - 1];
      assert obj.keys[..n] == obj.keys[..n - 1] + [obj.keys[n - 1]];
    }
  }
}

=== FILE: str_core.dfy ===
/** String basics of the `Str` class (Scripts/Common/Base/Str.ts): null
    handling, case-insensitive comparison, trimming, search and replace.

    A JavaScript string is a `seq<char>`.  `toLowerCase` is modelled as
    ASCII case folding; a `null` or `undefined` argument is `None`.  The
    search and replace operations take plain strings, since the source
    first maps a missing string to "" with `NonNull`. */
module Str {
  import opened Wrappers

  // ---------------------------------------------------------------- case

  /** ASCII `toLowerCase` of one character. */
  function LowerChar(c: char): char
  {
    if 'A' <= c <= 'Z' then (c as int + 32) as char else c
  }

  /** ASCII `toLowerCase`, one character at a time. */
  function LowerStr(s: string): string
  {
    seq(|s|, i requires 0 <= i < |s| => LowerChar(s[i]))
  }

  /** The character a search compares: itself when the search is
      case-sensitive, its lower case otherwise. */
  function FoldChar(c: char, caseSensitive: bool): char
  {
    if caseSensitive then c else LowerChar(c)
  }

  /** The string a search compares. */
  function Fold(s: string, caseSensitive: bool): string
  {
    if caseSensitive then s else LowerStr(s)
  }

  lemma FoldIndex(s: string, cs: bool)
    ensures |Fold(s, cs)| == |s|
    ensures forall i :: 0 <= i < |s| ==> Fold(s, cs)[i] == FoldChar(s[i], cs)
  {
  }

  lemma FoldSlice(s: string, cs: bool, a: int, b: int)
    requires 0 <= a <= b <= |s|
    ensures Fold(s, cs)[a..b] == Fold(s[a..b], cs)
  {
    FoldIndex(s, cs);
    FoldIndex(s[a..b], cs);
  }

  // ---------------------------------------------------------------- null

  /** `Str.IsNullOrZeroLen`. */
  predicate IsNullOrZeroLen(str: Option<string>)
  {
    str.None? || |str.value| == 0
  }

  /** `Str.NonNull`: a missing string reads as "". */
  function NonNull(str: Option<string>): (r: string)
    ensures str.Some? ==> r == str.value
    ensures str.None? ==> r == ""
  {
    if IsNullOrZeroLen(str) then "" else str.value
  }

  /** `Str.StrCmpi` (and `Str.IsSamei`, which calls it): equality after
      lower-casing, with a missing string read as "". */
  function StrCmpi(s1: Option<string>, s2: Option<string>): (r: bool)
    ensures r <==> |NonNull(s1)| == |NonNull(s2)| &&
                   forall i :: 0 <= i < |NonNull(s1)| ==>
                     LowerChar(NonNull(s1)[i]) == LowerChar(NonNull(s2)[i])
  {
    FoldIndex(NonNull(s1), false);
    FoldIndex(NonNull(s2), false);
    LowerStr(NonNull(s1)) == LowerStr(NonNull(s2))
  }

  /** `Str.IsSamei`. */
  function IsSamei(s1: Option<string>, s2: Option<string>): bool
  {
    StrCmpi(s1, s2)
  }

  /** Case-insensitive equality is an equivalence relation, and a missing
      string is the same as the empty string. */
  lemma StrCmpiEquivalence(a: Option<string>, b: Option<string>, c: Option<string>)
    ensures StrCmpi(a, a)
    ensures StrCmpi(a, b) == StrCmpi(b, a)
    ensures StrCmpi(a, b) && StrCmpi(b, c) ==> StrCmpi(a, c)
    ensures StrCmpi(None, Some(""))
  {
  }

  /** The comparisons the keyboard code relies on. */
  lemma IsSameiExamples()
    ensures IsSamei(Some("RDP"), Some("rdp"))
    ensures IsSamei(Some("En-US-Qwerty"), Some("en-us-qwerty"))
    ensures !IsSamei(Some("vnc"), Some("rdp"))
    ensures !IsSamei(None, Some("rdp"))
  {
    assert StrCmpi(Some("RDP"), Some("rdp"));
    assert StrCmpi(Some("En-US-Qwerty"), Some("en-us-qwerty"));
    assert LowerChar("vnc"[0]) != LowerChar("rdp"[0]);
  }

  // ---------------------------------------------------------------- trim

  /** The characters JavaScript's `trim` removes: the ECMAScript
      WhiteSpace and LineTerminator code points. */
  predicate IsJsWhitespace(c: char)
  {
    var n := c as int;
    n == 0x09 || n == 0x0A || n == 0x0B || n == 0x0C || n == 0x0D || n == 0x20 ||
    n == 0xA0 || n == 0x1680 || (0x2000 <= n <= 0x200A) || n == 0x2028 ||
    n == 0x2029 || n == 0x202F || n == 0x205F || n == 0x3000 || n == 0xFEFF
  }

  function TrimStart(s: string): (r: string)
    ensures |r| <= |s| && r == s[|s| - |r|..]
    ensures |r| == 0 || !IsJsWhitespace(r[0])
    ensures forall i :: 0 <= i < |s| - |r| ==> IsJsWhitespace(s[i])
    decreases |s|
  {
    if s != [] && IsJsWhitespace(s[0]) then
      var r := TrimStart(s[1..]);
      assert s[1..][|s| - 1 - |r|..] == s[|s| - |r|..];
      assert forall i :: 1 <= i < |s| - |r| ==> s[i] == s[1..][i - 1];
      r
    else s
  }

  function TrimEnd(s: string): (r: string)
    ensures |r| <= |s| && r == s[..|r|]
    ensures |r| == 0 || !IsJsWhitespace(r[|r| - 1])
    ensures forall i :: |r| <= i < |s| ==> IsJsWhitespace(s[i])
    decreases |s|
  {
    if s != [] && IsJsWhitespace(s[|s| - 1]) then TrimEnd(s[..|s| - 1]) else s
  }

  /** JavaScript's `String.prototype.trim`: the longest infix that neither
      starts nor ends with whitespace, everything cut off being whitespace. */
  function Trim(s: string): (r: string)
    ensures |r| == 0 || (!IsJsWhitespace(r[0]) && !IsJsWhitespace(r[|r| - 1]))
  {
    TrimEnd(TrimStart(s))
  }

  /** What trimming keeps is an infix of the input. */
  lemma {:induction false} TrimInfix(s: string)
    ensures var a := |s| - |TrimStart(s)|;
      && a + |Trim(s)| <= |s| && Trim(s) == s[a..a + |Trim(s)|]
  {
    var t := TrimStart(s);
    var a := |s| - |t|;
    SliceOfSuffix(s, a, |TrimEnd(t)|);
  }

  lemma SliceOfSuffix(s: string, a: nat, k: nat)
    requires a + k <= |s|
    ensures s[a..][..k] == s[a..a + k]
  {
  }

  /** What trimming cuts off, at either end, is whitespace. */
  lemma {:induction false} TrimCut(s: string)
    ensures var a := |s| - |TrimStart(s)|;
      && (forall i :: 0 <= i < a ==> IsJsWhitespace(s[i]))
      && (forall i :: a + |Trim(s)| <= i < |s| ==> IsJsWhitespace(s[i]))
  {
    var t := TrimStart(s);
    var r := TrimEnd(t);
    var a := |s| - |t|;
    assert t == s[a..];
    forall i | a + |r| <= i < |s|
      ensures IsJsWhitespace(s[i])
    {
      assert s[i] == t[i - a];
    }
  }

  /** A string that neither starts nor ends with whitespace trims to itself. */
  lemma TrimTrimmed(s: string)
    requires |s| == 0 || (!IsJsWhitespace(s[0]) && !IsJsWhitespace(s[|s| - 1]))
    ensures Trim(s) == s
  {
  }

  /** Trimming is idempotent. */
  lemma TrimIdempotent(s: string)
    ensures Trim(Trim(s)) == Trim(s)
  {
    TrimTrimmed(Trim(s));
  }

  /** `Str.NonNullTrim`. */
  function NonNullTrim(str: Option<string>): (r: string)
    ensures r == Trim(NonNull(str))
  {
    if IsNullOrZeroLen(str) then "" else Trim(str.value)
  }

  /** `Str.IsEmpty`: missing, or nothing left after trimming. */
  predicate IsEmpty(str: Option<string>)
  {
    str.None? || |Trim(str.value)| == 0
  }

  /** `IsEmpty` holds exactly of a missing string and of a string made of
      white space only (the empty string included). */
  lemma IsEmptyBlank(str: Option<string>)
    ensures IsEmpty(str) <==> str.None? || forall i :: 0 <= i < |str.value| ==> IsJsWhitespace(str.value[i])
  {
    if str.Some? {
      var s := str.value;
      TrimInfix(s);
      TrimCut(s);
      if |Trim(s)| > 0 {
        var a := |s| - |TrimStart(s)|;
        assert s[a] == Trim(s)[0];
      }
    }
  }

  // ---------------------------------------------------------------- search

  /** `kw` occurs in `s` starting at index `k`. */
  predicate OccursAt(s: string, kw: string, k: int)
  {
    0 <= k && k + |kw| <= |s| && s[k..k + |kw|] == kw
  }

  /** JavaScript's `indexOf` starting position: `from` clamped to the
      string. */
  function ClampFrom(from: int, len: nat): (r: nat)
    ensures r <= len
  {
    if from < 0 then 0 else if from > len then len else from
  }

  /** `String.prototype.indexOf(kw, from)`: the least occurrence at or after
      the clamped start, or -1. */
  function IndexOf(s: string, kw: string, from: int): (r: int)
    ensures r == -1 || (ClampFrom(from, |s|) <= r && OccursAt(s, kw, r))
    ensures forall k :: ClampFrom(from, |s|) <= k && (r == -1 || k < r) ==> !OccursAt(s, kw, k)
  {
    IndexFrom(s, kw, ClampFrom(from, |s|))
  }

  function IndexFrom(s: string, kw: string, k: nat): (r: int)
    requires k <= |s|
    ensures r == -1 || (k <= r && OccursAt(s, kw, r))
    ensures forall j :: k <= j && (r == -1 || j < r) ==> !OccursAt(s, kw, j)
    decreases |s| - k
  {
    if k + |kw| > |s| then -1
    else if s[k..k + |kw|] == kw then k
    else IndexFrom(s, kw, k + 1)
  }

  /** `keyword` matches `str` at index `k`, comparing folded characters. */
  predicate Matches(str: string, keyword: string, k: int, caseSensitive: bool)
  {
    OccursAt(Fold(str, caseSensitive), Fold(keyword, caseSensitive), k)
  }

  /** A match, stated character by character. */
  lemma MatchesIndex(str: string, keyword: string, k: int, cs: bool)
    ensures Matches(str, keyword, k, cs) <==>
      0 <= k && k + |keyword| <= |str| &&
      forall d :: 0 <= d < |keyword| ==> FoldChar(str[k + d], cs) == FoldChar(keyword[d], cs)
  {
    if 0 <= k && k + |keyword| <= |str| {
      var a := Fold(str, cs)[k..k + |keyword|];
      var b := Fold(keyword, cs);
      assert |a| == |b| == |keyword|;
      assert forall d :: 0 <= d < |keyword| ==> a[d] == FoldChar(str[k + d], cs) && b[d] == FoldChar(keyword[d], cs);
      assert a == b <==> forall d :: 0 <= d < |keyword| ==> a[d] == b[d];
    }
  }

  /** `Str.SearchStr`: -1 when either string is empty; otherwise the least
      index at or after `start` where `keyword` matches (case-folded unless
      `caseSensitive`), or -1 when there is none. */
  function SearchStr(str: string, keyword: string, start: int, caseSensitive: bool): (r: int)
    ensures |str| == 0 || |keyword| == 0 ==> r == -1
    ensures r != -1 ==> start <= r && r + |keyword| <= |str| && Matches(str, keyword, r, caseSensitive)
    ensures |str| > 0 && |keyword| > 0 ==>
      forall k :: start <= k && (r == -1 || k < r) ==> !Matches(str, keyword, k, caseSensitive)
  {
    if |str| == 0 || |keyword| == 0 then -1
    else
      var r := IndexOf(Fold(str, caseSensitive), Fold(keyword, caseSensitive), start);
      assert forall k :: start <= k && k < ClampFrom(start, |str|) ==> !Matches(str, keyword, k, caseSensitive);
      r
  }

  /** Two searches that start on either side of a stretch without matches
      find the same index. */
  lemma SearchSkip(str: string, keyword: string, a: int, b: int, cs: bool)
    requires |str| > 0 && |keyword| > 0 && a <= b
    requires forall k :: a <= k < b ==> !Matches(str, keyword, k, cs)
    ensures SearchStr(str, keyword, a, cs) == SearchStr(str, keyword, b, cs)
  {
    var r1 := SearchStr(str, keyword, a, cs);
    var r2 := SearchStr(str, keyword, b, cs);
    if r1 != -1 {
      assert b <= r1;
      assert r2 != -1 && r2 <= r1;
    }
  }

  // ---------------------------------------------------------------- replace

  /** `Str.ReplaceStr`: "" for an empty `str`, `str` itself for an empty
      `oldKeyword`, otherwise the non-overlapping matches of `oldKeyword`,
      found left to right, each replaced by `newKeyword`. */
  function ReplaceStr(str: string, oldKeyword: string, newKeyword: string, caseSensitive: bool): (r: string)
    ensures |str| == 0 ==> r == ""
    ensures |oldKeyword| == 0 ==> r == str
    ensures (forall k :: !Matches(str, oldKeyword, k, caseSensitive)) ==> r == str
  {
    if |str| == 0 then ""
    else if |oldKeyword| == 0 then str
    else
      assert (forall k :: !Matches(str, oldKeyword, k, caseSensitive)) ==> SearchStr(str, oldKeyword, 0, caseSensitive) == -1;
      ReplaceFrom(str, oldKeyword, newKeyword, caseSensitive, 0)
  }

  /** The replace loop from position `j` on: the text from `j` up to the
      next match is copied, the match becomes `newKeyword`, and the search
      resumes after the match. */
  function ReplaceFrom(str: string, oldKeyword: string, newKeyword: string, caseSensitive: bool, j: nat): (r: string)
    requires |oldKeyword| > 0 && j <= |str|
    decreases |str| - j
  {
    var i := SearchStr(str, oldKeyword, j, caseSensitive);
    if i == -1 then str[j..]
    else str[j..i] + newKeyword + ReplaceFrom(str, oldKeyword, newKeyword, caseSensitive, i + |oldKeyword|)
  }
}

=== FILE: str_replace.dfy ===
/** The replace loop of `Str.ReplaceStr`, and a reference reading of it: a
    left-to-right scan that, at each position, either replaces a match of
    the keyword and jumps past it, or copies one character. */
module StrReplace {
  import opened Str

  /** The reference scan from position `k`. */
  function ReplaceScan(str: string, kw: string, nw: string, cs: bool, k: nat): string
    requires |kw| > 0 && k <= |str|
    decreases |str| - k
  {
    if k + |kw| > |str| then str[k..]
    else if Matches(str, kw, k, cs) then nw + ReplaceScan(str, kw, nw, cs, k + |kw|)
    else [str[k]] + ReplaceScan(str, kw, nw, cs, k + 1)
  }

  // ---------------------------------------------------------------- sequences

  lemma AppendAssoc<T>(a: seq<T>, b: seq<T>, c: seq<T>)
    ensures a + b + c == a + (b + c)
  {
  }

  lemma ConsSlice<T>(s: seq<T>, k: nat, i: nat, r: seq<T>)
    requires k < i <= |s|
    ensures [s[k]] + (s[k + 1..i] + r) == s[k..i] + r
  {
    assert s[k..i] == [s[k]] + s[k + 1..i];
  }

  lemma SliceSplit<T>(s: seq<T>, a: nat, b: nat)
    requires a <= b <= |s|
    ensures s[a..] == s[a..b] + s[b..]
  {
  }

  // ---------------------------------------------------------------- scan

  /** A stretch without matches is copied unchanged. */
  lemma {:induction false} ScanSkip(str: string, kw: string, nw: string, cs: bool, k: nat, i: nat)
    requires |kw| > 0 && k <= i <= |str|
    requires forall m :: k <= m < i ==> !Matches(str, kw, m, cs)
    ensures ReplaceScan(str, kw, nw, cs, k) == str[k..i] + ReplaceScan(str, kw, nw, cs, i)
    decreases i - k
  {
    if k == i {
      assert str[k..i] == [];
    } else if k + |kw| > |str| {
      SliceSplit(str, k, i);
    } else {
      ScanSkip(str, kw, nw, cs, k + 1, i);
      ConsSlice(str, k, i, ReplaceScan(str, kw, nw, cs, i));
    }
  }

  /** A match at the scan position is replaced, and the scan resumes past
      it. */
  lemma ScanMatch(str: string, kw: string, nw: string, cs: bool, k: nat)
    requires |kw| > 0 && k + |kw| <= |str| && Matches(str, kw, k, cs)
    ensures ReplaceScan(str, kw, nw, cs, k) == nw + ReplaceScan(str, kw, nw, cs, k + |kw|)
  {
  }

  /** The scan from the end of the string yields nothing. */
  lemma ScanAtEnd(str: string, kw: string, nw: string, cs: bool)
    requires |kw| > 0
    ensures ReplaceScan(str, kw, nw, cs, |str|) == []
  {
  }

  // ---------------------------------------------------------------- loop

  /** One round of the replace loop that finds a match. */
  lemma ReplaceFromStep(str: string, kw: string, nw: string, cs: bool, j: nat)
    requires |kw| > 0 && j <= |str| && SearchStr(str, kw, j, cs) != -1
    ensures j <= SearchStr(str, kw, j, cs) && SearchStr(str, kw, j, cs) + |kw| <= |str|
    ensures ReplaceFrom(str, kw, nw, cs, j) ==
      str[j..SearchStr(str, kw, j, cs)] + nw + ReplaceFrom(str, kw, nw, cs, SearchStr(str, kw, j, cs) + |kw|)
  {
  }

  /** The last round of the replace loop, which finds no match. */
  lemma ReplaceFromEnd(str: string, kw: string, nw: string, cs: bool, j: nat)
    requires |kw| > 0 && j <= |str| && SearchStr(str, kw, j, cs) == -1
    ensures ReplaceFrom(str, kw, nw, cs, j) == str[j..]
  {
  }

  /** The replace loop computes the reference scan. */
  lemma {:induction false} ReplaceFromIsScan(str: string, kw: string, nw: string, cs: bool, j: nat)
    requires |str| > 0 && |kw| > 0 && j <= |str|
    ensures ReplaceFrom(str, kw, nw, cs, j) == ReplaceScan(str, kw, nw, cs, j)
    decreases |str| - j
  {
    if SearchStr(str, kw, j, cs) == -1 {
      ReplaceFromEnd(str, kw, nw, cs, j);
      ScanSkip(str, kw, nw, cs, j, |str|);
      ScanAtEnd(str, kw, nw, cs);
      assert str[j..|str|] + [] == str[j..];
    } else {
      ReplaceFromStep(str, kw, nw, cs, j);
      ReplaceFromIsScan(str, kw, nw, cs, SearchStr(str, kw, j, cs) + |kw|);
      ScanSkip(str, kw, nw, cs, j, SearchStr(str, kw, j, cs));
      AppendAssoc(str[j..SearchStr(str, kw, j, cs)], nw,
                  ReplaceScan(str, kw, nw, cs, SearchStr(str, kw, j, cs) + |kw|));
    }
  }

  /** `Str.ReplaceStr` is the reference scan from the start, apart from the
      two early exits. */
  lemma ReplaceStrIsScan(str: string, kw: string, nw: string, cs: bool)
    requires |str| > 0 && |kw| > 0
    ensures ReplaceStr(str, kw, nw, cs) == ReplaceScan(str, kw, nw, cs, 0)
  {
    ReplaceFromIsScan(str, kw, nw, cs, 0);
  }

  // ---------------------------------------------------------------- identity

  lemma {:induction false} ScanSelf(str: string, kw: string, k: nat)
    requires |kw| > 0 && k <= |str|
    ensures ReplaceScan(str, kw, kw, true, k) == str[k..]
    decreases |str| - k
  {
    if k + |kw| > |str| {
    } else if Matches(str, kw, k, true) {
      ScanSelf(str, kw, k + |kw|);
      assert str[k..k + |kw|] == kw;
      SliceSplit(str, k, k + |kw|);
    } else {
      ScanSelf(str, kw, k + 1);
      assert str[k..] == [str[k]] + str[k + 1..];
    }
  }

  /** Replacing a keyword by itself, case-sensitively, changes nothing. */
  lemma ReplaceSelf(str: string, kw: string)
    ensures ReplaceStr(str, kw, kw, true) == str
  {
    if |str| > 0 && |kw| > 0 {
      ReplaceStrIsScan(str, kw, kw, true);
      ScanSelf(str, kw, 0);
    }
  }
}

=== FILE: str_tokens.dfy ===
/** `Str.ReplaceStr` on a string built from tokens: when the keyword can
    only match exactly at tokens equal to it, replacing in the joined
    string is replacing token by token.  The HTML codec proofs are built
    on this. */
module StrTokens {
  import opened Str
  import opened StrReplace

  /** The tokens joined in order. */
  function Concat(ts: seq<string>): string
    decreases |ts|
  {
    if ts == [] then "" else ts[0] + Concat(ts[1..])
  }

  lemma {:induction false} ConcatSplit(ts: seq<string>, m: nat)
    requires m <= |ts|
    ensures Concat(ts) == Concat(ts[..m]) + Concat(ts[m..])
    decreases m
  {
    if m > 0 {
      ConcatSplit(ts[1..], m - 1);
      assert ts[1..][..m - 1] == ts[..m][1..];
      assert ts[1..][m - 1..] == ts[m..];
    }
  }

  lemma ConcatCons(ts: seq<string>, m: nat)
    requires m < |ts|
    ensures Concat(ts[m..]) == ts[m] + Concat(ts[m + 1..])
  {
    assert ts[m..][1..] == ts[m + 1..];
  }

  /** The token `m` sits at offset `|Concat(ts[..m])|` of the joined string. */
  lemma ConcatToken(ts: seq<string>, m: nat)
    requires m < |ts|
    ensures var off := |Concat(ts[..m])|;
      && off + |ts[m]| <= |Concat(ts)|
      && Concat(ts)[off..off + |ts[m]|] == ts[m]
      && Concat(ts)[off + |ts[m]|..] == Concat(ts[m + 1..])
      && |Concat(ts[..m + 1])| == off + |ts[m]|
  {
    ConcatSplit(ts, m);
    ConcatCons(ts, m);
    ConcatSplit(ts[..m + 1], m);
    assert ts[..m + 1][..m] == ts[..m];
    assert ts[..m + 1][m..] == [ts[m]];
    assert Concat([ts[m]]) == ts[m] + Concat([]);
  }

  /** `a` and `b` agree on their common length. */
  function Agree(a: string, b: string): bool
    decreases |a|
  {
    |a| == 0 || |b| == 0 || (a[0] == b[0] && Agree(a[1..], b[1..]))
  }

  lemma {:induction false} AgreeIndex(a: string, b: string, d: nat)
    requires Agree(a, b) && d < |a| && d < |b|
    ensures a[d] == b[d]
    decreases d
  {
    if d > 0 {
      AgreeIndex(a[1..], b[1..], d - 1);
    }
  }

  lemma {:induction false} AgreeFromIndex(a: string, b: string)
    requires forall d :: 0 <= d < |a| && d < |b| ==> a[d] == b[d]
    ensures Agree(a, b)
    decreases |a|
  {
    if |a| > 0 && |b| > 0 {
      AgreeFromIndex(a[1..], b[1..]);
    }
  }

  /** No match of `q` can start inside `t`, whatever follows `t`. */
  function AgreeNowhere(t: string, q: string): bool
    decreases |t|
  {
    |t| == 0 || (!Agree(t, q) && AgreeNowhere(t[1..], q))
  }

  lemma {:induction false} AgreeNowhereAt(t: string, q: string, k: nat)
    requires AgreeNowhere(t, q) && k < |t|
    ensures !Agree(t[k..], q)
    decreases k
  {
    if k > 0 {
      AgreeNowhereAt(t[1..], q, k - 1);
      assert t[1..][k - 1..] == t[k..];
    }
  }

  /** A token none of whose characters starts the keyword is apart from it. */
  lemma {:induction false} AgreeNowhereNoHead(t: string, q: string)
    requires |q| > 0 && forall i :: 0 <= i < |t| ==> t[i] != q[0]
    ensures AgreeNowhere(t, q)
    decreases |t|
  {
    if |t| > 0 {
      AgreeNowhereNoHead(t[1..], q);
    }
  }

  /** Each token either is the keyword (after folding) or admits no match
      starting inside it. */
  predicate Aligned(ts: seq<string>, p: string, cs: bool)
  {
    forall i :: 0 <= i < |ts| ==>
      Fold(ts[i], cs) == Fold(p, cs) || AgreeNowhere(Fold(ts[i], cs), Fold(p, cs))
  }

  /** The tokens with every token equal to the keyword (after folding)
      replaced by `n`. */
  function Substitute(ts: seq<string>, p: string, n: string, cs: bool): (r: seq<string>)
    ensures |r| == |ts|
    ensures forall i :: 0 <= i < |ts| ==> r[i] == (if Fold(ts[i], cs) == Fold(p, cs) then n else ts[i])
  {
    seq(|ts|, i requires 0 <= i < |ts| => if Fold(ts[i], cs) == Fold(p, cs) then n else ts[i])
  }

  /** Replacing in the joined string is joining the substituted tokens. */
  lemma ReplaceTokens(ts: seq<string>, p: string, n: string, cs: bool)
    requires |p| > 0 && Aligned(ts, p, cs)
    ensures ReplaceStr(Concat(ts), p, n, cs) == Concat(Substitute(ts, p, n, cs))
  {
    var s := Concat(ts);
    var sub := Substitute(ts, p, n, cs);
    if |s| == 0 {
      EmptyTokens(ts, p, n, cs);
    } else {
      ReplaceStrIsScan(s, p, n, cs);
      ScanTokensFrom(ts, p, n, cs, 0);
      assert ts[..0] == [];
      assert sub[0..] == sub;
    }
  }

  lemma {:induction false} EmptyTokens(ts: seq<string>, p: string, n: string, cs: bool)
    requires |p| > 0 && Concat(ts) == ""
    ensures Concat(Substitute(ts, p, n, cs)) == ""
    decreases |ts|
  {
    if ts != [] {
      assert ts[0] == "";
      EmptyTokens(ts[1..], p, n, cs);
      assert Substitute(ts, p, n, cs)[1..] == Substitute(ts[1..], p, n, cs);
    }
  }

  lemma {:induction false} ScanTokensFrom(ts: seq<string>, p: string, n: string, cs: bool, m: nat)
    requires |p| > 0 && Aligned(ts, p, cs) && m <= |ts|
    ensures |Concat(ts[..m])| <= |Concat(ts)|
    ensures ReplaceScan(Concat(ts), p, n, cs, |Concat(ts[..m])|) == Concat(Substitute(ts, p, n, cs)[m..])
    decreases |ts| - m
  {
    var s := Concat(ts);
    var sub := Substitute(ts, p, n, cs);
    ConcatSplit(ts, m);
    var off := |Concat(ts[..m])|;
    if m == |ts| {
      assert ts[m..] == [];
      assert sub[m..] == [];
      ScanAtEnd(s, p, n, cs);
    } else {
      var t := ts[m];
      ConcatToken(ts, m);
      ScanTokensFrom(ts, p, n, cs, m + 1);
      ConcatCons(sub, m);
      var e := |Concat(ts[..m + 1])|;
      if Fold(t, cs) == Fold(p, cs) {
        FoldSlice(s, cs, off, e);
        FoldIndex(t, cs);
        FoldIndex(p, cs);
        ScanAtMatch(s, p, n, cs, off, e);
      } else {
        NoMatchInToken(s, t, p, cs, off);
        ScanSkip(s, p, n, cs, off, e);
      }
    }
  }

  /** A match at the scan position is replaced at once; the scan resumes
      at `e`, just past it. */
  lemma ScanAtMatch(s: string, p: string, n: string, cs: bool, off: nat, e: nat)
    requires |p| > 0 && e == off + |p| <= |s| && Matches(s, p, off, cs)
    ensures ReplaceScan(s, p, n, cs, off) == n + ReplaceScan(s, p, n, cs, e)
  {
    ScanMatch(s, p, n, cs, off);
  }

  /** No match starts inside a token that admits none. */
  lemma NoMatchInToken(s: string, t: string, p: string, cs: bool, off: nat)
    requires off + |t| <= |s| && s[off..off + |t|] == t
    requires AgreeNowhere(Fold(t, cs), Fold(p, cs))
    ensures forall k :: off <= k < off + |t| ==> !Matches(s, p, k, cs)
  {
    forall k | off <= k < off + |t|
      ensures !Matches(s, p, k, cs)
    {
      NoMatchInside(s, t, p, cs, off, k);
    }
  }

  lemma NoMatchInside(s: string, t: string, p: string, cs: bool, off: nat, k: nat)
    requires off + |t| <= |s| && s[off..off + |t|] == t && off <= k < off + |t|
    requires AgreeNowhere(Fold(t, cs), Fold(p, cs))
    ensures !Matches(s, p, k, cs)
  {
    var ft := Fold(t, cs);
    var fp := Fold(p, cs);
    AgreeNowhereAt(ft, fp, k - off);
    if Matches(s, p, k, cs) {
      MatchesIndex(s, p, k, cs);
      forall d | 0 <= d < |ft[k - off..]| && d < |fp|
        ensures ft[k - off..][d] == fp[d]
      {
        assert s[k + d] == t[k - off + d];
      }
      AgreeFromIndex(ft[k - off..], fp);
    }
  }
}

=== FILE: wrappers.dfy ===
/** Optional values, used for the JavaScript `null` / `undefined` cases that
    the modelled code treats specially. */
module Wrappers {

  /** `None` stands for a JavaScript `null` or `undefined`. */
  datatype Option<+T> = None | Some(value: T) {

    /** The wrapped value, or `default` for `None`. */
    function GetOr(default: T): T {
      match this
      case Some(v) => v
      case None => default
    }
  }
}
